=== FILE: README.md ===
# AnimaList in Dafny

A model of AnimaList, a catalogue and review site for animated titles. The
backend is an Express application over MySQL; the frontend is a React
single-page application. The model covers the backend's request handlers,
guards and validators and the frontend's pure state logic, and it proves
properties about them.

- **Database.** The MySQL tables are immutable sequences of rows in one `Db`
  value (`Schema`). They are `animacoes` (titles, with the aggregate columns
  `nota_media` and `total_avaliacoes`), `generos`, `animacao_generos`,
  `usuarios` with their role, `avaliacoes` (reviews) and `lista_pessoal`
  (personal-list entries). The AUTO_INCREMENT counters are part of the value.
- **Handlers.** Every controller handler is a pure transition
  `Db × request → (HTTP status, Db)`. Read queries are functions over `Db`
  with ordering, bounds and "same predicate" contracts.
- **The central invariant, `Schema.Valid`.** The review, list and title writes
  keep it. It states four things:
  - at most one review per (user, title);
  - at most one list entry per (user, title);
  - every review, list entry and genre link references an existing title;
  - every title's stored review count and mean equal the count and mean of its
    current reviews.
- **Guards and validators.** Bearer-token extraction, the admin check, the
  Joi request schemas, the CORS decision and the migration script's
  statement splitter are total functions with accept and reject rules.
- **Frontend.** The state logic is pure functions and small state machines:
  - the filter/query-string builders of the catalogue pages;
  - the title forms of the two admin modals;
  - the banner carousel and the five-star widget;
  - the route guard and the session context;
  - the list-status counters and the status colour tables.

**Abstractions.** Time is an integer parameter, the current year included.
Averages are `real`. Password hashing, JWT signing and verification, e-mail
and URI syntax, and statement execution are function-typed parameters. A JS
request body field that can be absent, `null` or a value is
`Common.Field<T>` (`Absent | Null | Present(T)`).

Modules follow the source files:

| module | file | source |
|---|---|---|
| Common | common.dfy | shared helpers (Option, Field, Filter, CountWhere) |
| Schema | schema.dfy | the tables and the invariants |
| Paging | paging.dfy | the `{ page, limit, total, pages }` envelope and LIMIT/OFFSET |
| Ranking | ranking.dfy | ORDER BY … DESC and LIMIT k |
| Text | text.dfy | trim, split, join, lower-case, number formatting |
| SqlLike | sql_like.dfy | MySQL `LIKE` with `%`, `_` and the `\` escape |
| Reviews | reviews.dfy | backend/controllers/avaliacaoController.js |
| Watchlist | watchlist.dfy | backend/controllers/listaController.js |
| Catalog | catalog.dfy | backend/controllers/animacaoController.js (reads) |
| TitleWrites | titles.dfy | backend/controllers/animacaoController.js (writes) |
| Stats | stats.dfy | backend/controllers/statsController.js |
| Genres | genres.dfy | backend/controllers/generoController.js |
| Accounts | accounts.dfy | backend/controllers/authController.js |
| Validation | validation.dfy | backend/middleware/validation.js |
| Auth | auth.dfy | backend/middleware/auth.js |
| Routes | routes.dfy | backend/routes/*.js (guard order only) |
| Migrate | migrate.dfy | backend/scripts/migrate.js |
| Server | server.dfy | backend/server.js |
| Query | query.dfy | URLSearchParams as used by the pages |
| Releases | releases.dfy | frontend/src/pages/Lancamentos.jsx |
| Explore | explore.dfy | frontend/src/pages/Explorar.jsx |
| MyList | mylist.dfy | frontend/src/pages/MinhaLista.jsx |
| TitleForm | title_form.dfy | GerenciarAnimacoesModal.jsx and novaAnimacaoModal.jsx |
| Carousel | carousel.dfy | frontend/src/components/BannerCarrossel.jsx |
| Stars | stars.dfy | frontend/src/components/RatingStars.jsx |
| Session | session.dfy | AuthContext.jsx, api.js, ProtectedRoute.jsx |
| Colors | colors.dfy | frontend/src/lib/utils.js and the admin list's badges |

## Model

| member | source | states |
|---|---|---|
| Schema.ParseListStatus | backend/controllers/listaController.js:18-19 | a status is accepted only under the name of the enum value it yields |
| Schema.ParseListStatusName | backend/controllers/listaController.js:18-19 | every one of the five list statuses is accepted under its own name (parse inverts naming) |
| Schema.ParseListStatusIffNamed | backend/controllers/listaController.js:18-19 | a string is accepted iff it is one of the five names "assistido", "desejado", "assistindo", "pausado", "abandonado" |
| Schema.FindTitle | backend/controllers/listaController.js:26-33 | the lookup finds a row iff a title with that id exists, and the row it returns has that id |
| Schema.ReviewsOf | backend/controllers/avaliacaoController.js:126-129 | the reviews selected for a title are exactly the table's reviews with that animacao_id |
| Schema.RecomputeTitles | backend/controllers/avaliacaoController.js:139-142 | the UPDATE rewrites count and mean of the rows with that id only; all other rows stay as they were |
| Schema.RecomputeRestores | backend/controllers/avaliacaoController.js:122-142 | when a write changed only title t's reviews, recomputing t makes every title's aggregates agree with the reviews again |
| Schema.FindActive | backend/middleware/auth.js:14-17 | finds a user iff some active user satisfies the WHERE condition, and what it finds is such a user from the table |
| Reviews.UpdateNotaMedia | backend/controllers/avaliacaoController.js:122-149 | on success only title t's count and mean change, and they then equal the count and mean (0 when none) of its reviews; a failing recompute leaves every title as it was |
| Reviews.CreateReview | backend/controllers/avaliacaoController.js:3-30 | 400 iff the caller already reviewed the title, and nothing changes; 500 for a missing title; on 201 exactly one review (caller, title, nota, comentario or null) is appended under the next id; only that title's aggregates move |
| Reviews.FindOwned | backend/controllers/avaliacaoController.js:38-45 | a review is found iff one has that id and belongs to the caller |
| Reviews.SetReview | backend/controllers/avaliacaoController.js:47-51 | only the review with that id changes, and only its nota, comentario and updated_at |
| Reviews.RemoveReview | backend/controllers/avaliacaoController.js:75 | the remaining reviews are exactly those whose id differs |
| Reviews.UpdateReview | backend/controllers/avaliacaoController.js:32-59 | 404 and no change unless the caller owns a review with that id; otherwise only that review's nota and comentario (empty becomes null) change and only the stored title's aggregates are recomputed |
| Reviews.DeleteReview | backend/controllers/avaliacaoController.js:61-82 | 404 and no change unless the caller owns a review with that id; otherwise exactly that review disappears and only its title's aggregates are recomputed |
| Reviews.ReviewsByTitle | backend/controllers/avaliacaoController.js:84-120 | page and limit default to 1 and 10; fails iff LIMIT or OFFSET is negative; otherwise exactly min(limit, max(0, n - (page-1)*limit)) rows, n being the title's reviews that survive the JOIN with usuarios, each such a review, newest first; total counts all the title's reviews, joined or not, and pages is ceil(total/limit) |
| Reviews.Listed | backend/controllers/avaliacaoController.js:92-97 | the JOIN keeps exactly the title's reviews whose author still exists |
| Reviews.ReviewsDefaultPage | backend/controllers/avaliacaoController.js:87-98 | without page and limit the answer is page 1 of min(10, n) rows, n being the listed reviews, and no listed review left off it is newer than one on it: the ten newest, or all of them when fewer |
| Reviews.FirstPageNewest | backend/controllers/avaliacaoController.js:97-98 | for any positive limit, a listed review missing from page 1 was written no later than every review on page 1 |
| Reviews.EveryReviewListed | backend/controllers/avaliacaoController.js:90-98 | paging with a positive limit shows every review of the title whose author exists on some page |
| Reviews.ReviewsRepeatNothing | backend/controllers/avaliacaoController.js:92-98 | a page shows no review more often than the join returns it |
| Reviews.ReviewPagesInOrder | backend/controllers/avaliacaoController.js:97-98 | every review on an earlier page was written no earlier than every review on a later page |
| Reviews.ReviewsOfPointwise | backend/controllers/avaliacaoController.js:126-129 | two tables that agree on every review of a title select the same reviews for it |
| Reviews.ReviewsOfRemoveOther | backend/controllers/avaliacaoController.js:75 | deleting a review of another title does not change a title's reviews |
| Reviews.RemoveReviewUnique | backend/controllers/avaliacaoController.js:75 | deleting keeps ids and (user, title) pairs unique |
| Reviews.ReviewWriteKeepsValid | backend/controllers/avaliacaoController.js:122-142 | any review write that keeps reviews unique and touches only title t's reviews, followed by recomputing t, keeps the whole invariant |
| Reviews.CreateReviewKeepsValid | backend/controllers/avaliacaoController.js:3-30 | creating a review keeps one review per (user, title) and every title's aggregates equal to its reviews' count and mean |
| Reviews.UpdateReviewKeepsValid | backend/controllers/avaliacaoController.js:32-59 | updating a review keeps the invariant |
| Reviews.DeleteReviewKeepsValid | backend/controllers/avaliacaoController.js:61-82 | deleting a review keeps the invariant |
| Reviews.SecondCreateRejected | backend/controllers/avaliacaoController.js:8-15 | a second create for the same (user, title) answers 400 and adds nothing |
| Reviews.SingleReviewAggregate | backend/controllers/avaliacaoController.js:122-142 | the first review of a title sets its mean to that rating and its count to 1 |
| Watchlist.AddToList | backend/controllers/listaController.js:3-55 | 400 iff the id or status is missing or falsy or the status is not one of the five; 404 iff only the title is missing; failures change nothing; success changes only the list table, which becomes the upsert of (caller, title) with the parsed status and the current time |
| Watchlist.RemoveKey | backend/controllers/listaController.js:64-67 | the remaining entries are exactly those with another (user, title) key |
| Watchlist.RemoveFromList | backend/controllers/listaController.js:57-81 | 404 and no change iff the caller has no entry for the title; otherwise exactly that entry disappears |
| Watchlist.MyList | backend/controllers/listaController.js:83-140 | page and limit default to 1 and 20; fails iff LIMIT or OFFSET is negative; otherwise exactly min(limit, max(0, n - (page-1)*limit)) rows, n being the caller's entries of the status (any when empty) whose title exists, each such an entry, most recently updated first; total counts the caller's entries of the status regardless of page, and pages is ceil(total/limit) |
| Watchlist.Shown | backend/controllers/listaController.js:93-107 | the join with animacoes keeps exactly the caller's entries of the status whose title exists |
| Watchlist.MyListDefaultPage | backend/controllers/listaController.js:85-107 | without page and limit the answer is page 1 of min(20, n) rows, n being the shown entries, and no shown entry left off it was updated later than one on it: the twenty most recently updated, or all of them when fewer |
| Watchlist.FirstPageLatest | backend/controllers/listaController.js:107 | for any positive limit, a shown entry missing from page 1 was updated no later than every entry on page 1 |
| Watchlist.EveryEntryListed | backend/controllers/listaController.js:93-107 | paging with a positive limit shows every selected entry whose title exists on some page |
| Watchlist.MyListRepeatsNothing | backend/controllers/listaController.js:93-107 | a page shows no entry more often than the join returns it |
| Watchlist.MyListPagesInOrder | backend/controllers/listaController.js:93-107 | every entry on an earlier page was updated no earlier than every entry on a later page |
| Watchlist.CountZeroIffAbsent | backend/controllers/listaController.js:64-71 | the key count is 0 iff the caller has no entry for the title |
| Watchlist.UniqueCountAtMostOne | backend/controllers/listaController.js:35-40 | under the table's unique key, a (user, title) key occurs at most once |
| Watchlist.Upsert | backend/controllers/listaController.js:35-40 | `INSERT … ON DUPLICATE KEY UPDATE`: one row more iff the key was absent, afterwards the key is present and every row holding it has the new status and time, and rows with another key are exactly those before |
| Watchlist.UpsertKeepsUnique | backend/controllers/listaController.js:35-40 | the upsert keeps (user, title) keys unique |
| Watchlist.UpsertExactlyOne | backend/controllers/listaController.js:35-40 | afterwards exactly one entry holds the key, with the requested status and time, and every entry with another key is untouched |
| Watchlist.AddToListKeepsValid | backend/controllers/listaController.js:3-55 | adding to the list keeps the invariant |
| Watchlist.ReAddOverwrites | backend/controllers/listaController.js:35-40 | adding the same title again answers 200 iff the second status is one of the five, else 400; after the 200 exactly one entry holds the key, and it carries the second status and time |
| Watchlist.RemoveKeepsValid | backend/controllers/listaController.js:57-81 | removing from the list keeps the invariant |
| Watchlist.TotalMatchesRows | backend/controllers/listaController.js:93-120 | when every entry references a title, the count query's total equals the number of rows the join keeps, so the pages together hold exactly total rows |
| Catalog.NoFilterSelectsAll | backend/controllers/animacaoController.js:26 | `WHERE 1=1` with no filter given selects every title |
| Catalog.MatchesEachFilter | backend/controllers/animacaoController.js:30-58 | the conditions are ANDed: a title matches iff it passes each given filter on its own |
| Catalog.PlainSearchIsSubstring | backend/controllers/animacaoController.js:30-33 | a search holding no `%`, `_` or `\` selects exactly the titles whose title or original title contains it |
| Catalog.UnderscoreSearchSelectsNamed | backend/controllers/animacaoController.js:30-33 | a search for "_" is a wildcard and selects every title with a non-empty title |
| SqlLike.LiteralSearchIsSubstring | backend/controllers/animacaoController.js:32 | a pattern `%s%` with s free of wildcards and escapes matches exactly the texts containing s |
| SqlLike.UnderscoreMatchesAny | backend/controllers/animacaoController.js:32 | `%_%` matches exactly the non-empty texts |
| SqlLike.EscapedUnderscoreLiteral | backend/controllers/animacaoController.js:32 | an escaped `\_` is literal: `%\_%` does not match a text without an underscore |
| Catalog.StatusList | backend/controllers/animacaoController.js:42-44 | one trimmed status per comma-separated piece of the parameter, in order |
| Catalog.OrderKey | backend/controllers/animacaoController.js:63-67 | without an orderBy parameter the listing is ordered by created_at, newest first; otherwise a sort key exists iff the column exists and the direction is DESC, ASC or empty in any letter case |
| Catalog.OrderKeyDirection | backend/controllers/animacaoController.js:63-65 | an accepted ORDER BY ranks by the named column, descending for DESC and ascending for ASC or no direction |
| Catalog.ListTitles | backend/controllers/animacaoController.js:3-143 | page and limit default to 1 and 20; fails (500) iff the ORDER BY is rejected or LIMIT/OFFSET is negative; otherwise exactly min(limit, max(0, total - (page-1)*limit)) titles, each in the table and matching every given filter, sorted by the order key; total counts all matching titles and pages is ceil(total/limit) |
| Catalog.ListingRepeatsNothing | backend/controllers/animacaoController.js:61-69 | a page never shows a title more often than the table holds it |
| Catalog.EveryMatchListed | backend/controllers/animacaoController.js:61-69 | with a positive limit every matching title appears on some page between 1 and the page count |
| Catalog.ListingPagesInOrder | backend/controllers/animacaoController.js:63-69 | every title on an earlier page ranks at least as high as every title on a later page |
| Catalog.ListingDefaultPage | backend/controllers/animacaoController.js:5-7 | without page and limit the answer is page 1 of 20 rows: min(20, matching titles) of them |
| Catalog.DefaultOrderNewestFirst | backend/controllers/animacaoController.js:63-67 | without orderBy every listed title was created no earlier than the next one |
| Catalog.TotalIndependentOfPaging | backend/controllers/animacaoController.js:90-137 | two requests differing only in page and limit report the same total |
| Catalog.StatusListJoin | backend/controllers/animacaoController.js:41-47 | a comma-joined list of two or more plain status names selects a title iff its status is one of them |
| Catalog.SingleStatusExact | backend/controllers/animacaoController.js:48-52 | a non-empty status without a comma selects exactly the titles with that status |
| Catalog.Histogram | backend/controllers/animacaoController.js:191-195 | five buckets; bucket k counts the reviews whose rating is exactly k |
| Catalog.GetTitle | backend/controllers/animacaoController.js:145-219 | 404 iff no title has the id; otherwise that title, exactly its linked genres, the min(5, n) newest of its n reviews with an existing author, the count and mean of all its reviews and the five-bucket distribution |
| Catalog.LinkedGenres | backend/controllers/animacaoController.js:149-173 | the genres returned are exactly the genres linked to the title |
| Catalog.RecentReviews | backend/controllers/animacaoController.js:175-183 | exactly min(5, n) reviews, n being the title's reviews whose author exists, each such a review and none twice, newest first, and no such review left out is newer than one shown |
| Catalog.HistogramSum | backend/controllers/animacaoController.js:187-211 | the buckets add up to the number of whole-star ratings, so a fractional rating is counted in no bucket |
| Catalog.HistogramCoversWholeStars | backend/controllers/animacaoController.js:187-211 | when every rating is a whole star, the buckets add up to the review count |
| TitleWrites.IntOrNull | backend/controllers/animacaoController.js:237 | a JS "or null" on a number keeps exactly the non-zero values |
| TitleWrites.EpisodesOrOne | backend/controllers/animacaoController.js:238 | a missing, null or zero episode count is stored as 1; any other value is kept |
| TitleWrites.Columns | backend/controllers/animacaoController.js:231-242 | the written row takes the title from the body, status defaults to "Finalizado", and the id, aggregates and timestamps are untouched |
| TitleWrites.LinksFor | backend/controllers/animacaoController.js:248-253 | one link per listed genre id, in order, all to the title |
| TitleWrites.InsertLinks | backend/controllers/animacaoController.js:247-254 | succeeds iff the title and every listed genre exist; on success all links are appended, on failure a prefix of them stays; only the link table changes |
| TitleWrites.NewTitle | backend/controllers/animacaoController.js:227-243 | a new title starts with count 0 and mean 0 under the given id |
| TitleWrites.CreateTitle | backend/controllers/animacaoController.js:221-264 | the title is appended under the next id; 201 iff no genre list is given or every listed genre exists, else 500 with the earlier links kept; old links untouched and new links all point to the new title |
| TitleWrites.SetColumns | backend/controllers/animacaoController.js:273-292 | the UPDATE rewrites only the rows with that id, and rewrites none for an unknown id |
| TitleWrites.DropLinks | backend/controllers/animacaoController.js:295 | the remaining links are exactly those of other titles |
| TitleWrites.UpdateTitle | backend/controllers/animacaoController.js:266-312 | 200 also for an unknown id; a genre array replaces the title's links, and a failing insert (missing title or genre) answers 500; links of other titles never change |
| TitleWrites.DeleteTitle | backend/controllers/animacaoController.js:314-324 | the title disappears and with it exactly the links, reviews and list entries that referenced it (the foreign keys cascade); nothing else changes |
| TitleWrites.ReviewsOfAppend | backend/controllers/avaliacaoController.js:126-129 | a title's reviews in two concatenated tables are its reviews in each, in order |
| TitleWrites.ReviewsOfFilter | backend/controllers/animacaoController.js:318 | dropping reviews none of which belong to a title leaves that title's reviews as they were |
| TitleWrites.CreateTitleKeepsValid | backend/controllers/animacaoController.js:221-264 | creating a title keeps the invariant, whether its link inserts succeed or not |
| TitleWrites.UpdateTitleKeepsValid | backend/controllers/animacaoController.js:266-312 | updating a title keeps the invariant |
| TitleWrites.DeleteTitleKeepsValid | backend/controllers/animacaoController.js:314-324 | deleting a title keeps the invariant: no dangling link, review or list entry and every remaining aggregate still agrees with its reviews |
| Stats.ComputeTotals | backend/controllers/statsController.js:6-25 | the pending-comment count never exceeds the review count and the active-user count never exceeds the user count; how each write moves these counters is stated by the three lemmas below |
| Stats.ComputeGrowth | backend/controllers/statsController.js:28-43 | each month counter is bounded by its table |
| Stats.ReviewMovesDashboard | backend/controllers/statsController.js:6-43 | a created review adds one to the review total and to the month's reviews, one to the pending comments iff its comment is non-empty, and leaves the title and user totals alone |
| Stats.TitleMovesDashboard | backend/controllers/statsController.js:6-43 | a created title adds one to the title total and to the month's titles and leaves the review and user totals alone |
| Stats.DeleteMovesDashboard | backend/controllers/statsController.js:6-25 | deleting a title lowers the review total by exactly its number of reviews and the title total by the number of rows with its id, and leaves the user total alone |
| Stats.TopTitles | backend/controllers/statsController.js:46-52 | exactly min(5, rated titles) rated titles, none more often than in the table, by mean then count descending, and every rated title left out ranks no higher than each one shown |
| Stats.ActiveUserCounts | backend/controllers/statsController.js:55-59 | exactly one row per active user, with that user's own review count, and no inactive user |
| Stats.MostActiveUsers | backend/controllers/statsController.js:55-62 | exactly min(5, active users) active users with their own review counts, none twice, descending, and every active user left out has no more reviews than each one shown |
| Stats.MostActiveFacts | backend/controllers/statsController.js:55-62 | the top five by review count are sorted by count and no user left out outranks one shown |
| Stats.GenreCounts | backend/controllers/statsController.js:65-69 | every genre, including one without titles, with the number of links that name it |
| Stats.GenreRanking | backend/controllers/statsController.js:65-72 | exactly min(8, genres) rows, one per genre at most (a sub-multiset of the per-genre counts), each a genre with its own link count, descending, and no genre left out has more titles than one shown |
| Stats.RankedByTitles | backend/controllers/statsController.js:70 | rows sorted by the ranking key are sorted by title count |
| Stats.CutGenresRankLower | backend/controllers/statsController.js:70-71 | a genre cut by LIMIT 8 has no more titles than any genre shown |
| Stats.GenreCountsCover | backend/controllers/statsController.js:66-69 | the LEFT JOIN gives every genre its row |
| Stats.LatestReviews | backend/controllers/statsController.js:75-82 | exactly min(10, n) reviews, n being the reviews whose author and title exist, each such a review and none twice, newest first, and none left out is newer than one shown |
| Stats.HighestMeanFirst | backend/controllers/statsController.js:46-52 | a rated title whose mean is above every other rated title's is shown first |
| Stats.RecentUsers | backend/controllers/statsController.js:107-130 | fails (500) iff the limit is negative, 10 when absent; otherwise the min(limit, active users) newest active users, in that order, each with their own review and list-entry counts |
| Stats.Activity | backend/controllers/statsController.js:115-116 | each user's row carries that user's review count and list-entry count |
| Stats.NewestActive | backend/controllers/statsController.js:117-121 | exactly min(limit, active users) active users of the table, none twice, newest first, and no active user left out is newer than one shown |
| Genres.LexTotal | backend/controllers/generoController.js:5 | any two names are comparable in the name order |
| Genres.LexTrans | backend/controllers/generoController.js:5 | the name order is transitive |
| Genres.InsertByName | backend/controllers/generoController.js:5 | inserting into a name-ordered list keeps it ordered and adds exactly that genre |
| Genres.SortByName | backend/controllers/generoController.js:5 | the sorted list is a permutation of the input, ordered by name |
| Genres.ListGenres | backend/controllers/generoController.js:3-11 | every genre of the table exactly as often as stored, ordered by name |
| Genres.CreateGenre | backend/controllers/generoController.js:13-33 | 500 iff no name is given; 400 iff the name is taken; failures change nothing; 201 appends one genre under the next id with descricao or null and cor or "#6366f1" |
| Genres.CreateGenreKeepsInvariants | backend/controllers/generoController.js:13-33 | creating a genre keeps names unique and the database invariant |
| Genres.SecondCreateDuplicate | backend/controllers/generoController.js:27-30 | after a successful create, a second create with the same name answers 400 and changes nothing |
| Accounts.Register | backend/controllers/authController.js:5-40 | 400 iff any user, active or not, has the e-mail, changing nothing; otherwise 201, one new active user with role "user" and the hashed password under the next id, and a token for that id |
| Accounts.FindActiveByEmail | backend/controllers/authController.js:46-55 | finds a user iff an active user with that e-mail exists, and what it finds is one |
| Accounts.Login | backend/controllers/authController.js:42-78 | never writes; 200 iff an active user has the e-mail and the password matches the stored hash, with a token for that user's id; otherwise 401 "Credenciais inválidas" |
| Accounts.RegisterKeepsEmailsUnique | backend/controllers/authController.js:9-21 | registration keeps e-mails unique |
| Accounts.RegisterThenLogin | backend/controllers/authController.js:5-78 | a freshly registered account logs in with the password whose hash was stored, and the token names the new id |
| Accounts.LoginFailuresAlike | backend/controllers/authController.js:51-60 | an unknown e-mail and a wrong password give identical answers |
| Validation.Get | backend/middleware/validation.js:10 | a key reads as absent iff the body lacks it, as null iff it holds null, and otherwise as its value |
| Validation.Check | backend/middleware/validation.js:10-14 | the middleware calls the next handler iff the schema accepts, and answers 400 otherwise |
| Validation.StrField | backend/middleware/validation.js:5-7 | an accepted string property reads back as the same absent, null or string value |
| Validation.IntField | backend/middleware/validation.js:52-57 | an accepted integer property reads back as the same absent, null or number |
| Validation.DecodeReview | backend/middleware/validation.js:30-42 | an accepted review body has a positive integer title id no larger than `Number.MAX_SAFE_INTEGER`, a rating in [1, 5] and a comment, if any, of at most 1000 characters and never null |
| Validation.DecodeTitle | backend/middleware/validation.js:45-75 | an accepted title body has a 1 to 255 character title, a non-empty genre list of safe integers, a year within [1900, current year + 5], at least one episode and no more than `Number.MAX_SAFE_INTEGER`, and a status among the four |
| Validation.ReviewOkMeans | backend/middleware/validation.js:30-42 | a review body is accepted iff nota is a number in [1, 5], animacao_id a positive integer no larger than `Number.MAX_SAFE_INTEGER` (Joi's `number.unsafe` rule), and comentario, when present, a string of at most 1000 characters |
| Validation.FractionalRatingAccepted | backend/middleware/validation.js:32 | the rating rule admits 3.5: it does not ask for whole stars |
| Validation.UnsafeIdRejected | backend/middleware/validation.js:34 | an animacao_id of 2^53, a positive integer beyond `Number.MAX_SAFE_INTEGER`, is refused |
| Validation.NullCommentRejected | backend/middleware/validation.js:33 | a comment sent as null is refused, although the empty string is allowed |
| Validation.YearBounds | backend/middleware/validation.js:52-56 | changing only the year of an accepted body keeps it accepted iff the year lies in [1900, current year + 5] and within ±`Number.MAX_SAFE_INTEGER` |
| Validation.EmptyGenresRejected | backend/middleware/validation.js:67 | a title body with an empty genre list is refused |
| Validation.GateFollowsSchema | backend/middleware/validation.js:3-15 | the registration gate passes iff nome has 2 to 100 characters, email is a non-empty e-mail address and senha has at least 6 characters |
| Auth.ExtractToken | backend/middleware/auth.js:5-6 | a token is found iff the header has a non-empty second space-separated word, and the token is that word |
| Auth.FindActiveUser | backend/middleware/auth.js:14-17 | finds a user iff an active user has the id, and what it finds is one |
| Auth.Authenticate | backend/middleware/auth.js:4-28 | 401 without a token, 403 for a token that fails verification, 401 when no active user has the token's id; otherwise the request proceeds as that active user |
| Auth.RequireAdmin | backend/middleware/auth.js:30-35 | 403 iff the caller's role is not "admin" |
| Auth.AnySchemeAccepted | backend/middleware/auth.js:6 | the scheme word is never checked: any first word followed by a token yields that token |
| Auth.BearerRoundTrip | frontend/src/lib/api.js:13 | the header the client builds gives back exactly the token it was built from |
| Auth.NoSpaceNoToken | backend/middleware/auth.js:6-10 | a header without a space carries no token |
| Routes.Guard | backend/routes/animacoes.js:16-18 | authentication first, then the admin check on admin routes; the request passes iff both let it through |
| Routes.Handle | backend/routes/avaliacoes.js:14-16 | a refusal by a middleware answers its status and changes nothing; a rejected body answers 400 and changes nothing; only a request that passes every middleware can change the database |
| Routes.NoTokenNoChange | backend/middleware/auth.js:8-10 | without a token every write route answers 401 and changes nothing |
| Routes.NonAdminCannotWriteCatalogue | backend/routes/generos.js:8 | an authenticated non-admin is refused every catalogue write with 403 and nothing changes |
| Routes.ChangesNeedActiveUser | backend/middleware/auth.js:4-35 | a request that changes the database carried a token that verifies to the id of an active user in the table, that user is an admin on admin routes, the body passed validation, and the change is exactly that user's handler call |
| Routes.Dispatch | backend/routes/avaliacoes.js:14-16 | each write request reaches its own controller; no write route touches the users, and only the admin routes touch genres or genre links |
| Routes.HandleKeepsValid | backend/routes/animacoes.js:16-18 | every write route keeps the database invariant and unique genre names |
| Routes.DispatchKeepsValid | backend/routes/avaliacoes.js:14-16 | every handler reached with a validated body keeps the database invariant and unique genre names |
| Migrate.TrimAll | backend/scripts/migrate.js:20 | each piece is replaced by its trimmed self, in order |
| Migrate.Commands | backend/scripts/migrate.js:18-21 | every command is non-empty, holds no ';', and is one of the trimmed pieces of the file |
| Migrate.CommandsOfJoin | backend/scripts/migrate.js:18-21 | splitting non-empty, trimmed, ';'-free statements joined by ';' gives them back in order (the splitter inverts the join) |
| Migrate.NothingToRun | backend/scripts/migrate.js:18-21 | an empty schema file yields no statement |
| Migrate.TrailingSeparatorIgnored | backend/scripts/migrate.js:18-21 | a final ';' adds only an empty piece, which is dropped |
| Migrate.Selected | backend/scripts/migrate.js:25 | only commands of the file that mention "create" or "insert" in any case are sent |
| Migrate.RunMigrations | backend/scripts/migrate.js:9-37 | exit code 0 iff every selected statement succeeds, after sending all of them in file order; otherwise exit code 1 after sending a prefix whose last statement, and only that one, failed |
| Migrate.RunSelected | backend/scripts/migrate.js:24-36 | the loop sends the selected commands in order and stops at the first failure, reporting as above |
| Migrate.Stopped | backend/scripts/migrate.js:26-35 | an early exit at a failing command reports the selected prefix ending in it |
| Migrate.FailureReported | backend/scripts/migrate.js:33-35 | a failing statement among those sent means not every selected statement succeeds |
| Server.AllowedOrigins | backend/server.js:48-56 | the three base origins always, and the two loopback origins exactly in development |
| Server.IndexIn | backend/server.js:58 | -1 iff the origin is not listed; otherwise the first position holding it |
| Server.CorsDecision | backend/server.js:44-63 | a request is let through iff it has no origin (or an empty one) or its origin is allowed; a refusal raises the "Não permitido pelo CORS" error |
| Server.HandleError | backend/server.js:115-125 | 403 "CORS: Origem não permitida" iff the error is the CORS refusal; every other error is a 500 whose text is hidden only in production |
| Server.RejectedOriginIs403 | backend/server.js:58-63 | a request refused by the CORS check reaches the client as a 403 |
| Server.LoopbackOnlyInDevelopment | backend/server.js:54-56 | a loopback origin is accepted iff NODE_ENV is "development" |
| Server.Resolve | backend/server.js:83-134 | a request is handled by a route that matches it, with no earlier route matching; the 404 reply with the original URL and method is given iff no route matches |
| Query.NameInjective | frontend/src/pages/Explorar.jsx:31-36 | distinct parameters have distinct query-string names |
| Query.Clean | frontend/src/pages/Lancamentos.jsx:84-89 | a parameter is kept, unchanged, iff it is exempt or truthy |
| Query.UrlOf | frontend/src/pages/Lancamentos.jsx:113-119 | the query string holds exactly the non-empty entries, with their values |
| Query.UrlGetOf | frontend/src/pages/Explorar.jsx:31-36 | reading a key back from a built query string gives the entry's value, or "" |
| Releases.Set | frontend/src/pages/Lancamentos.jsx:108 | the changed filter takes the new value and the other filters keep theirs |
| Releases.FromUrl | frontend/src/pages/Lancamentos.jsx:31-35 | the filters read from the query string never have an empty status: it defaults to "Em exibição" |
| Releases.UrlRoundTrip | frontend/src/pages/Lancamentos.jsx:31-35 | reading back the query string written for some filters restores them, except that an empty status comes back as "Em exibição" |
| Releases.StatusParam | frontend/src/pages/Lancamentos.jsx:73-77 | the status sent is never empty, and a chosen status is sent as is |
| Releases.Raw | frontend/src/pages/Lancamentos.jsx:65-82 | the parameter object: the page, the limit, the ano_lancamento DESC order, the filters, the status, and ano_min 2025 exactly for "Finalizado" |
| Releases.RequestParams | frontend/src/pages/Lancamentos.jsx:62-92 | the request always carries the ano_lancamento DESC order and a status (both current statuses when none is chosen); ano_min 2025 iff the status is "Finalizado"; search and genero iff non-empty; every other key kept is truthy |
| Releases.StatusAlwaysFiltered | frontend/src/pages/Lancamentos.jsx:73-77 | the server always receives a non-empty status, so the status filter always applies |
| Releases.CurrentStatusesJoined | frontend/src/pages/Lancamentos.jsx:76 | the default status list is the two current statuses joined with a comma |
| Releases.EmptyStatusMeansCurrent | frontend/src/pages/Lancamentos.jsx:73-77 | with no status chosen the catalogue returns exactly the airing and the announced titles |
| Releases.FilterChange | frontend/src/pages/Lancamentos.jsx:107-120 | one filter changes, the page resets to 1, and the query string holds exactly the non-empty filters |
| Releases.ClearFilters | frontend/src/pages/Lancamentos.jsx:127-134 | empty search and genre, status "Em exibição", an empty query string, and reading that query string gives the same filters |
| Explore.Set | frontend/src/pages/Explorar.jsx:100 | the changed filter takes the new value and the other filters keep theirs |
| Explore.Entries | frontend/src/pages/Explorar.jsx:106 | one entry per filter, under its own name, holding its value |
| Explore.UrlAsWritten | frontend/src/pages/Explorar.jsx:105-111 | the query string as the page writes it: exactly the non-empty filters, each under its own name, search included under "search" |
| Explore.FromUrl | frontend/src/pages/Explorar.jsx:31-36 | the initial filters: each read from the query string, search from key "q" and every other filter from its own name, an absent key giving "" |
| Explore.SearchLostOnReload | frontend/src/pages/Explorar.jsx:31-36 | reading back the query string the page writes restores every filter except the search, which comes back empty |
| Explore.SearchLostExample | frontend/src/pages/Explorar.jsx:31-36 | searching for "naruto" and reloading clears the search box |
| Explore.SyncedUrl | frontend/src/pages/Explorar.jsx:105-111 | the query string with the search under "q", where the page reads it; every other filter under its own name, present iff non-empty |
| Explore.UrlRoundTrip | frontend/src/pages/Explorar.jsx:31-36 | every filter, search included, survives a reload of the synced query string |
| Explore.FilterChange | frontend/src/pages/Explorar.jsx:97-112 | as written: one filter changes, the page resets to 1, the query string holds exactly the non-empty filters under their own names, and reading it back restores every filter except the search, which comes back empty |
| Explore.FilterChangeSynced | frontend/src/pages/Explorar.jsx:97-112 | corrected: the same change, with the query string written so that it reads back as exactly the new filters |
| Explore.SubmitSearch | frontend/src/pages/Explorar.jsx:114-117 | submitting the search box goes through the filter change: the filters are kept, the page resets to 1 with the rest of the pagination kept, the query string is rewritten to exactly the non-empty filters under their own names, and reading it back loses the search |
| Explore.ClearFilters | frontend/src/pages/Explorar.jsx:119-127 | every filter empty and an empty query string that reads back as those filters; the page number is kept |
| Explore.RequestParams | frontend/src/pages/Explorar.jsx:64-81 | a filter is sent iff it is non-empty, with its value; page and limit iff non-zero; every key sent is truthy |
| MyList.Bump | frontend/src/pages/MinhaLista.jsx:71 | the row's status counter goes up by one and the other four stay |
| MyList.Tally | frontend/src/pages/MinhaLista.jsx:69-81 | each counter equals the number of loaded rows with its status |
| MyList.TallyTotal | frontend/src/pages/MinhaLista.jsx:136-142 | the "Todos" card, the sum of the five counters, equals the number of rows loaded |
| MyList.TallyAppend | frontend/src/pages/MinhaLista.jsx:69-81 | the counters of two row lists add up to those of their concatenation |
| MyList.FetchParams | frontend/src/pages/MinhaLista.jsx:48-55 | the request carries the page, the current page size, and the status exactly when a card other than "Todos" is selected |
| MyList.Fetched | frontend/src/pages/MinhaLista.jsx:59-101 | a well-formed answer replaces the rows and the pagination (kept when absent) and recounts the cards only without a filter; a malformed answer or a failure empties the rows, keeps the counters and shows the matching message; loading always ends |
| MyList.UnfilteredTotalIsRowCount | frontend/src/pages/MinhaLista.jsx:67-84 | after an unfiltered load the "Todos" card shows the number of rows on the loaded page, not the server's total |
| MyList.SelectFilter | frontend/src/pages/MinhaLista.jsx:36-40 | choosing a card sets the filter, keeps rows and counters, and the reload asks for page 1 with the status iff one is chosen |
| MyList.Removed | frontend/src/pages/MinhaLista.jsx:104-118 | a successful removal reloads the current page under the current filter; a failed one keeps rows and counters and shows "Erro ao remover animação da lista" |
| MyList.PagerOf | frontend/src/pages/MinhaLista.jsx:278-292 | the pager shows iff there is more than one page; previous is enabled iff not on the first page and next iff not on the last |
| TitleForm.Toggle | frontend/src/components/GerenciarAnimacoesModal.jsx:399-406 | the id becomes selected iff it was not; every other id keeps its state; a newly selected id goes to the end |
| TitleForm.ToggleTwice | frontend/src/components/novaAnimacaoModal.jsx:58-65 | selecting a genre and deselecting it again restores the selection exactly |
| TitleForm.ToggleKeepsDistinct | frontend/src/components/novaAnimacaoModal.jsx:58-65 | a selection without repeats stays without repeats |
| TitleForm.NewForm | frontend/src/components/GerenciarAnimacoesModal.jsx:210-226 | the create form starts with the current year, one episode, status "Finalizado", no title and no genre |
| TitleForm.NumTextOf | frontend/src/components/GerenciarAnimacoesModal.jsx:199-200 | a number input is filled iff the stored number is present and non-zero |
| TitleForm.TrimOrNull | frontend/src/components/GerenciarAnimacoesModal.jsx:258-266 | null iff the text is blank; otherwise the trimmed, non-empty text |
| TitleForm.NumOrNull | frontend/src/components/GerenciarAnimacoesModal.jsx:262-263 | null iff the number input is empty; otherwise its number |
| TitleForm.AdminPayload | frontend/src/components/GerenciarAnimacoesModal.jsx:256-268 | the title trimmed, the other texts trimmed with blank as null, numbers parsed, an empty status sent as "Finalizado", and zero genre ids dropped |
| TitleForm.NonZeroKept | frontend/src/components/GerenciarAnimacoesModal.jsx:267-274 | some selected id is non-zero iff dropping the zero ids leaves a genre |
| TitleForm.FirstProblem | frontend/src/components/GerenciarAnimacoesModal.jsx:233-274 | no problem iff the title is not blank, a genre is selected, the year is empty or within [1900, current year + 5], the episodes empty or positive, and some genre id non-zero; otherwise the first failing check's message in that order |
| TitleForm.AdminSave | frontend/src/components/GerenciarAnimacoesModal.jsx:229-290 | a request is sent iff no check fails, and then its payload has a non-blank title and some genre; otherwise the first failing check's alert |
| TitleForm.NewFormNeeds | frontend/src/components/GerenciarAnimacoesModal.jsx:210-274 | a fresh create form can be saved iff it got a non-blank title and a non-zero genre id |
| TitleForm.EditRoundTrip | frontend/src/components/GerenciarAnimacoesModal.jsx:189-268 | opening a stored, valid title in the edit form and saving it unchanged sends back its stored columns and genres |
| TitleForm.EditForm | frontend/src/components/GerenciarAnimacoesModal.jsx:189-207 | the edit form shows the stored title, status and genre ids; a text input is empty iff its column is null or empty; the year and episode inputs are empty iff the stored number is missing or zero, and otherwise hold it |
| TitleForm.EditFormPasses | frontend/src/components/GerenciarAnimacoesModal.jsx:189-253 | the edit form of a valid stored title passes every check |
| TitleForm.EditFormPayload | frontend/src/components/GerenciarAnimacoesModal.jsx:189-268 | the payload of an unchanged edit form equals the stored columns |
| TitleForm.CleanRoundTrip | frontend/src/components/GerenciarAnimacoesModal.jsx:194-198 | a stored text without surrounding space, or null, comes back unchanged through the input and the trimming save |
| TitleForm.ValidateField | frontend/src/components/GerenciarAnimacoesModal.jsx:358-386 | only the edited input's message changes: present iff that input fails its check; other inputs keep theirs; unchecked inputs change nothing |
| TitleForm.SaveAgreesWithFieldErrors | frontend/src/components/GerenciarAnimacoesModal.jsx:229-274 | the save goes ahead iff validating every checked input leaves no message and some genre id is non-zero |
| TitleForm.OrElse | frontend/src/components/GerenciarAnimacoesModal.jsx:311 | the message is empty only when both the server's message and the fallback are |
| TitleForm.SaveFailureMessage | frontend/src/components/GerenciarAnimacoesModal.jsx:298-328 | fixed texts for 401, 403 and for no response; the server's message or a fallback ("Dados inválidos", "Erro <status>", "Erro inesperado") otherwise; never empty |
| TitleForm.DeleteTitle | frontend/src/components/GerenciarAnimacoesModal.jsx:334-355 | nothing happens without confirmation; otherwise deleted, or an alert with the server's message or "Erro ao excluir animação" |
| TitleForm.EmptyToNull | frontend/src/components/novaAnimacaoModal.jsx:91-96 | null iff the text is empty; otherwise the text as typed, not trimmed |
| TitleForm.NewSubmit | frontend/src/components/novaAnimacaoModal.jsx:67-99 | a request is sent iff the title is not blank and a genre is selected; the payload holds the texts as typed (empty as null), the parsed numbers, the status and every selected id |
| TitleForm.NewPayload | frontend/src/components/novaAnimacaoModal.jsx:86-97 | the create modal's body: texts as typed with "" as null, numbers parsed, status and genre ids as selected |
| TitleForm.ModalsAgree | frontend/src/components/novaAnimacaoModal.jsx:67-99 | for a form without surrounding spaces, a set status and no zero id that the admin modal sends, the create modal sends the same payload |
| TitleForm.PayloadsAgree | frontend/src/components/novaAnimacaoModal.jsx:86-97 | without surrounding spaces, with a set status and no zero id, both payload builders agree |
| TitleForm.AdminSends | frontend/src/components/GerenciarAnimacoesModal.jsx:229-274 | a form the admin modal sends has a non-blank title and some genre and goes out as its payload |
| TitleForm.PaddedTitleDiffers | frontend/src/components/novaAnimacaoModal.jsx:86-87 | a title typed with a leading space is sent as typed by the create modal and trimmed by the admin modal |
| TitleForm.NewAfterSubmit | frontend/src/components/novaAnimacaoModal.jsx:99-123 | after a successful create the form resets to its initial values; after a failure it is kept and the server's message or "Erro ao criar animação" is shown |
| TitleForm.HandleSearch | frontend/src/components/GerenciarAnimacoesModal.jsx:183-186 | a new search term is stored and the pager returns to page 1 with its page size kept |
| TitleForm.SearchForgetsPage | frontend/src/components/GerenciarAnimacoesModal.jsx:183-186 | the state after a search does not depend on the page shown before it |
| Carousel.Next | frontend/src/components/BannerCarrossel.jsx:33-36 | the following slide, wrapping from the last to the first, stays in range and stops auto-play |
| Carousel.Prev | frontend/src/components/BannerCarrossel.jsx:28-31 | the preceding slide, wrapping from the first to the last, stays in range and stops auto-play |
| Carousel.GoTo | frontend/src/components/BannerCarrossel.jsx:38-41 | a dot selects its slide and stops auto-play |
| Carousel.Tick | frontend/src/components/BannerCarrossel.jsx:16-26 | the timer advances one slide, wrapping, only with auto-play on and more than one slide; auto-play is unchanged |
| Carousel.NextPrevInverse | frontend/src/components/BannerCarrossel.jsx:28-36 | previous undoes next and next undoes previous; only auto-play stays off |
| Carousel.Step | frontend/src/components/BannerCarrossel.jsx:16-41 | any possible event keeps the index on a slide; auto-play stays on iff it was on and the event is a timer tick |
| Carousel.RunInvariant | frontend/src/components/BannerCarrossel.jsx:16-41 | after any sequence of events the index is on a slide, and auto-play is on iff it started on and only the timer fired |
| Carousel.TicksAdvance | frontend/src/components/BannerCarrossel.jsx:19-23 | k ticks with auto-play on move k slides forward, modulo the slide count |
| Carousel.FullCycle | frontend/src/components/BannerCarrossel.jsx:19-23 | after as many ticks as slides the banner is back where it started |
| Carousel.FirstSet | frontend/src/components/BannerCarrossel.jsx:54 | the first value that is set and non-empty, else the fallback |
| Carousel.Image | frontend/src/components/BannerCarrossel.jsx:54 | the banner image, else the poster, else the placeholder; never empty |
| Carousel.Excerpt | frontend/src/components/BannerCarrossel.jsx:125-131 | a synopsis of at most 200 characters is shown whole; a longer one as its first 200 characters followed by "..." |
| Carousel.Render | frontend/src/components/BannerCarrossel.jsx:43-200 | nothing for an empty list; otherwise the current slide's title and link, its first four genres, the original title iff set and different, controls and dots iff more than one slide, and the auto-play badge iff it is also on |
| Stars.Filled | frontend/src/components/RatingStars.jsx:35-36 | five stars; star k is filled iff the hovered star, or else the rating, reaches k |
| Stars.FilledPrefix | frontend/src/components/RatingStars.jsx:36 | the filled stars form a prefix |
| Stars.FilledCount | frontend/src/components/RatingStars.jsx:35-36 | the number of filled stars is the effective rating rounded down, kept within 0 to 5 |
| Stars.React | frontend/src/components/RatingStars.jsx:15-31 | read-only stars ignore every event; entering star k hovers k, leaving clears the hover; a click reports its star iff the stars are editable and a handler exists, and only clicks report |
| Stars.HoverPreview | frontend/src/components/RatingStars.jsx:21-25 | hovering star k previews exactly k filled stars, whatever the rating |
| Stars.LeaveRestoresRating | frontend/src/components/RatingStars.jsx:27-31 | leaving the stars shows the rating again |
| Stars.ReadonlyInert | frontend/src/components/RatingStars.jsx:15-31 | read-only stars never hover and never report, whatever the events |
| Stars.ReportsAreClicks | frontend/src/components/RatingStars.jsx:15-19 | every reported value is the star of a click among the events |
| Session.Mount | frontend/src/contexts/AuthContext.jsx:20-28 | loading ends and the stored user is restored iff a non-empty token and a user are both stored |
| Session.SignIn | frontend/src/contexts/AuthContext.jsx:30-64 | success iff the server answered with a token and a user, which are stored and signed in; a failure keeps the signed-in user and the loading flag, clears both stored keys iff the status is 401 and otherwise keeps them, and reports the server's message or the fallback |
| Session.Login | frontend/src/contexts/AuthContext.jsx:30-46 | login succeeds iff the server accepts, and then the user is signed in and stored; a failure reports the server's message or "Erro ao fazer login" and leaves the storage as the 401 interceptor does |
| Session.Register | frontend/src/contexts/AuthContext.jsx:48-64 | registration succeeds iff the server accepts, and then the user is signed in and stored; a failure reports the server's message or "Erro ao criar conta" and leaves the storage as the 401 interceptor does |
| Session.RejectedLoginSignsOut | frontend/src/lib/api.js:18-28 | a login rejected with 401 clears the stored session, so after the reload every guarded page sends the visitor to /login |
| Session.OtherFailureKeepsSession | frontend/src/lib/api.js:18-28 | a failure other than 401 leaves the stored session as it was, so a reload restores the same user |
| Session.Logout | frontend/src/contexts/AuthContext.jsx:66-70 | both stored keys are removed and nobody is signed in |
| Session.SignInPersists | frontend/src/contexts/AuthContext.jsx:20-37 | after a successful sign-in, a reload restores the same user |
| Session.LogoutPersists | frontend/src/contexts/AuthContext.jsx:20-28 | after logging out, a reload finds nobody signed in |
| Session.AuthHeader | frontend/src/lib/api.js:10-16 | a header is sent iff a non-empty token is stored, and it is "Bearer " followed by the token |
| Session.HeaderCarriesToken | frontend/src/lib/api.js:10-16 | the server extracts from the client's header exactly the stored token |
| Session.NoTokenNoHeader | frontend/src/lib/api.js:12 | without a stored token the server finds no token, so it answers 401 |
| Session.OnError | frontend/src/lib/api.js:18-28 | a 401 removes both stored keys; any other error leaves them |
| Session.Guard | frontend/src/components/ProtectedRoute.jsx:7-27 | a spinner iff loading; /login iff loaded and nobody signed in; / iff a signed-in non-admin opens an admin page; the page otherwise |
| Session.RoleIgnoredOffAdminPages | frontend/src/components/ProtectedRoute.jsx:22-24 | a page that is not admin-only never depends on the role |
| Session.UnauthorizedLeadsToLogin | frontend/src/lib/api.js:21-25 | after a 401 and the reload it causes, every guarded page sends the visitor to /login |
| Colors.StatusColor | frontend/src/lib/utils.js:26-34 | a colour other than gray iff the status is one of the four title statuses |
| Colors.StatusColorsDistinct | frontend/src/lib/utils.js:27-32 | no two title statuses share a colour |
| Colors.ListStatusColor | frontend/src/lib/utils.js:36-45 | a colour other than gray iff the status is one of the five list statuses |
| Colors.ListColorsDistinct | frontend/src/lib/utils.js:37-43 | every list status has its own, non-gray colour |
| Colors.BadgeClassAsWritten | frontend/src/components/GerenciarAnimacoesModal.jsx:413-422 | the admin badge is gray exactly for statuses other than "Em exibição", "Finalizado", "Cancelado", "Pausado" and "Em breve" |
| Colors.AnnouncedBadgeIsGray | frontend/src/components/GerenciarAnimacoesModal.jsx:413-422 | "Anunciado" is a status the server accepts, yet its badge is the gray fallback |
| Colors.BadgeClass | frontend/src/components/GerenciarAnimacoesModal.jsx:413-422 | a badge other than gray iff the status is one of the four title statuses |
| Colors.BadgeClassesDistinct | frontend/src/components/GerenciarAnimacoesModal.jsx:786 | every title status gets its own badge |
| Paging.PageCount | backend/controllers/avaliacaoController.js:113 | the page count is the fewest pages of `limit` rows that hold `total` rows |
| Paging.Pages | backend/controllers/listaController.js:130 | a page count exists iff the page size is positive, and then it is the ceiling of total over limit |
| Paging.Window | backend/controllers/listaController.js:107 | `LIMIT`/`OFFSET` keep at most `limit` rows, exactly the rows from the offset on, in order |
| Paging.Paginate | backend/controllers/avaliacaoController.js:88-114 | a page exists iff LIMIT and OFFSET are non-negative; it echoes page and limit, reports the full total and page count, and item `i` is row `(page-1)*limit+i` |
| Paging.RowOnItsPage | backend/controllers/animacaoController.js:69 | every row of the result is reachable: row `i` is item `i % limit` of page `i / limit + 1`, which is within the reported page count |
| Ranking.Insert | backend/controllers/statsController.js:50 | inserting into a descending list keeps it descending and adds exactly the new row |
| Ranking.SortDesc | backend/controllers/statsController.js:50 | `ORDER BY … DESC` yields a descending permutation of the rows |
| Ranking.Top | backend/controllers/statsController.js:50-51 | `ORDER BY … DESC LIMIT k` yields min(k, n) rows drawn from the input without duplication, descending, none ranking below a row that was cut |
| Ranking.PageKeepsOrder | backend/controllers/listaController.js:107 | one page of a descending result is descending and drawn from it |
| Ranking.PageOf | backend/controllers/animacaoController.js:63-69 | a LIMIT/OFFSET window of the sorted rows exists iff LIMIT and OFFSET are non-negative; it holds exactly min(limit, max(0, n - (page-1)*limit)) of the n rows, none more often than in the input, descending, and reports n and ceil(n/limit) |
| Ranking.EveryRowOnAPage | backend/controllers/animacaoController.js:69 | with a positive limit every row appears on some page between 1 and the page count |
| Ranking.FirstPageIsTop | backend/controllers/animacaoController.js:63-69 | a matching row missing from page 1 ranks no higher than any row on page 1, so page 1 is the top `limit` rows |
| Ranking.EarlierPageRanksHigher | backend/controllers/animacaoController.js:63-69 | every row on an earlier page ranks at least as high as every row on a later page |
| Common.OrNull | backend/controllers/animacaoController.js:233 | the `or null` fallback gives a value iff the field is a non-empty string, and then that string |
| Common.OrDefault | backend/controllers/animacaoController.js:239 | the `or default` fallback gives the field when it is a non-empty string and the default otherwise |
| Common.Filter | backend/scripts/migrate.js:21 | `.filter` keeps exactly the elements satisfying the predicate, and each one comes from the input |
| Common.FilterAppend | backend/scripts/migrate.js:21 | filtering distributes over concatenation |
| Text.Trim | backend/scripts/migrate.js:20 | `trim()` yields the slice of the input between its leading and trailing white space, itself without surrounding white space |
| Text.TrimEmptyIffBlank | frontend/src/components/GerenciarAnimacoesModal.jsx:234 | a string trims to "" exactly when it is all white space |
| Text.TrimIdentity | backend/scripts/migrate.js:20 | trimming a string without surrounding white space leaves it unchanged |
| Text.TrimPadded | backend/scripts/migrate.js:20 | a leading white-space character is removed by trimming |
| Text.TrimKeepsOut | backend/scripts/migrate.js:20 | trimming never introduces a character |
| Text.ToLower | backend/scripts/migrate.js:25 | `toLowerCase()` keeps the length, lowers each ASCII capital and keeps every other character |
| Text.Split | backend/controllers/animacaoController.js:44 | `split(sep)` yields at least one piece, no piece contains the separator, and a single piece iff the separator does not occur |
| Text.JoinSplit | backend/scripts/migrate.js:18-19 | joining the pieces of a split gives the original string back |
| Text.SplitJoin | backend/scripts/migrate.js:18-19 | splitting a join of separator-free pieces gives the pieces back |
| Text.NatToString | frontend/src/components/GerenciarAnimacoesModal.jsx:320 | the decimal rendering of a status code is a non-empty digit string without a leading zero |
| Text.NatToStringValue | frontend/src/components/GerenciarAnimacoesModal.jsx:320 | reading the rendered digits back gives the number |

## Left out

- Database plumbing: the connection pool, SQL text and parameter binding are not modelled; each query is a function over the `Db` value.
- MySQL string semantics: `LIKE` is modelled with its `%` and `_` wildcards and `\` escape, which the search text the handler splices into `%${search}%` carries unescaped; its comparison of characters, and `ORDER BY nome`, are exact code-point comparisons without the collation's case and accent folding.
- The genre lists that `GROUP_CONCAT` returns with each title are not modelled, nor how a genre filter trims them.
- The interpolated `ORDER BY a.${orderBy}` column is a function parameter that maps a name to a sort column or to a database error; there is no allow-list in the source to model.
- Password hashing and comparison and JWT signing and verification (RFC 7519) are function-typed parameters; the model proves decisions relative to them, not their security.
- E-mail and URI syntax checks of the Joi schemas are predicate parameters; Joi's message texts, unknown-key rejection and conversion of numeric strings are not modelled, only accept versus 400.
- Floating-point formatting (`toFixed`, `formatRating`, `formatDate`) is not modelled; `nota_media` is an exact `real` mean, without any rounding the column type applies.
- Wall-clock time (`NOW()`, `DATE_SUB`, `new Date().getFullYear()`) is an integer parameter; the length of a calendar month is a parameter too.
- Concurrency is not modelled: the check-then-insert race of review creation, upsert atomicity and parallel fetches. Every handler runs alone.
- Off-the-shelf middleware is not modelled: helmet, the rate limiter, the JSON body limit, the request logger.
- Client side effects are reduced to their state: local storage holds only the two keys the session uses, the full-page redirect to /login after a 401 is modelled as a reload of the stored session, and `setInterval` timing is a sequence of ticks.
- Pure UI markup (Header, Footer, Home, Dashboard, Perfil, AnimeDetalhes, MinhasAvaliacoes, AnimeCard, select.jsx, LoadingSpinner, App) is not modelled, nor the image `onError` fallback of the carousel.
- `getProfile`, `getMinhasAvaliacoes` and `getRecentAnimacoes` are read-only lookups outside the modelled core.
- The route tables are used only for the guard order (authentication, then the admin check, then validation, then the handler); path parameters are already integers.
- backend/scripts/seed.js is a one-shot script with I/O and is not part of this model.
- database/schema.sql is not part of this model: foreign-key behaviour is taken from the handlers and the admin modal's confirmation text (a review or genre link for a missing title fails with 500, deleting a title removes its links, reviews and list entries).
- Queries that join `usuarios` with the role table assume every user has a role.
- `parseInt` of text that is not a number (NaN) is not modelled: form numbers are either empty or integers, and the page and limit query parameters are either absent, when the handler's default applies, or integers.
- JavaScript object lookups in the colour tables also match inherited keys such as "constructor"; the model treats every such key as unknown.
- Carousel.Next: the carousel operations require the index to be within the current list; the source's behaviour after the list shrinks below the index is not modelled.
- Routes.HandleKeepsValid: assumes the aggregate recompute succeeds; when it fails the source swallows the error and the stored aggregates go stale, which Reviews.UpdateNotaMedia states.
- Catalog.SingleStatusExact: compares the status exactly; the default utf8mb4 collation of the connection compares case- and accent-insensitively, so MySQL also selects a status that differs only in letter case.
- Catalog.StatusListJoin: compares each listed status exactly, for the same collation reason.
- Watchlist.MyList: the status filter compares names exactly; under the collation a status differing only in case also matches.
- Genres.CreateGenre: the name taken test is exact equality; under the collation, and the UNIQUE key that uses it, a name differing only in case or accents is also taken.
- Accounts.Register: the e-mail taken test is exact equality; under the collation an address differing only in letter case is also taken.
- Accounts.FindActiveByEmail: matches the e-mail exactly; under the collation the lookup ignores letter case.
- Accounts.Login: finds the account by exact e-mail, for the same collation reason.
- Validation.DecodeReview: string lengths count characters of the model's strings, while Joi counts UTF-16 code units, so a comment with characters outside the Basic Multilingual Plane is measured shorter here.
- Validation.ReviewOkMeans: the 1000-character bound counts characters, not UTF-16 code units, as above. A JSON number is the value `JSON.parse` produced, so a literal such as 5.0000000000000001, which parses to the double 5, reaches the schema as 5; the rounding of decimal literals to doubles is not modelled.
- Validation.DecodeTitle: the 1 to 255 character bound counts characters, not UTF-16 code units.
- Validation.GateFollowsSchema: the 2 to 100 and at-least-6 bounds count characters, not UTF-16 code units.
- Carousel.Excerpt: `substring(0, 200)` counts UTF-16 code units and can cut a surrogate pair; the model cuts after 200 characters.
- Text.ToLower: only the ASCII capitals are lowered; the Unicode case mapping of `toLowerCase()` (accented capitals, "İ", which lowers to two characters) is not modelled.
- Catalog.OrderKey: the `order` parameter is spliced into the SQL text verbatim; the model accepts only "", "ASC" and "DESC" in any letter case and treats everything else as the database error, although MySQL also accepts such a value with surrounding white space or followed by further ORDER BY terms.
- Server.Resolve: path segments are matched exactly; Express's case-insensitive matching, its tolerance of a trailing slash and its answering HEAD with a GET route are not modelled.
- Catalog.LinkedGenres: returns the linked genre records themselves; the source rebuilds them by splitting the GROUP_CONCAT of "id:nome:cor" strings on "," and ":", which mangles a name or colour holding either character, drops a genre whose colour is NULL, and loses genres beyond the group_concat_max_len limit.
- Catalog.GetTitle: its genre list is that of Catalog.LinkedGenres, with the same omissions.
- frontend/src/App.jsx:32 routes /lancamentos to the Explorar page, so the Releases model describes frontend/src/pages/Lancamentos.jsx as written, a page the router does not reach.
- Ranking.Top: SQL leaves the order of ties unspecified, so the model proves only that the result is a descending arrangement of a top-k selection, not which of several tied rows is chosen.

## Findings

| source | as written | input that shows it | evidently intended | confidence | as-written member | corrected member |
|---|---|---|---|---|---|---|
| frontend/src/pages/Explorar.jsx:31-36 | the search filter is read from query key "q" but written back under "search", so a reload loses it | search "naruto", then reload the page | the search written under "q", so every filter survives a reload | high, not executed | Explore.SearchLostExample | Explore.FilterChangeSynced |
| frontend/src/components/GerenciarAnimacoesModal.jsx:413-422 | the admin badge has cases for "Pausado" and "Em breve", which are not title statuses, and none for "Anunciado" | a title with status "Anunciado" | one badge per title status, "Anunciado" included | medium, not executed | Colors.AnnouncedBadgeIsGray | Colors.BadgeClassesDistinct |

=== FILE: accounts.dfy ===
/**
 * Registration and login, backend/controllers/authController.js. Password
 * hashing and token signing are outside the model: `hashed` is the value
 * bcrypt produced for the submitted password, `compare` is bcrypt's
 * comparison and `sign` builds a token carrying a user id.
 */
module Accounts {
  import opened Common
  import opened Schema

  /** A handler answer that may carry a token, the user it was issued for and an error text. */
  datatype AuthReply = AuthReply(status: int, db: Db, token: Option<string>, user: Option<User>, error: string)

  const EmailTaken: string := "Email já cadastrado"
  const BadCredentials: string := "Credenciais inválidas"

  predicate EmailUsed(us: seq<User>, email: string) {
    exists i :: 0 <= i < |us| && us[i].email == email
  }

  predicate EmailsUnique(us: seq<User>) {
    forall i, j :: 0 <= i < j < |us| ==> us[i].email != us[j].email
  }

  /**
   * `register`: 400 when any user, active or not, already has the e-mail;
   * otherwise a new active user with role "user" and a token for its id.
   */
  function Register(db: Db, nome: string, email: string, hashed: string, now: int, sign: int -> string): (r: AuthReply)
    ensures r.status in {201, 400}
    ensures r.status == 400 <==> EmailUsed(db.users, email)
    ensures r.status == 400 ==> r.db == db && r.token.None? && r.error == EmailTaken
    ensures r.status == 201 ==>
              && r.user == Some(User(db.next.users, nome, email, hashed, "user", None, true, now))
              && r.db == db.(users := db.users + [r.user.value], next := db.next.(users := db.next.users + 1))
              && r.token == Some(sign(db.next.users))
  {
    if EmailUsed(db.users, email) then AuthReply(400, db, None, None, EmailTaken)
    else
      var id := db.next.users;
      var u := User(id, nome, email, hashed, "user", None, true, now);
      AuthReply(201, db.(users := db.users + [u], next := db.next.(users := id + 1)), Some(sign(id)), Some(u), "")
  }

  /** `SELECT … WHERE u.email = ? AND u.ativo = TRUE`, first row. */
  function FindActiveByEmail(us: seq<User>, email: string): (r: Option<User>)
    ensures r.Some? ==> r.value in us && r.value.email == email && r.value.ativo
    ensures r.None? <==> forall i :: 0 <= i < |us| ==> !(us[i].email == email && us[i].ativo)
  {
    FindActive(us, (u: User) => u.email == email)
  }

  /**
   * `login`: 401 with the same message when no active user has the e-mail
   * and when the password does not match; otherwise 200 and a token for the
   * matched user's id.
   */
  function Login(db: Db, email: string, senha: string, compare: (string, string) -> bool, sign: int -> string): (r: AuthReply)
    ensures r.db == db
    ensures r.status in {200, 401}
    ensures r.status == 401 ==> r.error == BadCredentials && r.token.None?
    ensures FindActiveByEmail(db.users, email).None? ==> r.status == 401
    ensures r.status == 200 <==>
              FindActiveByEmail(db.users, email).Some? && compare(senha, FindActiveByEmail(db.users, email).value.senhaHash)
    ensures r.status == 200 ==>
              && r.user.Some? && r.user.value in db.users && r.user.value.email == email && r.user.value.ativo
              && r.token == Some(sign(r.user.value.id))
  {
    match FindActiveByEmail(db.users, email)
    case None => AuthReply(401, db, None, None, BadCredentials)
    case Some(u) =>
      if !compare(senha, u.senhaHash) then AuthReply(401, db, None, None, BadCredentials)
      else AuthReply(200, db, Some(sign(u.id)), Some(u), "")
  }

  /** Registration keeps e-mails unique. */
  lemma RegisterKeepsEmailsUnique(db: Db, nome: string, email: string, hashed: string, now: int, sign: int -> string)
    requires EmailsUnique(db.users)
    ensures EmailsUnique(Register(db, nome, email, hashed, now, sign).db.users)
  {
    var r := Register(db, nome, email, hashed, now, sign);
    if r.status == 201 {
      var us := r.db.users;
      forall i, j | 0 <= i < j < |us| ensures us[i].email != us[j].email {
        if j == |db.users| {
          assert us[i] == db.users[i];
        }
      }
    }
  }

  /**
   * A freshly registered account can log in with the password whose hash was
   * stored, and the token names the new id.
   */
  lemma RegisterThenLogin(db: Db, nome: string, email: string, senha: string, hashed: string, now: int,
                          compare: (string, string) -> bool, sign: int -> string)
    requires Register(db, nome, email, hashed, now, sign).status == 201
    requires compare(senha, hashed)
    ensures var db1 := Register(db, nome, email, hashed, now, sign).db;
      var l := Login(db1, email, senha, compare, sign);
      l.status == 200 && l.token == Some(sign(db.next.users))
  {
    var db1 := Register(db, nome, email, hashed, now, sign).db;
    var u := db1.users[|db.users|];
    var found := FindActiveByEmail(db1.users, email);
    assert found.Some? by {
      assert db1.users[|db.users|].email == email && db1.users[|db.users|].ativo;
    }
    assert found.value == u by {
      var k :| 0 <= k < |db1.users| && db1.users[k] == found.value;
      assert k == |db.users|;
    }
  }

  /** An unknown e-mail and a wrong password are indistinguishable to the caller. */
  lemma LoginFailuresAlike(db: Db, e1: string, p1: string, e2: string, p2: string,
                           compare: (string, string) -> bool, sign: int -> string)
    requires FindActiveByEmail(db.users, e1).None?
    requires FindActiveByEmail(db.users, e2).Some? && !compare(p2, FindActiveByEmail(db.users, e2).value.senhaHash)
    ensures Login(db, e1, p1, compare, sign) == Login(db, e2, p2, compare, sign)
  {
  }
}

=== FILE: auth.dfy ===
/**
 * The authentication middleware of backend/middleware/auth.js. Token
 * verification is outside the model: `verify` yields the user id a valid
 * token carries, or None for a token that fails verification.
 */
module Auth {
  import opened Common
  import opened Text
  import opened Schema

  /** `authHeader && authHeader.split(" ")[1]`, kept only when non-empty. */
  function ExtractToken(header: Option<string>): (r: Option<string>)
    ensures r.Some? <==> header.Some? && |Split(header.value, ' ')| >= 2 && Split(header.value, ' ')[1] != ""
    ensures r.Some? ==> r.value == Split(header.value, ' ')[1] && ' ' !in r.value
  {
    if header.None? || header.value == "" then None
    else
      var parts := Split(header.value, ' ');
      if |parts| >= 2 && parts[1] != "" then Some(parts[1]) else None
  }

  /** The outcome of `authenticateToken`: a refusal with its status, or the request's user. */
  datatype AuthResult = Denied(status: int) | Authed(user: User)

  /** `SELECT … WHERE u.id = ? AND u.ativo = TRUE`, first row. */
  function FindActiveUser(us: seq<User>, id: int): (r: Option<User>)
    ensures r.Some? ==> r.value in us && r.value.id == id && r.value.ativo
    ensures r.None? <==> forall i :: 0 <= i < |us| ==> !(us[i].id == id && us[i].ativo)
  {
    FindActive(us, (u: User) => u.id == id)
  }

  /**
   * `authenticateToken`: 401 without a token, 403 for a token that does
   * not verify, 401 when its user is missing or inactive; otherwise the
   * request carries that active user.
   */
  function Authenticate(db: Db, header: Option<string>, verify: string -> Option<int>): (r: AuthResult)
    ensures ExtractToken(header).None? ==> r == Denied(401)
    ensures ExtractToken(header).Some? && verify(ExtractToken(header).value).None? ==> r == Denied(403)
    ensures r.Denied? ==> r.status in {401, 403}
    ensures r.Authed? <==> (ExtractToken(header).Some? && verify(ExtractToken(header).value).Some?
                            && FindActiveUser(db.users, verify(ExtractToken(header).value).value).Some?)
    ensures r.Authed? ==> r.user in db.users && r.user.ativo && r.user.id == verify(ExtractToken(header).value).value
  {
    match ExtractToken(header)
    case None => Denied(401)
    case Some(token) =>
      match verify(token)
      case None => Denied(403)
      case Some(userId) =>
        match FindActiveUser(db.users, userId)
        case None => Denied(401)
        case Some(u) => Authed(u)
  }

  /** `requireAdmin`: 403 unless the role is "admin". */
  function RequireAdmin(u: User): (r: Option<int>)
    ensures r.None? <==> u.role == "admin"
    ensures r.Some? ==> r.value == 403
  {
    if u.role == "admin" then None else Some(403)
  }

  /**
   * The scheme word is never looked at: any space-free first word followed
   * by a space and a space-free token yields that token.
   */
  lemma AnySchemeAccepted(scheme: string, token: string)
    requires ' ' !in scheme && ' ' !in token && token != ""
    ensures ExtractToken(Some(scheme + " " + token)) == Some(token)
  {
    SplitCons(scheme, token, ' ');
    assert scheme + " " + token == scheme + [' '] + token;
  }

  /** The header the client builds, `Bearer ${token}`, gives back the token. */
  lemma BearerRoundTrip(token: string)
    requires ' ' !in token && token != ""
    ensures ExtractToken(Some("Bearer " + token)) == Some(token)
  {
    AnySchemeAccepted("Bearer", token);
  }

  /** A header with no space carries no token. */
  lemma NoSpaceNoToken(header: string)
    requires ' ' !in header
    ensures ExtractToken(Some(header)) == None
  {
  }
}

=== FILE: carousel.dfy ===
/**
 * The home-page banner, frontend/src/components/BannerCarrossel.jsx: a
 * current index over the featured titles that wraps at both ends, an
 * auto-play timer that any manual navigation switches off for good, and what
 * the current slide shows.
 */
module Carousel {
  import opened Common

  /** `currentIndex` and `isAutoPlaying`. */
  datatype State = State(index: int, autoplay: bool)

  const Start: State := State(0, true)

  /** The index points at one of the n slides. */
  predicate InRange(s: State, n: nat) {
    0 <= s.index < n
  }

  /** The index after `s`, wrapping from the last slide to the first. */
  function Succ(i: int, n: nat): int {
    if i == n - 1 then 0 else i + 1
  }

  /** `goToNext`: the following slide, wrapping around, and auto-play off. */
  function Next(s: State, n: nat): (r: State)
    requires InRange(s, n)
    ensures InRange(r, n) && !r.autoplay
    ensures r.index == (s.index + 1) % n
  {
    State(Succ(s.index, n), false)
  }

  /** `goToPrevious`: the preceding slide, wrapping from the first to the last, and auto-play off. */
  function Prev(s: State, n: nat): (r: State)
    requires InRange(s, n)
    ensures InRange(r, n) && !r.autoplay
    ensures r.index == (s.index - 1) % n
  {
    State(if s.index == 0 then n - 1 else s.index - 1, false)
  }

  /** `goToSlide(i)` from the dot of slide i. */
  function GoTo(s: State, i: int): (r: State)
    ensures r.index == i && !r.autoplay
  {
    State(i, false)
  }

  /** One tick of the five-second timer: it runs only with auto-play on and more than one slide. */
  function Tick(s: State, n: nat): (r: State)
    requires InRange(s, n)
    ensures InRange(r, n) && r.autoplay == s.autoplay
    ensures r.index == (if s.autoplay && n > 1 then (s.index + 1) % n else s.index)
  {
    if s.autoplay && n > 1 then s.(index := Succ(s.index, n)) else s
  }

  /** Going back undoes going forward, and forward undoes back; only auto-play stays off. */
  lemma NextPrevInverse(s: State, n: nat)
    requires InRange(s, n)
    ensures Prev(Next(s, n), n) == s.(autoplay := false)
    ensures Next(Prev(s, n), n) == s.(autoplay := false)
  {
  }

  /** The user's inputs and the timer. */
  datatype Event = NextClicked | PrevClicked | DotClicked(i: int) | TimerFired

  /** An event the page can produce: a dot exists for every slide and no other. */
  predicate Possible(e: Event, n: nat) {
    e.DotClicked? ==> 0 <= e.i < n
  }

  function Step(s: State, n: nat, e: Event): (r: State)
    requires InRange(s, n) && Possible(e, n)
    ensures InRange(r, n)
    ensures r.autoplay <==> s.autoplay && e.TimerFired?
  {
    match e
    case NextClicked => Next(s, n)
    case PrevClicked => Prev(s, n)
    case DotClicked(i) => GoTo(s, i)
    case TimerFired => Tick(s, n)
  }

  /** The state after a sequence of events. */
  function Run(s: State, n: nat, es: seq<Event>): State
    requires InRange(s, n)
    requires forall k :: 0 <= k < |es| ==> Possible(es[k], n)
    decreases |es|
  {
    if |es| == 0 then s else Run(Step(s, n, es[0]), n, es[1..])
  }

  /**
   * Whatever happens, the index stays on a slide, and auto-play is still on
   * exactly when it started on and only the timer has fired since.
   */
  lemma {:induction false} RunInvariant(s: State, n: nat, es: seq<Event>)
    requires InRange(s, n)
    requires forall k :: 0 <= k < |es| ==> Possible(es[k], n)
    ensures InRange(Run(s, n, es), n)
    ensures Run(s, n, es).autoplay <==> s.autoplay && forall k :: 0 <= k < |es| ==> es[k].TimerFired?
    decreases |es|
  {
    if |es| > 0 {
      RunInvariant(Step(s, n, es[0]), n, es[1..]);
      assert forall k :: 1 <= k < |es| ==> es[1..][k - 1] == es[k];
    }
  }

  /** k timer ticks with auto-play on move the index k slides forward, modulo the slide count. */
  function Ticks(s: State, n: nat, k: nat): State
    requires InRange(s, n)
    decreases k
  {
    if k == 0 then s else Ticks(Tick(s, n), n, k - 1)
  }

  lemma {:induction false} TicksAdvance(s: State, n: nat, k: nat)
    requires InRange(s, n) && s.autoplay && n > 1
    ensures Ticks(s, n, k) == State((s.index + k) % n, true)
    decreases k
  {
    if k > 0 {
      var t := Tick(s, n);
      TicksAdvance(t, n, k - 1);
      ModAddAssoc(s.index, k, n);
    }
  }

  lemma ModAddAssoc(i: int, k: nat, n: nat)
    requires n > 0 && k > 0
    ensures ((i + 1) % n + (k - 1)) % n == (i + k) % n
  {
    var q := (i + 1) / n;
    assert i + k == ((i + 1) % n + (k - 1)) + q * n;
    ModShift((i + 1) % n + (k - 1), q, n);
  }

  /** Adding a multiple of n does not change the remainder. */
  lemma ModShift(a: int, q: int, n: nat)
    requires n > 0
    ensures (a + q * n) % n == a % n
  {
    var d := a / n;
    var r := a % n;
    assert a + q * n == (d + q) * n + r;
    ModUnique(a + q * n, d + q, r, n);
  }

  /** Euclidean division has one quotient and one remainder. */
  lemma ModUnique(x: int, d: int, r: int, n: int)
    requires n > 0 && 0 <= r < n && x == d * n + r
    ensures x % n == r
  {
    var d2 := x / n;
    var r2 := x % n;
    assert (d - d2) * n == r2 - r;
    if d > d2 {
      MulAtLeast(d - d2, n);
    } else if d < d2 {
      assert (d2 - d) * n == r - r2;
      MulAtLeast(d2 - d, n);
    }
  }

  lemma MulAtLeast(a: int, n: int)
    requires a >= 1 && n > 0
    ensures a * n >= n
  {
    assert a * n == (a - 1) * n + n;
  }

  /** After n ticks the banner is back on the slide it started on. */
  lemma FullCycle(s: State, n: nat)
    requires InRange(s, n) && s.autoplay && n > 1
    ensures Ticks(s, n, n) == s
  {
    TicksAdvance(s, n, n);
    ModUnique(s.index + n, 1, s.index, n);
  }

  // ------------------------------------------------------------ rendering

  /** The fields of a featured title the banner shows. */
  datatype Banner = Banner(
    id: int,
    titulo: string,
    tituloOriginal: Option<string>,
    sinopse: Option<string>,
    bannerUrl: Option<string>,
    posterUrl: Option<string>,
    generos: seq<string>)

  const Placeholder: string := "/placeholder.svg"

  /** `x || y` on optional strings: the first one present and non-empty. */
  function FirstSet(x: Option<string>, fallback: string): (r: string)
    ensures x.Some? && x.value != "" ==> r == x.value
    ensures !(x.Some? && x.value != "") ==> r == fallback
  {
    if x.Some? && x.value != "" then x.value else fallback
  }

  /** `banner_url || poster_url || "/placeholder.svg"`. */
  function Image(b: Banner): (r: string)
    ensures r != ""
    ensures b.bannerUrl.Some? && b.bannerUrl.value != "" ==> r == b.bannerUrl.value
  {
    FirstSet(b.bannerUrl, FirstSet(b.posterUrl, Placeholder))
  }

  /** A synopsis over 200 characters is cut to its first 200 and marked with "...". */
  function Excerpt(s: string): (r: string)
    ensures |s| <= 200 ==> r == s
    ensures |s| > 200 ==> |r| == 203 && r[..200] == s[..200] && r[200..] == "..."
  {
    if |s| > 200 then s[..200] + "..." else s
  }

  /** The original title is shown when it is set and differs from the title. */
  predicate ShowsOriginal(b: Banner) {
    b.tituloOriginal.Some? && b.tituloOriginal.value != "" && b.tituloOriginal.value != b.titulo
  }

  /** What the banner renders for the current state. */
  datatype View = View(
    image: string,
    titulo: string,
    original: Option<string>,
    synopsis: Option<string>,
    genres: seq<string>,
    detailsLink: int,
    controls: bool,
    dots: nat,
    activeDot: int,
    autoplayBadge: bool)

  /**
   * The banner: nothing for an empty list; otherwise the current title, at
   * most four genres, and arrows, dots and the auto-play badge only when there
   * is more than one title.
   */
  function Render(animes: seq<Banner>, s: State): (r: Option<View>)
    requires |animes| == 0 || InRange(s, |animes|)
    ensures r.None? <==> |animes| == 0
    ensures r.Some? ==> r.value.titulo == animes[s.index].titulo && r.value.detailsLink == animes[s.index].id
    ensures r.Some? ==> |r.value.genres| == Min(4, |animes[s.index].generos|)
    ensures r.Some? ==> r.value.genres == animes[s.index].generos[..|r.value.genres|]
    ensures r.Some? ==> (r.value.controls <==> |animes| > 1) && r.value.dots == (if |animes| > 1 then |animes| else 0)
    ensures r.Some? ==> (r.value.autoplayBadge <==> |animes| > 1 && s.autoplay)
    ensures r.Some? ==> (r.value.original.Some? <==> ShowsOriginal(animes[s.index]))
  {
    if |animes| == 0 then None
    else
      var b := animes[s.index];
      var many := |animes| > 1;
      Some(View(
        Image(b),
        b.titulo,
        if ShowsOriginal(b) then b.tituloOriginal else None,
        if b.sinopse.Some? && b.sinopse.value != "" then Some(Excerpt(b.sinopse.value)) else None,
        b.generos[..Min(4, |b.generos|)],
        b.id,
        many,
        if many then |animes| else 0,
        s.index,
        many && s.autoplay))
  }
}

=== FILE: catalog.dfy ===
/**
 * The title handlers of backend/controllers/animacaoController.js: the
 * filtered, paginated catalogue, the detail view with its rating
 * histogram, and the admin create, update and delete operations.
 */
module Catalog {
  import opened Common
  import opened Text
  import opened Schema
  import opened Paging
  import opened Ranking
  import opened Reviews
  import opened SqlLike

  // ------------------------------------------------------------ the filter

  /**
   * The filter parameters of `GET /animacoes`. The empty string stands for
   * an absent parameter (both are falsy); `genero` and `anoMin` are the
   * numbers the database compares with.
   */
  datatype Filters = Filters(search: string, genero: Option<int>, status: string, anoMin: Option<int>)

  /**
   * The whole query string: filters, ordering and the page wanted (`order`
   * is "DESC" when the request leaves it out). `page` and `limit` are the
   * numbers sent, if any; the handler reads them as 1 and 20 when absent.
   */
  datatype CatalogQuery = CatalogQuery(filters: Filters, orderBy: string, order: string,
                                       pageParam: Option<int>, limitParam: Option<int>)
  {
    function Page(): int { ParamOr(pageParam, 1) }
    function Limit(): int { ParamOr(limitParam, 20) }
  }

  /**
   * `titulo LIKE %s% OR titulo_original LIKE %s%` with the search text
   * spliced into the pattern unescaped; a null column never matches.
   */
  predicate SearchMatches(t: Title, search: string) {
    Like(t.titulo, Surround(search)) || (t.tituloOriginal.Some? && Like(t.tituloOriginal.value, Surround(search)))
  }

  /** A search without wildcards selects the titles whose either name contains it. */
  lemma PlainSearchIsSubstring(t: Title, search: string)
    requires Literal(search)
    ensures SearchMatches(t, search) <==>
              Contains(t.titulo, search) || (t.tituloOriginal.Some? && Contains(t.tituloOriginal.value, search))
  {
    LiteralSearchIsSubstring(t.titulo, search);
    if t.tituloOriginal.Some? {
      LiteralSearchIsSubstring(t.tituloOriginal.value, search);
    }
  }

  /** Searching for "_" selects every title with a non-empty name: `_` is a wildcard. */
  lemma UnderscoreSearchSelectsNamed(t: Title)
    requires t.titulo != ""
    ensures SearchMatches(t, "_")
  {
    UnderscoreMatchesAny(t.titulo);
  }

  /** A status list `a,b,…` is split on commas and each piece trimmed. */
  function StatusList(status: string): (r: seq<string>)
    ensures |r| == |Split(status, ',')|
    ensures forall k :: 0 <= k < |r| ==> r[k] == Trim(Split(status, ',')[k])
  {
    var parts := Split(status, ',');
    seq(|parts|, k requires 0 <= k < |parts| => Trim(parts[k]))
  }

  /** `status IN (list)` when the parameter holds a comma, `status = ?` otherwise. */
  predicate StatusMatches(t: Title, status: string) {
    if ',' in status then t.status in StatusList(status) else t.status == status
  }

  predicate LinkedTo(db: Db, titleId: int, genreId: int) {
    exists i :: 0 <= i < |db.links| && db.links[i] == Link(titleId, genreId)
  }

  /** `g.id = ?` over the join: a link to an existing genre with that id. */
  predicate GenreMatches(db: Db, t: Title, genreId: int) {
    LinkedTo(db, t.id, genreId) && GenreExists(db.genres, genreId)
  }

  /** `ano_lancamento >= ?`; a null year never satisfies the bound. */
  predicate YearMatches(t: Title, anoMin: int) {
    t.anoLancamento.Some? && t.anoLancamento.value >= anoMin
  }

  /** The WHERE clause of both the row query and the count query: every given filter, ANDed. */
  predicate Matches(db: Db, f: Filters, t: Title) {
    && (f.search == "" || SearchMatches(t, f.search))
    && (f.genero.None? || GenreMatches(db, t, f.genero.value))
    && (f.status == "" || StatusMatches(t, f.status))
    && (f.anoMin.None? || YearMatches(t, f.anoMin.value))
  }

  /** `WHERE 1=1` with no condition appended: without filters every title is selected. */
  lemma NoFilterSelectsAll(db: Db, t: Title)
    ensures Matches(db, Filters("", None, "", None), t)
  {
  }

  /** The appended conditions are ANDed: a title matches iff it passes each filter given alone. */
  lemma MatchesEachFilter(db: Db, f: Filters, t: Title)
    ensures Matches(db, f, t) <==>
              && Matches(db, Filters(f.search, None, "", None), t)
              && Matches(db, Filters("", f.genero, "", None), t)
              && Matches(db, Filters("", None, f.status, None), t)
              && Matches(db, Filters("", None, "", f.anoMin), t)
  {
  }

  function Selects(db: Db, f: Filters): Title -> bool {
    t => Matches(db, f, t)
  }

  function NewestTitle(t: Title): Key {
    ByOne(t.createdAt as real)
  }

  /**
   * The sort key of the ORDER BY clause. `column` ranks titles by the column
   * `orderBy` names (None when there is no such column, a database error);
   * the direction is `ASC` (also the SQL default when `order` is empty) or
   * `DESC`, in any letter case.
   */
  function OrderKey(orderBy: string, order: string, column: string -> Option<Title -> real>): (r: Option<Title -> Key>)
    ensures orderBy == "" ==> r == Some(NewestTitle)
    ensures orderBy != "" ==> (r.Some? <==> column(orderBy).Some? && ToLower(order) in ["desc", "asc", ""])
  {
    if orderBy == "" then Some(NewestTitle)
    else match column(orderBy)
      case None => None
      case Some(col) =>
        var dir := ToLower(order);
        if dir == "desc" then Some((t: Title) => ByOne(col(t)))
        else if dir == "asc" || dir == "" then Some((t: Title) => ByOne(-col(t)))
        else None
  }

  /** An accepted ORDER BY ranks by the named column: descending for DESC, ascending for ASC or no direction. */
  lemma OrderKeyDirection(orderBy: string, order: string, column: string -> Option<Title -> real>, t: Title)
    requires orderBy != "" && OrderKey(orderBy, order, column).Some?
    ensures column(orderBy).Some?
    ensures ToLower(order) == "desc" ==> OrderKey(orderBy, order, column).value(t) == ByOne(column(orderBy).value(t))
    ensures ToLower(order) != "desc" ==> OrderKey(orderBy, order, column).value(t) == ByOne(-column(orderBy).value(t))
  {
  }

  /**
   * `getAnimacoes`. None is the 500 answer: a negative LIMIT or OFFSET, or
   * an ORDER BY the database rejects.
   */
  function ListTitles(db: Db, q: CatalogQuery, column: string -> Option<Title -> real>): (r: Option<Page<Title>>)
    ensures r.Some? <==> OrderKey(q.orderBy, q.order, column).Some? && q.Limit() >= 0 && (q.Page() - 1) * q.Limit() >= 0
    ensures r.Some? ==> r.value.info.total == CountWhere(db.titles, Selects(db, q.filters))
    ensures r.Some? ==> r.value.info.page == q.Page() && r.value.info.limit == q.Limit()
    ensures r.Some? ==> r.value.info.pages == Pages(r.value.info.total, q.Limit())
    ensures r.Some? ==> |r.value.items| == PageSize(r.value.info.total, q.Page(), q.Limit())
    ensures r.Some? ==> forall i :: 0 <= i < |r.value.items| ==>
              r.value.items[i] in db.titles && Matches(db, q.filters, r.value.items[i])
    ensures r.Some? ==> SortedDesc(r.value.items, OrderKey(q.orderBy, q.order, column).value)
  {
    var key := OrderKey(q.orderBy, q.order, column);
    if key.None? then None
    else
      var matching := Filter(db.titles, Selects(db, q.filters));
      PageOf(matching, key.value, q.Page(), q.Limit())
  }

  /** A page lists no title more often than the table holds it. */
  lemma ListingRepeatsNothing(db: Db, q: CatalogQuery, column: string -> Option<Title -> real>)
    requires ListTitles(db, q, column).Some?
    ensures multiset(ListTitles(db, q, column).value.items) <= multiset(db.titles)
  {
    var matching := Filter(db.titles, Selects(db, q.filters));
    var key := OrderKey(q.orderBy, q.order, column).value;
    assert ListTitles(db, q, column) == PageOf(matching, key, q.Page(), q.Limit());
    FilterSubMultiset(db.titles, Selects(db, q.filters));
  }

  /**
   * Paging through a listing shows every matching title: with a positive
   * page size each one is on some page between 1 and `pages`.
   */
  lemma EveryMatchListed(db: Db, q: CatalogQuery, column: string -> Option<Title -> real>, t: Title)
    requires OrderKey(q.orderBy, q.order, column).Some? && q.Limit() > 0
    requires t in db.titles && Matches(db, q.filters, t)
    ensures exists p :: 1 <= p <= PageCount(CountWhere(db.titles, Selects(db, q.filters)), q.Limit())
                        && ListTitles(db, q.(pageParam := Some(p)), column).Some?
                        && t in ListTitles(db, q.(pageParam := Some(p)), column).value.items
  {
    var matching := Filter(db.titles, Selects(db, q.filters));
    var key := OrderKey(q.orderBy, q.order, column).value;
    EveryRowOnAPage(matching, key, q.Limit(), t);
    var p :| 1 <= p <= PageCount(|matching|, q.Limit()) && PageOf(matching, key, p, q.Limit()).Some?
             && t in PageOf(matching, key, p, q.Limit()).value.items;
    assert ListTitles(db, q.(pageParam := Some(p)), column) == PageOf(matching, key, p, q.Limit());
  }

  /** A title on an earlier page never ranks below a title on a later page. */
  lemma ListingPagesInOrder(db: Db, q: CatalogQuery, column: string -> Option<Title -> real>, p2: int, i: int, j: int)
    requires OrderKey(q.orderBy, q.order, column).Some? && q.Limit() > 0 && 1 <= q.Page() < p2
    requires ListTitles(db, q, column).Some? && ListTitles(db, q.(pageParam := Some(p2)), column).Some?
    requires 0 <= i < |ListTitles(db, q, column).value.items|
    requires 0 <= j < |ListTitles(db, q.(pageParam := Some(p2)), column).value.items|
    ensures AtLeast(OrderKey(q.orderBy, q.order, column).value(ListTitles(db, q, column).value.items[i]),
                    OrderKey(q.orderBy, q.order, column).value(ListTitles(db, q.(pageParam := Some(p2)), column).value.items[j]))
  {
    var matching := Filter(db.titles, Selects(db, q.filters));
    var key := OrderKey(q.orderBy, q.order, column).value;
    assert ListTitles(db, q, column) == PageOf(matching, key, q.Page(), q.Limit());
    assert ListTitles(db, q.(pageParam := Some(p2)), column) == PageOf(matching, key, p2, q.Limit());
    EarlierPageRanksHigher(matching, key, q.Limit(), q.Page(), p2, i, j);
  }

  /** Without orderBy the page is newest first. */
  lemma DefaultOrderNewestFirst(db: Db, q: CatalogQuery, column: string -> Option<Title -> real>)
    requires q.orderBy == "" && q.Limit() >= 0 && (q.Page() - 1) * q.Limit() >= 0
    ensures ListTitles(db, q, column).Some?
    ensures var items := ListTitles(db, q, column).value.items;
      forall i, j :: 0 <= i < j < |items| ==> items[i].createdAt >= items[j].createdAt
  {
    Accepted(db, q, column);
    var items := ListTitles(db, q, column).value.items;
    assert SortedDesc(items, NewestTitle);
    forall i, j | 0 <= i < j < |items| ensures items[i].createdAt >= items[j].createdAt {
      assert AtLeast(NewestTitle(items[i]), NewestTitle(items[j]));
    }
  }

  /** The count never depends on which page or how large a page is asked for. */
  lemma TotalIndependentOfPaging(db: Db, q: CatalogQuery, q2: CatalogQuery, column: string -> Option<Title -> real>)
    requires q2.filters == q.filters && q2.orderBy == q.orderBy && q2.order == q.order
    requires OrderKey(q.orderBy, q.order, column).Some?
    requires q.Limit() >= 0 && (q.Page() - 1) * q.Limit() >= 0
    requires q2.Limit() >= 0 && (q2.Page() - 1) * q2.Limit() >= 0
    ensures ListTitles(db, q, column).Some? && ListTitles(db, q2, column).Some?
    ensures ListTitles(db, q2, column).value.info.total == ListTitles(db, q, column).value.info.total
  {
    Accepted(db, q, column);
    Accepted(db, q2, column);
  }

  /** A listing is answered exactly when its ORDER BY is accepted and LIMIT and OFFSET are not negative. */
  lemma Accepted(db: Db, q: CatalogQuery, column: string -> Option<Title -> real>)
    requires OrderKey(q.orderBy, q.order, column).Some?
    requires q.Limit() >= 0 && (q.Page() - 1) * q.Limit() >= 0
    ensures ListTitles(db, q, column).Some?
  {
  }

  /** Without `page` and `limit` the listing is the first page of twenty matching titles, or all of them. */
  lemma ListingDefaultPage(db: Db, q: CatalogQuery, column: string -> Option<Title -> real>)
    requires q.pageParam.None? && q.limitParam.None?
    requires OrderKey(q.orderBy, q.order, column).Some?
    ensures ListTitles(db, q, column).Some?
    ensures ListTitles(db, q, column).value.info.page == 1 && ListTitles(db, q, column).value.info.limit == 20
    ensures |ListTitles(db, q, column).value.items| == Min(20, CountWhere(db.titles, Selects(db, q.filters)))
  {
    Accepted(db, q, column);
  }

  /**
   * A status list built by joining trimmed, comma-free names selects exactly
   * the titles whose status is one of the names.
   */
  lemma StatusListJoin(names: seq<string>, t: Title)
    requires |names| >= 2
    requires forall k :: 0 <= k < |names| ==> ',' !in names[k] && Trim(names[k]) == names[k]
    ensures StatusMatches(t, Join(names, ',')) <==> t.status in names
  {
    var s := Join(names, ',');
    SplitJoin(names, ',');
    assert ',' in s by {
      assert |Split(s, ',')| != 1;
    }
    assert StatusList(s) == names;
  }

  /** A single status without commas is compared for equality, untrimmed. */
  lemma SingleStatusExact(t: Title, status: string)
    requires ',' !in status && status != ""
    ensures StatusMatches(t, status) <==> t.status == status
  {
  }

  // ------------------------------------------------------------ the detail

  /** `COUNT(CASE WHEN nota = k THEN 1 END)`. */
  function Bucket(rs: seq<Review>, k: int): nat {
    CountWhere(rs, (x: Review) => x.nota == k as real)
  }

  /** The buckets for k = 1..5, bucket k at index k - 1. */
  function Histogram(rs: seq<Review>): (h: seq<nat>)
    ensures |h| == 5
    ensures forall k :: 1 <= k <= 5 ==> h[k - 1] == Bucket(rs, k)
  {
    seq(5, i requires 0 <= i < 5 => Bucket(rs, i + 1))
  }

  datatype Detail = Detail(
    title: Title,
    genres: seq<Genre>,
    recent: seq<Review>,
    totalAvaliacoes: nat,
    notaMedia: real,
    distribuicao: seq<nat>)

  /**
   * `getAnimacaoById`: 404 (None) when no title has the id; otherwise the
   * title with its linked genres, its five newest reviews whose author
   * exists, and the count, mean and histogram of all its reviews.
   */
  function GetTitle(db: Db, id: int): (r: Option<Detail>)
    ensures r.None? <==> !TitleExists(db.titles, id)
    ensures r.Some? ==> r.value.title in db.titles && r.value.title.id == id
    ensures r.Some? ==> forall g :: g in r.value.genres <==> g in db.genres && LinkedTo(db, id, g.id)
    ensures r.Some? ==> |r.value.recent| == Min(5, |Listed(db, id)|)
    ensures r.Some? ==> forall i :: 0 <= i < |r.value.recent| ==>
              r.value.recent[i] in db.reviews && r.value.recent[i].titleId == id && UserExists(db.users, r.value.recent[i].userId)
    ensures r.Some? ==> SortedDesc(r.value.recent, NewestFirst)
    ensures r.Some? ==> forall x, i :: x in db.reviews && x.titleId == id && UserExists(db.users, x.userId)
                                       && x !in r.value.recent && 0 <= i < |r.value.recent| ==>
              AtLeast(NewestFirst(r.value.recent[i]), NewestFirst(x))
    ensures r.Some? ==> r.value.totalAvaliacoes == |ReviewsOf(db.reviews, id)|
    ensures r.Some? ==> r.value.notaMedia == MeanNota(ReviewsOf(db.reviews, id))
    ensures r.Some? ==> |r.value.distribuicao| == 5 && forall k :: 1 <= k <= 5 ==>
              r.value.distribuicao[k - 1] == Bucket(ReviewsOf(db.reviews, id), k)
  {
    match FindTitle(db.titles, id)
    case None => None
    case Some(t) =>
      var own := ReviewsOf(db.reviews, id);
      Some(Detail(t, LinkedGenres(db, id), RecentReviews(db, id), |own|, MeanNota(own), Histogram(own)))
  }

  /** The genres joined through `animacao_generos`. */
  function LinkedGenres(db: Db, id: int): (r: seq<Genre>)
    ensures forall g :: g in r <==> g in db.genres && LinkedTo(db, id, g.id)
  {
    Filter(db.genres, (g: Genre) => LinkedTo(db, id, g.id))
  }

  /** `… JOIN usuarios … WHERE animacao_id = ? ORDER BY created_at DESC LIMIT 5`. */
  function RecentReviews(db: Db, id: int): (r: seq<Review>)
    ensures |r| == Min(5, |Listed(db, id)|)
    ensures multiset(r) <= multiset(Listed(db, id))
    ensures forall i :: 0 <= i < |r| ==> r[i] in db.reviews && r[i].titleId == id && UserExists(db.users, r[i].userId)
    ensures SortedDesc(r, NewestFirst)
    ensures forall x, i :: x in db.reviews && x.titleId == id && UserExists(db.users, x.userId) && x !in r && 0 <= i < |r| ==>
              AtLeast(NewestFirst(r[i]), NewestFirst(x))
  {
    Top(Listed(db, id), NewestFirst, 5)
  }

  predicate WholeStar(x: Review) {
    x.nota == 1.0 || x.nota == 2.0 || x.nota == 3.0 || x.nota == 4.0 || x.nota == 5.0
  }

  /**
   * The five histogram buckets account for every review exactly when every
   * rating is a whole star; a fractional rating (the validator allows one)
   * is counted in the total but in no bucket.
   */
  lemma {:induction false} HistogramSum(rs: seq<Review>)
    ensures var h := Histogram(rs);
      h[0] + h[1] + h[2] + h[3] + h[4] == CountWhere(rs, WholeStar)
  {
    if |rs| > 0 {
      HistogramSum(rs[1..]);
    }
  }

  lemma HistogramCoversWholeStars(rs: seq<Review>)
    requires forall i :: 0 <= i < |rs| ==> WholeStar(rs[i])
    ensures var h := Histogram(rs);
      h[0] + h[1] + h[2] + h[3] + h[4] == |rs|
  {
    HistogramSum(rs);
    CountWhereAll(rs, WholeStar);
  }
}

=== FILE: colors.dfy ===
/**
 * The colour classes of the status badges: frontend/src/lib/utils.js maps
 * title statuses and list statuses to Tailwind classes with a gray default,
 * and frontend/src/components/GerenciarAnimacoesModal.jsx has its own badge
 * mapping for title statuses.
 */
module Colors {
  import opened Schema
  import Validation

  const Gray: string := "bg-gray-100 text-gray-800"

  /** `getStatusColor`: one class per title status, gray for anything else. */
  function StatusColor(status: string): (r: string)
    ensures r != Gray <==> status in Validation.TitleStatuses
  {
    if status == "Em exibição" then "bg-green-100 text-green-800"
    else if status == "Finalizado" then "bg-blue-100 text-blue-800"
    else if status == "Cancelado" then "bg-red-100 text-red-800"
    else if status == "Anunciado" then "bg-yellow-100 text-yellow-800"
    else Gray
  }

  /** No two title statuses share a colour. */
  lemma StatusColorsDistinct(i: nat, j: nat)
    requires i < j < |Validation.TitleStatuses|
    ensures StatusColor(Validation.TitleStatuses[i]) != StatusColor(Validation.TitleStatuses[j])
  {
  }

  /** `getListStatusColor`: one class per list status, gray for anything else. */
  function ListStatusColor(status: string): (r: string)
    ensures r != Gray <==> status in ListStatusNames
  {
    if status == "assistido" then "bg-green-100 text-green-800"
    else if status == "desejado" then "bg-blue-100 text-blue-800"
    else if status == "assistindo" then "bg-yellow-100 text-yellow-800"
    else if status == "pausado" then "bg-orange-100 text-orange-800"
    else if status == "abandonado" then "bg-red-100 text-red-800"
    else Gray
  }

  /** Every status a list entry can hold gets its own colour. */
  lemma ListColorsDistinct(a: ListStatus, b: ListStatus)
    ensures ListStatusColor(ListStatusName(a)) != Gray
    ensures a != b ==> ListStatusColor(ListStatusName(a)) != ListStatusColor(ListStatusName(b))
  {
  }

  const BadgeGray: string := "border-gray-500 text-gray-700"

  /**
   * `getStatusBadgeClass` of the admin list, as written: it has cases for
   * "Pausado" and "Em breve", which are not title statuses, and none for "Anunciado".
   */
  function BadgeClassAsWritten(status: string): (r: string)
    ensures r == BadgeGray <==> status !in ["Em exibição", "Finalizado", "Cancelado", "Pausado", "Em breve"]
  {
    if status == "Em exibição" then "border-green-500 text-green-700 bg-green-50"
    else if status == "Finalizado" then "border-blue-500 text-blue-700 bg-blue-50"
    else if status == "Cancelado" then "border-red-500 text-red-700 bg-red-50"
    else if status == "Pausado" then "border-yellow-500 text-yellow-700 bg-yellow-50"
    else if status == "Em breve" then "border-purple-500 text-purple-700 bg-purple-50"
    else BadgeGray
  }

  /** An announced title, a status the server accepts, gets the gray fallback badge. */
  lemma AnnouncedBadgeIsGray()
    ensures "Anunciado" in Validation.TitleStatuses
    ensures BadgeClassAsWritten("Anunciado") == BadgeGray
  {
  }

  /** The badge mapping over the four title statuses, with the purple badge on "Anunciado". */
  function BadgeClass(status: string): (r: string)
    ensures r != BadgeGray <==> status in Validation.TitleStatuses
  {
    if status == "Em exibição" then "border-green-500 text-green-700 bg-green-50"
    else if status == "Finalizado" then "border-blue-500 text-blue-700 bg-blue-50"
    else if status == "Cancelado" then "border-red-500 text-red-700 bg-red-50"
    else if status == "Anunciado" then "border-purple-500 text-purple-700 bg-purple-50"
    else BadgeGray
  }

  /** Every title status gets its own badge. */
  lemma BadgeClassesDistinct(i: nat, j: nat)
    requires i < j < |Validation.TitleStatuses|
    ensures BadgeClass(Validation.TitleStatuses[i]) != BadgeClass(Validation.TitleStatuses[j])
  {
  }
}

=== FILE: common.dfy ===
/**
 * Small value types shared by the whole model.
 *
 * JavaScript distinguishes a missing property (`undefined`), an explicit
 * `null` and a present value; request bodies keep the three apart with
 * `Field`, because the validation schemas treat them differently.
 */
module Common {

  datatype Option<T> = None | Some(value: T)

  /** One property of a JSON request body. */
  datatype Field<T> = Absent | Null | Present(value: T)

  /** `x || null` on an optional string: absent, null and "" all become null. */
  function OrNull(f: Field<string>): (r: Option<string>)
    ensures r.Some? <==> f.Present? && f.value != ""
    ensures r.Some? ==> r.value == f.value
  {
    if f.Present? && f.value != "" then Some(f.value) else None
  }

  /** `x || d` on an optional string. */
  function OrDefault(f: Field<string>, d: string): (r: string)
    ensures f.Present? && f.value != "" ==> r == f.value
    ensures !(f.Present? && f.value != "") ==> r == d
  {
    if f.Present? && f.value != "" then f.value else d
  }

  /** A JSON number is integral when it has no fractional part. */
  predicate IsIntegral(x: real) {
    x.Floor as real == x
  }

  function Min(a: int, b: int): int { if a <= b then a else b }

  function Max(a: int, b: int): int { if a >= b then a else b }

  /** Number of elements of `xs` satisfying `p`. */
  function CountWhere<T>(xs: seq<T>, p: T -> bool): (n: nat)
    ensures n <= |xs|
  {
    if |xs| == 0 then 0 else (if p(xs[0]) then 1 else 0) + CountWhere(xs[1..], p)
  }

  /** The elements of `xs` satisfying `p`, in order. */
  function Filter<T>(xs: seq<T>, p: T -> bool): (r: seq<T>)
    ensures |r| == CountWhere(xs, p)
    ensures forall i :: 0 <= i < |r| ==> p(r[i]) && r[i] in xs
    ensures forall x :: x in xs && p(x) ==> x in r
  {
    if |xs| == 0 then []
    else if p(xs[0]) then [xs[0]] + Filter(xs[1..], p)
    else Filter(xs[1..], p)
  }

  lemma {:induction false} FilterAppend<T>(xs: seq<T>, ys: seq<T>, p: T -> bool)
    ensures Filter(xs + ys, p) == Filter(xs, p) + Filter(ys, p)
  {
    if |xs| == 0 {
      assert xs + ys == ys;
    } else {
      assert (xs + ys)[1..] == xs[1..] + ys;
      FilterAppend(xs[1..], ys, p);
    }
  }

  /** Filtering only drops elements: what is kept occurs at most as often as in `xs`. */
  lemma {:induction false} FilterSubMultiset<T>(xs: seq<T>, p: T -> bool)
    ensures multiset(Filter(xs, p)) <= multiset(xs)
  {
    if |xs| > 0 {
      FilterSubMultiset(xs[1..], p);
      assert xs == [xs[0]] + xs[1..];
    }
  }

  /** Appending one element raises the count by one exactly when it satisfies `p`. */
  lemma {:induction false} CountWhereSnoc<T>(xs: seq<T>, x: T, p: T -> bool)
    ensures CountWhere(xs + [x], p) == CountWhere(xs, p) + (if p(x) then 1 else 0)
  {
    if |xs| == 0 {
      assert xs + [x] == [x];
      assert [x][1..] == [];
    } else {
      assert (xs + [x])[1..] == xs[1..] + [x];
      CountWhereSnoc(xs[1..], x, p);
    }
  }

  /** When every element satisfies `p`, all of them are counted. */
  lemma {:induction false} CountWhereAll<T>(xs: seq<T>, p: T -> bool)
    requires forall i :: 0 <= i < |xs| ==> p(xs[i])
    ensures CountWhere(xs, p) == |xs|
  {
    if |xs| > 0 {
      CountWhereAll(xs[1..], p);
    }
  }

  /** Every element satisfies exactly one of two complementary predicates. */
  lemma {:induction false} CountWhereSplit<T>(xs: seq<T>, p: T -> bool, q: T -> bool)
    requires forall i :: 0 <= i < |xs| ==> p(xs[i]) != q(xs[i])
    ensures CountWhere(xs, p) + CountWhere(xs, q) == |xs|
  {
    if |xs| > 0 {
      CountWhereSplit(xs[1..], p, q);
    }
  }

  /** A filter that every element passes keeps the whole sequence. */
  lemma {:induction false} FilterKeepsAll<T>(xs: seq<T>, p: T -> bool)
    requires forall i :: 0 <= i < |xs| ==> p(xs[i])
    ensures Filter(xs, p) == xs
  {
    if |xs| > 0 {
      FilterKeepsAll(xs[1..], p);
      assert xs == [xs[0]] + xs[1..];
    }
  }

  /** Filtering twice by predicates that agree on every element is filtering once. */
  lemma {:induction false} FilterExt<T>(xs: seq<T>, p: T -> bool, q: T -> bool)
    requires forall i :: 0 <= i < |xs| ==> p(xs[i]) == q(xs[i])
    ensures Filter(xs, p) == Filter(xs, q)
  {
    if |xs| > 0 {
      FilterExt(xs[1..], p, q);
    }
  }

  /** Filtering keeps the relative order, so a relation between earlier and later elements survives. */
  lemma {:induction false} FilterPairwise<T>(xs: seq<T>, p: T -> bool, rel: (T, T) -> bool)
    requires forall i, j :: 0 <= i < j < |xs| ==> rel(xs[i], xs[j])
    ensures forall i, j :: 0 <= i < j < |Filter(xs, p)| ==> rel(Filter(xs, p)[i], Filter(xs, p)[j])
  {
    if |xs| > 0 {
      var tail := xs[1..];
      TailPairwise(xs, rel);
      FilterPairwise(tail, p, rel);
      if p(xs[0]) {
        HeadPairwise(xs[0], Filter(tail, p), tail, rel);
      }
    }
  }

  /** A relation between all earlier and later elements holds in the tail too. */
  lemma TailPairwise<T>(xs: seq<T>, rel: (T, T) -> bool)
    requires |xs| > 0
    requires forall i, j :: 0 <= i < j < |xs| ==> rel(xs[i], xs[j])
    ensures forall i, j :: 0 <= i < j < |xs[1..]| ==> rel(xs[1..][i], xs[1..][j])
  {
    var tail := xs[1..];
    forall i, j | 0 <= i < j < |tail| ensures rel(tail[i], tail[j]) {
      assert tail[i] == xs[i + 1] && tail[j] == xs[j + 1];
    }
  }

  /** Putting in front an element related to everything of `ys` keeps `rest`, drawn from `ys`, pairwise related. */
  lemma HeadPairwise<T>(x: T, rest: seq<T>, ys: seq<T>, rel: (T, T) -> bool)
    requires forall i :: 0 <= i < |rest| ==> rest[i] in ys
    requires forall j :: 0 <= j < |ys| ==> rel(x, ys[j])
    requires forall i, j :: 0 <= i < j < |rest| ==> rel(rest[i], rest[j])
    ensures forall i, j :: 0 <= i < j < |[x] + rest| ==> rel(([x] + rest)[i], ([x] + rest)[j])
  {
    var r := [x] + rest;
    forall i, j | 0 <= i < j < |r| ensures rel(r[i], r[j]) {
      if i == 0 {
        var k :| 0 <= k < |ys| && ys[k] == r[j];
      } else {
        assert r[i] == rest[i - 1] && r[j] == rest[j - 1];
      }
    }
  }
}

=== FILE: explore.dfy ===
/**
 * The browse page, frontend/src/pages/Explorar.jsx: four filters kept in
 * component state and mirrored into the query string, and the request
 * parameters built from them.
 */
module Explore {
  import opened Query

  /** The filters of the page, each named after the request parameter it feeds. */
  datatype Filters = Filters(search: string, genero: string, status: string, orderBy: string)

  /** The parameters that are filters. */
  predicate IsFilter(k: Param) {
    k == Search || k == Genero || k == Status || k == OrderBy
  }

  function Get(f: Filters, k: Param): string
    requires IsFilter(k)
  {
    match k
    case Search => f.search
    case Genero => f.genero
    case Status => f.status
    case OrderBy => f.orderBy
  }

  /** `{ ...filters, [key]: value }`. */
  function Set(f: Filters, k: Param, v: string): (r: Filters)
    requires IsFilter(k)
    ensures Get(r, k) == v
    ensures forall o :: IsFilter(o) && o != k ==> Get(r, o) == Get(f, o)
  {
    match k
    case Search => f.(search := v)
    case Genero => f.(genero := v)
    case Status => f.(status := v)
    case OrderBy => f.(orderBy := v)
  }

  /** `Object.entries(filters)`, keyed by each filter's own name. */
  function Entries(f: Filters): (r: map<Param, string>)
    ensures forall k :: k in r <==> IsFilter(k)
    ensures forall k :: k in r ==> r[k] == Get(f, k)
  {
    map[Search := f.search, Genero := f.genero, Status := f.status, OrderBy := f.orderBy]
  }

  /** The initial state: each filter read from the query string, search from key "q". */
  function FromUrl(url: Url): (r: Filters)
    ensures forall k :: IsFilter(k) ==> Get(r, k) == UrlGet(url, UrlKey(k))
  {
    Filters(UrlGet(url, Q), UrlGet(url, Genero), UrlGet(url, Status), UrlGet(url, OrderBy))
  }

  /** The query string `handleFilterChange` writes: the non-empty filters under their own names. */
  function UrlAsWritten(f: Filters): (r: Url)
    ensures forall k :: k in r ==> IsFilter(k)
    ensures forall k :: IsFilter(k) ==> (k in r <==> Get(f, k) != "")
    ensures forall k :: k in r ==> r[k] == Get(f, k)
  {
    UrlOf(Entries(f))
  }

  /**
   * As written, the search filter does not survive a reload: it is written
   * under "search" but read from "q". The other three filters come back.
   */
  lemma SearchLostOnReload(f: Filters)
    ensures FromUrl(UrlAsWritten(f)) == f.(search := "")
  {
    var url := UrlAsWritten(f);
    assert Q !in url;
  }

  /** A concrete instance: searching for "naruto" and reloading clears the search box. */
  lemma SearchLostExample()
    ensures FromUrl(UrlAsWritten(Filters("naruto", "", "", ""))) != Filters("naruto", "", "", "")
  {
    SearchLostOnReload(Filters("naruto", "", "", ""));
  }

  /** The query-string key of each filter, with search under "q" where the page reads it. */
  function UrlKey(k: Param): Param {
    if k == Search then Q else k
  }

  /** The query string with search written under "q", so that the page reads back what it wrote. */
  function SyncedUrl(f: Filters): (r: Url)
    ensures forall k :: IsFilter(k) ==> (UrlKey(k) in r <==> Get(f, k) != "")
    ensures forall k :: k in r ==> k == Q || (IsFilter(k) && k != Search)
  {
    UrlOf(map[Q := f.search, Genero := f.genero, Status := f.status, OrderBy := f.orderBy])
  }

  /** Every filter survives a reload of the synced query string. */
  lemma UrlRoundTrip(f: Filters)
    ensures FromUrl(SyncedUrl(f)) == f
  {
  }

  datatype State = State(filters: Filters, pagination: Pagination, url: Url)

  /**
   * `handleFilterChange(key, value)`: set the filter, go back to page 1 and
   * write the non-empty filters into the query string under their own
   * names, which a reload reads back without the search text.
   */
  function FilterChange(s: State, k: Param, v: string): (r: State)
    requires IsFilter(k)
    ensures Get(r.filters, k) == v
    ensures forall o :: IsFilter(o) && o != k ==> Get(r.filters, o) == Get(s.filters, o)
    ensures r.pagination == s.pagination.(page := 1)
    ensures forall o :: o in r.url <==> IsFilter(o) && Get(r.filters, o) != ""
    ensures forall o :: o in r.url ==> r.url[o] == Get(r.filters, o)
    ensures FromUrl(r.url) == Set(r.filters, Search, "")
  {
    var f := Set(s.filters, k, v);
    SearchLostOnReload(f);
    State(f, s.pagination.(page := 1), UrlAsWritten(f))
  }

  /** `handleFilterChange` with search written under "q": every filter survives a reload. */
  function FilterChangeSynced(s: State, k: Param, v: string): (r: State)
    requires IsFilter(k)
    ensures Get(r.filters, k) == v
    ensures forall o :: IsFilter(o) && o != k ==> Get(r.filters, o) == Get(s.filters, o)
    ensures r.pagination == s.pagination.(page := 1)
    ensures FromUrl(r.url) == r.filters
  {
    var f := Set(s.filters, k, v);
    UrlRoundTrip(f);
    State(f, s.pagination.(page := 1), SyncedUrl(f))
  }

  /**
   * `handleSearch`: re-applies the current search text through
   * `handleFilterChange`, so the page resets to 1 and the query string is
   * rewritten with the search under "search", which a reload then drops.
   */
  function SubmitSearch(s: State): (r: State)
    ensures r.filters == s.filters
    ensures r.pagination == s.pagination.(page := 1)
    ensures forall o :: o in r.url <==> IsFilter(o) && Get(s.filters, o) != ""
    ensures forall o :: o in r.url ==> r.url[o] == Get(s.filters, o)
    ensures FromUrl(r.url) == s.filters.(search := "")
  {
    FilterChange(s, Search, s.filters.search)
  }

  /** `clearFilters`: every filter empty and an empty query string; the page number is kept. */
  function ClearFilters(s: State): (r: State)
    ensures forall k :: IsFilter(k) ==> Get(r.filters, k) == ""
    ensures r.url == map[] && FromUrl(r.url) == r.filters
    ensures r.pagination == s.pagination
  {
    State(Filters("", "", "", ""), s.pagination, map[])
  }

  /** The request `fetchAnimacoes` sends: page, limit and the filters, falsy values removed. */
  function RequestParams(f: Filters, p: Pagination): (r: Params)
    ensures forall k :: IsFilter(k) ==> (k in r <==> Get(f, k) != "")
    ensures forall k :: IsFilter(k) && k in r ==> r[k] == Text(Get(f, k))
    ensures (Page in r <==> p.page != 0) && (Page in r ==> r[Page] == Number(p.page))
    ensures (Limit in r <==> p.limit != 0) && (Limit in r ==> r[Limit] == Number(p.limit))
    ensures forall k :: k in r ==> Truthy(r[k]) && (k == Page || k == Limit || IsFilter(k))
  {
    Clean(map[Page := Number(p.page), Limit := Number(p.limit),
              Search := Text(f.search), Genero := Text(f.genero),
              Status := Text(f.status), OrderBy := Text(f.orderBy)], {})
  }
}

=== FILE: genres.dfy ===
/**
 * The genre handlers of backend/controllers/generoController.js: the
 * name-ordered listing and the admin create with its defaults and the
 * duplicate-name rejection (the `nome` column is unique and not null).
 */
module Genres {
  import opened Common
  import opened Schema

  /** Code-point lexicographic order on strings. */
  predicate LexLeq(a: string, b: string)
    decreases |a|
  {
    |a| == 0 || (|b| > 0 && (a[0] < b[0] || (a[0] == b[0] && LexLeq(a[1..], b[1..]))))
  }

  lemma {:induction false} LexTotal(a: string, b: string)
    ensures LexLeq(a, b) || LexLeq(b, a)
    decreases |a|
  {
    if |a| > 0 && |b| > 0 && a[0] == b[0] {
      LexTotal(a[1..], b[1..]);
    }
  }

  lemma {:induction false} LexTrans(a: string, b: string, c: string)
    requires LexLeq(a, b) && LexLeq(b, c)
    ensures LexLeq(a, c)
    decreases |a|
  {
    if |a| > 0 && a[0] == b[0] && b[0] == c[0] {
      LexTrans(a[1..], b[1..], c[1..]);
    }
  }

  predicate ByName(gs: seq<Genre>) {
    forall i, j :: 0 <= i < j < |gs| ==> LexLeq(gs[i].nome, gs[j].nome)
  }

  function InsertByName(g: Genre, gs: seq<Genre>): (r: seq<Genre>)
    requires ByName(gs)
    ensures ByName(r)
    ensures multiset(r) == multiset(gs) + multiset{g}
    ensures forall i :: 0 <= i < |r| ==> r[i] == g || r[i] in gs
  {
    if |gs| == 0 then [g]
    else if LexLeq(g.nome, gs[0].nome) then
      AheadOfSorted(g, gs);
      [g] + gs
    else
      LexTotal(g.nome, gs[0].nome);
      var rest := InsertByName(g, gs[1..]);
      assert gs == [gs[0]] + gs[1..];
      BehindHead(g, gs, rest);
      [gs[0]] + rest
  }

  lemma AheadOfSorted(g: Genre, gs: seq<Genre>)
    requires ByName(gs) && |gs| > 0 && LexLeq(g.nome, gs[0].nome)
    ensures ByName([g] + gs)
  {
    var r := [g] + gs;
    forall i, j | 0 <= i < j < |r| ensures LexLeq(r[i].nome, r[j].nome) {
      if i == 0 && j > 1 {
        LexTrans(g.nome, gs[0].nome, gs[j - 1].nome);
      }
    }
  }

  lemma BehindHead(g: Genre, gs: seq<Genre>, rest: seq<Genre>)
    requires |gs| > 0 && ByName(gs) && LexLeq(gs[0].nome, g.nome)
    requires ByName(rest)
    requires forall i :: 0 <= i < |rest| ==> rest[i] == g || rest[i] in gs[1..]
    ensures ByName([gs[0]] + rest)
  {
    var r := [gs[0]] + rest;
    forall i, j | 0 <= i < j < |r| ensures LexLeq(r[i].nome, r[j].nome) {
      if i == 0 {
        assert r[j] == rest[j - 1];
        if r[j] != g {
          var k :| 0 <= k < |gs[1..]| && gs[1..][k] == r[j];
          assert gs[k + 1] == r[j];
        }
      } else {
        assert r[i] == rest[i - 1] && r[j] == rest[j - 1];
      }
    }
  }

  /** `SELECT * FROM generos ORDER BY nome`: every genre once, in name order. */
  function ListGenres(db: Db): (r: seq<Genre>)
    ensures ByName(r)
    ensures multiset(r) == multiset(db.genres)
  {
    SortByName(db.genres)
  }

  function SortByName(gs: seq<Genre>): (r: seq<Genre>)
    ensures ByName(r)
    ensures multiset(r) == multiset(gs)
  {
    if |gs| == 0 then []
    else
      assert gs == [gs[0]] + gs[1..];
      InsertByName(gs[0], SortByName(gs[1..]))
  }

  predicate NameTaken(gs: seq<Genre>, nome: string) {
    exists i :: 0 <= i < |gs| && gs[i].nome == nome
  }

  predicate GenreNamesUnique(gs: seq<Genre>) {
    forall i, j :: 0 <= i < j < |gs| ==> gs[i].nome != gs[j].nome
  }

  const DefaultCor: string := "#6366f1"

  /**
   * `createGenero`: 201 with the new id; 400 ("Gênero já existe") when the
   * name is taken; 500 when there is no name to insert.
   */
  function CreateGenre(db: Db, nome: Field<string>, descricao: Field<string>, cor: Field<string>): (r: Created)
    ensures r.status in {201, 400, 500}
    ensures r.status == 500 <==> !nome.Present?
    ensures r.status == 400 <==> nome.Present? && NameTaken(db.genres, nome.value)
    ensures r.status != 201 ==> r.db == db
    ensures r.status == 201 ==>
              && r.id == db.next.genres
              && r.db == db.(genres := db.genres + [Genre(r.id, nome.value, OrNull(descricao), OrDefault(cor, DefaultCor))],
                             next := db.next.(genres := r.id + 1))
  {
    if !nome.Present? then Created(500, db, db.next.genres)
    else if NameTaken(db.genres, nome.value) then Created(400, db, db.next.genres)
    else
      var id := db.next.genres;
      var g := Genre(id, nome.value, OrNull(descricao), OrDefault(cor, DefaultCor));
      Created(201, db.(genres := db.genres + [g], next := db.next.(genres := id + 1)), id)
  }

  /** Creating a genre keeps names unique and every other invariant. */
  lemma CreateGenreKeepsInvariants(db: Db, nome: Field<string>, descricao: Field<string>, cor: Field<string>)
    requires Valid(db) && GenreNamesUnique(db.genres)
    ensures var r := CreateGenre(db, nome, descricao, cor);
      Valid(r.db) && GenreNamesUnique(r.db.genres)
  {
    var r := CreateGenre(db, nome, descricao, cor);
    if r.status == 201 {
      var gs := r.db.genres;
      forall i, j | 0 <= i < j < |gs| ensures gs[i].nome != gs[j].nome {
        if j == |db.genres| {
          assert gs[i] == db.genres[i];
        }
      }
    }
  }

  /** A second create with the same name is refused and changes nothing. */
  lemma SecondCreateDuplicate(db: Db, nome: string, d1: Field<string>, c1: Field<string>,
                              d2: Field<string>, c2: Field<string>)
    requires CreateGenre(db, Present(nome), d1, c1).status == 201
    ensures var db1 := CreateGenre(db, Present(nome), d1, c1).db;
      var r2 := CreateGenre(db1, Present(nome), d2, c2);
      r2.status == 400 && r2.db == db1
  {
    var db1 := CreateGenre(db, Present(nome), d1, c1).db;
    assert db1.genres[|db.genres|].nome == nome;
  }
}

=== FILE: migrate.dfy ===
/**
 * The migration script of backend/scripts/migrate.js: the schema file is cut
 * into statements at every ';', each piece is trimmed, empty pieces are
 * dropped, and only the statements mentioning "create" or "insert" are sent
 * to the database, in file order, stopping at the first failure. Reading the
 * file and the database itself are parameters: the text, and `exec` telling
 * whether the database accepts a statement.
 */
module Migrate {
  import opened Common
  import opened Text

  function TrimAll(pieces: seq<string>): (r: seq<string>)
    ensures |r| == |pieces|
    ensures forall i :: 0 <= i < |pieces| ==> r[i] == Trim(pieces[i])
  {
    seq(|pieces|, i requires 0 <= i < |pieces| => Trim(pieces[i]))
  }

  predicate NonEmpty(s: string) {
    |s| > 0
  }

  /** `schema.split(";").map(trim).filter(cmd => cmd.length > 0)`. */
  function Commands(schema: string): (r: seq<string>)
    ensures forall i :: 0 <= i < |r| ==> r[i] != "" && ';' !in r[i]
    ensures forall i :: 0 <= i < |r| ==> r[i] in TrimAll(Split(schema, ';'))
  {
    var pieces := Split(schema, ';');
    var trimmed := TrimAll(pieces);
    forall i | 0 <= i < |trimmed| ensures ';' !in trimmed[i] {
      TrimKeepsOut(pieces[i], ';');
    }
    Filter(trimmed, NonEmpty)
  }

  /** `command.toLowerCase().includes("create") || … .includes("insert")`. */
  predicate ShouldRun(command: string) {
    Contains(ToLower(command), "create") || Contains(ToLower(command), "insert")
  }

  /** Pieces without surrounding white space are left alone by the trimming step. */
  lemma TrimAllIdentity(pieces: seq<string>)
    requires forall i :: 0 <= i < |pieces| ==> Trim(pieces[i]) == pieces[i]
    ensures TrimAll(pieces) == pieces
  {
  }

  /**
   * Statements already trimmed, non-empty and free of ';', written one after
   * another with ';' between them, are recovered exactly by the splitter.
   */
  lemma CommandsOfJoin(stmts: seq<string>)
    requires forall i :: 0 <= i < |stmts| ==> stmts[i] != "" && ';' !in stmts[i]
    requires forall i :: 0 <= i < |stmts| ==> Trim(stmts[i]) == stmts[i]
    ensures Commands(Join(stmts, ';')) == stmts
  {
    if |stmts| == 0 {
      NothingToRun();
    } else {
      var text := Join(stmts, ';');
      SplitJoin(stmts, ';');
      assert Split(text, ';') == stmts;
      TrimAllIdentity(stmts);
      FilterKeepsAll(stmts, NonEmpty);
      assert Commands(text) == Filter(TrimAll(stmts), NonEmpty);
    }
  }

  /** An empty schema file yields no statement. */
  lemma NothingToRun()
    ensures Commands("") == []
  {
    EmptySplit();
    EmptyPieceTrimmed();
    EmptyPieceDropped();
  }

  lemma EmptySplit()
    ensures Split("", ';') == [""]
  {
  }

  lemma EmptyPieceTrimmed()
    ensures TrimAll([""]) == [""]
  {
    TrimAllIdentity([""]);
  }

  lemma EmptyPieceDropped()
    ensures Filter([""], NonEmpty) == []
  {
    assert [""][1..] == [];
  }

  /** A final ';' (as a schema file usually ends) adds only an empty piece, which is dropped. */
  lemma TrailingSeparatorIgnored(stmts: seq<string>)
    requires |stmts| >= 1
    requires forall i :: 0 <= i < |stmts| ==> stmts[i] != "" && ';' !in stmts[i]
    requires forall i :: 0 <= i < |stmts| ==> Trim(stmts[i]) == stmts[i]
    ensures Commands(Join(stmts, ';') + ";") == stmts
  {
    var all := stmts + [""];
    JoinSnoc(stmts, "", ';');
    assert Join(stmts, ';') + ";" == Join(all, ';');
    SnocFree(stmts);
    SplitJoin(all, ';');
    SnocTrimmed(stmts);
    FilterAppend(stmts, [""], NonEmpty);
    FilterKeepsAll(stmts, NonEmpty);
    assert [""][1..] == [];
    assert Filter([""], NonEmpty) == Filter([], NonEmpty) == [];
  }

  lemma SnocFree(stmts: seq<string>)
    requires forall i :: 0 <= i < |stmts| ==> ';' !in stmts[i]
    ensures forall k :: 0 <= k < |stmts + [""]| ==> ';' !in (stmts + [""])[k]
  {
    forall k | 0 <= k < |stmts + [""]| ensures ';' !in (stmts + [""])[k] {
      if k < |stmts| {
        assert (stmts + [""])[k] == stmts[k];
      }
    }
  }

  lemma SnocTrimmed(stmts: seq<string>)
    requires forall i :: 0 <= i < |stmts| ==> Trim(stmts[i]) == stmts[i]
    ensures TrimAll(stmts + [""]) == stmts + [""]
  {
    var all := stmts + [""];
    forall k | 0 <= k < |all| ensures Trim(all[k]) == all[k] {
      if k < |stmts| {
        assert all[k] == stmts[k];
      } else {
        assert all[k] == "";
      }
    }
    TrimAllIdentity(all);
  }

  lemma {:induction false} JoinSnoc(parts: seq<string>, last: string, sep: char)
    requires |parts| >= 1
    ensures Join(parts + [last], sep) == Join(parts, sep) + [sep] + last
  {
    if |parts| > 1 {
      JoinSnoc(parts[1..], last, sep);
      assert (parts + [last])[1..] == parts[1..] + [last];
    }
  }

  /** How the script ends: the statements it sent, in order, and its exit code. */
  datatype Run = Run(executed: seq<string>, exitCode: int)

  /** The statements the script sends, in file order. */
  function Selected(schema: string): (r: seq<string>)
    ensures forall i :: 0 <= i < |r| ==> ShouldRun(r[i]) && r[i] in Commands(schema)
  {
    Filter(Commands(schema), ShouldRun)
  }

  predicate AllSucceed(stmts: seq<string>, exec: string -> bool) {
    forall i :: 0 <= i < |stmts| ==> exec(stmts[i])
  }

  /**
   * What the script reports after working through `selected`: exit code 0
   * exactly when every selected statement succeeds, having sent them all;
   * otherwise exit code 1 after sending a prefix of them whose last one,
   * and only that one, failed.
   */
  predicate Reports(r: Run, selected: seq<string>, exec: string -> bool) {
    && (r.exitCode == 0 || r.exitCode == 1)
    && (r.exitCode == 0 <==> AllSucceed(selected, exec))
    && (r.exitCode == 0 ==> r.executed == selected)
    && (r.exitCode == 1 ==> (&& 0 < |r.executed| <= |selected|
                             && r.executed == selected[..|r.executed|]
                             && !exec(r.executed[|r.executed| - 1])
                             && AllSucceed(r.executed[..|r.executed| - 1], exec)))
  }

  /**
   * `runMigrations` after the file is read: every command is inspected in
   * order; the selected ones are sent, and the first one the database
   * rejects ends the script with exit code 1.
   */
  method RunMigrations(schema: string, exec: string -> bool) returns (r: Run)
    ensures Reports(r, Selected(schema), exec)
  {
    var commands := Commands(schema);
    var p := ShouldRun;
    assert Selected(schema) == Filter(commands, p);
    r := RunSelected(commands, p, exec);
  }

  /** The loop of `runMigrations`, for any selection test `p`. */
  method RunSelected(commands: seq<string>, p: string -> bool, exec: string -> bool) returns (r: Run)
    ensures Reports(r, Filter(commands, p), exec)
  {
    var executed: seq<string> := [];
    var k := 0;
    while k < |commands|
      invariant 0 <= k <= |commands|
      invariant executed == Filter(commands[..k], p)
      invariant AllSucceed(executed, exec)
    {
      var command := commands[k];
      StepFilter(commands, k, p);
      if p(command) {
        if !exec(command) {
          executed := executed + [command];
          r := Run(executed, 1);
          Stopped(commands, k, p, exec);
          return;
        }
        executed := executed + [command];
      }
      k := k + 1;
    }
    assert commands[..k] == commands;
    return Run(executed, 0);
  }

  /** What the early exit at command `k` reports. */
  lemma Stopped(commands: seq<string>, k: nat, p: string -> bool, exec: string -> bool)
    requires k < |commands| && p(commands[k]) && !exec(commands[k])
    requires AllSucceed(Filter(commands[..k], p), exec)
    ensures Reports(Run(Filter(commands[..k], p) + [commands[k]], 1), Filter(commands, p), exec)
  {
    StepFilter(commands, k, p);
    PrefixOfFilter(commands, k + 1, p);
    var done := Filter(commands[..k], p) + [commands[k]];
    FailureReported(Filter(commands, p), done, exec);
    assert done[..|done| - 1] == Filter(commands[..k], p);
  }

  /** A failing statement among those sent means not every selected statement succeeds. */
  lemma FailureReported(selected: seq<string>, executed: seq<string>, exec: string -> bool)
    requires 0 < |executed| <= |selected| && executed == selected[..|executed|]
    requires !exec(executed[|executed| - 1])
    ensures !AllSucceed(selected, exec)
  {
    assert selected[|executed| - 1] == executed[|executed| - 1];
  }

  /** Filtering one more element appends it exactly when it passes. */
  lemma StepFilter<T>(xs: seq<T>, k: nat, p: T -> bool)
    requires k < |xs|
    ensures Filter(xs[..k + 1], p) == Filter(xs[..k], p) + (if p(xs[k]) then [xs[k]] else [])
  {
    assert xs[..k + 1] == xs[..k] + [xs[k]];
    FilterAppend(xs[..k], [xs[k]], p);
  }

  /** Filtering a prefix gives a prefix of the filtered whole. */
  lemma PrefixOfFilter<T>(xs: seq<T>, k: nat, p: T -> bool)
    requires k <= |xs|
    ensures |Filter(xs[..k], p)| <= |Filter(xs, p)|
    ensures Filter(xs[..k], p) == Filter(xs, p)[..|Filter(xs[..k], p)|]
  {
    assert xs == xs[..k] + xs[k..];
    FilterAppend(xs[..k], xs[k..], p);
  }
}

=== FILE: mylist.dfy ===
/**
 * The personal-list page, frontend/src/pages/MinhaLista.jsx: one page of the
 * user's list, optionally narrowed to one status, the per-status counters
 * computed from an unfiltered load, and removal followed by a reload.
 */
module MyList {
  import opened Common
  import opened Schema
  import opened Query

  /** One row of the list as the page uses it: the title it points to and its status. */
  datatype Item = Item(titleId: int, status: ListStatus)

  /** The counters shown on the status cards. */
  datatype Stats = Stats(assistido: nat, desejado: nat, assistindo: nat, pausado: nat, abandonado: nat)

  const NoStats: Stats := Stats(0, 0, 0, 0, 0)

  function Count(s: Stats, st: ListStatus): nat {
    match st
    case Assistido => s.assistido
    case Desejado => s.desejado
    case Assistindo => s.assistindo
    case Pausado => s.pausado
    case Abandonado => s.abandonado
  }

  /** `acc[status] = (acc[status] || 0) + 1`. */
  function Bump(s: Stats, st: ListStatus): (r: Stats)
    ensures Count(r, st) == Count(s, st) + 1
    ensures forall o :: o != st ==> Count(r, o) == Count(s, o)
    ensures Total(r) == Total(s) + 1
  {
    match st
    case Assistido => s.(assistido := s.assistido + 1)
    case Desejado => s.(desejado := s.desejado + 1)
    case Assistindo => s.(assistindo := s.assistindo + 1)
    case Pausado => s.(pausado := s.pausado + 1)
    case Abandonado => s.(abandonado := s.abandonado + 1)
  }

  /** The "Todos" card: the sum of the five counters. */
  function Total(s: Stats): nat {
    s.assistido + s.desejado + s.assistindo + s.pausado + s.abandonado
  }

  predicate HasStatus(x: Item, st: ListStatus) {
    x.status == st
  }

  /** The `reduce` over the loaded rows, starting from five zeros: each counter counts its status. */
  function Tally(items: seq<Item>): (r: Stats)
    ensures forall st :: Count(r, st) == CountWhere(items, (x: Item) => HasStatus(x, st))
  {
    if |items| == 0 then NoStats
    else Bump(Tally(items[1..]), items[0].status)
  }

  /** Every row lands in exactly one counter, so the "Todos" card shows the number of rows. */
  lemma {:induction false} TallyTotal(items: seq<Item>)
    ensures Total(Tally(items)) == |items|
  {
    if |items| > 0 {
      var rest := Tally(items[1..]);
      TallyTotal(items[1..]);
      assert Total(Tally(items)) == Total(rest) + 1;
    }
  }

  /** The counters of two row lists add up to those of their concatenation. */
  lemma {:induction false} TallyAppend(a: seq<Item>, b: seq<Item>, st: ListStatus)
    ensures Count(Tally(a + b), st) == Count(Tally(a), st) + Count(Tally(b), st)
  {
    if |a| > 0 {
      assert (a + b)[1..] == a[1..] + b;
      TallyAppend(a[1..], b, st);
    } else {
      assert a + b == b;
    }
  }

  /** The status filter: `None` is the "Todos" card (the empty string). */
  type StatusFilter = Option<ListStatus>

  datatype State = State(
    lista: seq<Item>,
    filtro: StatusFilter,
    error: string,
    stats: Stats,
    pagination: Pagination,
    loading: bool)

  /** The initial state: empty, loading, no filter, zero counters, page 1 of 20. */
  const Initial: State := State([], None, "", NoStats, Pagination(1, 20, 0, 0), true)

  /** The request `fetchMinhaLista(page)` sends: the page, the current page size, and the status when filtered. */
  function FetchParams(s: State, page: int): (r: Params)
    ensures Page in r && r[Page] == Number(page)
    ensures Limit in r && r[Limit] == Number(s.pagination.limit)
    ensures Status in r <==> s.filtro.Some?
    ensures s.filtro.Some? ==> r[Status] == Text(ListStatusName(s.filtro.value))
    ensures forall k :: k in r ==> k == Page || k == Limit || k == Status
  {
    var base := map[Page := Number(page), Limit := Number(s.pagination.limit)];
    if s.filtro.Some? then base[Status := Text(ListStatusName(s.filtro.value))] else base
  }

  /** What the list request came back with. */
  datatype Response =
    | Listed(lista: seq<Item>, pagination: Option<Pagination>)  // `data.lista` is an array
    | Malformed                                                 // any other body
    | Failed(error: Option<string>)                             // the request threw

  const MalformedMessage: string := "Formato de dados inválido recebido do servidor"
  const LoadFailedMessage: string := "Erro ao carregar sua lista. Tente novamente."

  /**
   * The state once `fetchMinhaLista` has settled. A list replaces the rows and
   * the pagination (the old one when the server sent none), and replaces the
   * counters only when no filter is active; a malformed body or a failure
   * empties the rows and sets the message; loading always ends.
   */
  function Fetched(s: State, resp: Response): (r: State)
    ensures !r.loading && r.filtro == s.filtro
    ensures resp.Listed? ==> r.lista == resp.lista && r.error == ""
    ensures resp.Listed? ==> r.pagination == (if resp.pagination.Some? then resp.pagination.value else s.pagination)
    ensures resp.Listed? && s.filtro.None? ==> r.stats == Tally(resp.lista)
    ensures !(resp.Listed? && s.filtro.None?) ==> r.stats == s.stats
    ensures !resp.Listed? ==> r.lista == [] && r.pagination == s.pagination && r.error != ""
    ensures resp.Malformed? ==> r.error == MalformedMessage
    ensures resp.Failed? ==> r.error == (if resp.error.Some? && resp.error.value != "" then resp.error.value else LoadFailedMessage)
  {
    var cleared := s.(loading := false, error := "");
    match resp
    case Listed(items, pg) =>
      var pagination := if pg.Some? then pg.value else s.pagination;
      var stats := if s.filtro.None? then Tally(items) else s.stats;
      cleared.(lista := items, pagination := pagination, stats := stats)
    case Malformed =>
      cleared.(lista := [], error := MalformedMessage)
    case Failed(e) =>
      cleared.(lista := [], error := if e.Some? && e.value != "" then e.value else LoadFailedMessage)
  }

  /** After an unfiltered load the "Todos" card equals the number of rows loaded. */
  lemma UnfilteredTotalIsRowCount(s: State, items: seq<Item>, pg: Option<Pagination>)
    requires s.filtro.None?
    ensures Total(Fetched(s, Listed(items, pg)).stats) == |items|
  {
    TallyTotal(items);
  }

  /** Choosing a status card sets the filter; the effect then reloads page 1. */
  function SelectFilter(s: State, f: StatusFilter): (r: State)
    ensures r.filtro == f && r.lista == s.lista && r.stats == s.stats
    ensures FetchParams(r, 1)[Page] == Number(1)
    ensures Status in FetchParams(r, 1) <==> f.Some?
  {
    s.(filtro := f)
  }

  const RemoveFailedMessage: string := "Erro ao remover animação da lista"

  /** The outcome of a removal: the reload request it made, if any, and the resulting state. */
  datatype Removal = Removal(reload: Option<Params>, state: State)

  /**
   * `handleRemoveFromLista`: when the removal succeeds the list reloads the
   * page being shown (not page 1) under the current filter; when it fails
   * nothing reloads and only the message changes.
   */
  function Removed(s: State, removeOk: bool, reload: Response): (r: Removal)
    ensures r.reload.Some? <==> removeOk
    ensures r.reload.Some? ==> Page in r.reload.value && r.reload.value[Page] == Number(s.pagination.page)
    ensures r.reload.Some? ==> (Status in r.reload.value <==> s.filtro.Some?)
    ensures removeOk ==> r.state == Fetched(s, reload)
    ensures !removeOk ==> r.state.lista == s.lista && r.state.stats == s.stats && r.state.error == RemoveFailedMessage
  {
    if removeOk then Removal(Some(FetchParams(s, s.pagination.page)), Fetched(s, reload))
    else Removal(None, s.(error := RemoveFailedMessage))
  }

  /** The pager: shown when there is more than one page; each button disabled at its end. */
  datatype Pager = Hidden | Shown(prevEnabled: bool, nextEnabled: bool)

  function PagerOf(p: Pagination): (r: Pager)
    ensures r.Shown? <==> p.pages > 1
    ensures r.Shown? ==> (r.prevEnabled <==> p.page > 1) && (r.nextEnabled <==> p.page < p.pages)
  {
    if p.pages > 1 then Shown(p.page > 1, p.page < p.pages) else Hidden
  }
}

=== FILE: paging.dfy ===
/**
 * The pagination envelope every list endpoint returns,
 * `{ page, limit, total, pages }`, and the `LIMIT limit OFFSET (page-1)*limit`
 * window that selects one page of an ordered result.
 */
module Paging {
  import opened Common

  /** `Math.ceil(total / limit)` for a positive page size. */
  function PageCount(total: nat, limit: nat): (r: nat)
    requires limit > 0
    ensures r * limit >= total
    ensures r == 0 || (r - 1) * limit < total
  {
    var q := (total + limit - 1) / limit;
    assert q * limit <= total + limit - 1 < (q + 1) * limit;
    q
  }

  /**
   * `Math.ceil(total / limit)` as it reaches the JSON response: with a page
   * size of 0 the division yields NaN or Infinity, which serialise as null.
   */
  function Pages(total: nat, limit: int): (r: Option<nat>)
    ensures r.Some? <==> limit > 0
    ensures r.Some? ==> r.value * limit >= total && (r.value == 0 || (r.value - 1) * limit < total)
  {
    if limit > 0 then Some(PageCount(total, limit)) else None
  }

  function Offset(page: int, limit: int): int {
    (page - 1) * limit
  }

  /** The rows `LIMIT limit OFFSET offset` keeps. */
  function Window<T>(xs: seq<T>, offset: nat, limit: nat): (r: seq<T>)
    ensures |r| == Min(limit, Max(0, |xs| - offset))
    ensures forall i :: 0 <= i < |r| ==> r[i] == xs[offset + i]
  {
    if offset >= |xs| then []
    else xs[offset..Min(|xs|, offset + limit)]
  }

  /**
   * A numeric query parameter as the handlers read it, `{ page = 1 } =
   * req.query` followed by `parseInt`: the number sent, or the handler's
   * default `d` when the parameter is absent.
   */
  function ParamOr(p: Option<int>, d: int): int {
    if p.Some? then p.value else d
  }

  /** How many rows page `page` of `total` holds: what is left after the offset, at most `limit`. */
  function PageSize(total: nat, page: int, limit: int): int {
    Min(limit, Max(0, total - (page - 1) * limit))
  }

  datatype PageInfo = PageInfo(page: int, limit: int, total: nat, pages: Option<nat>)

  datatype Page<T> = Page(items: seq<T>, info: PageInfo)

  /**
   * One page of an ordered result together with its envelope. The database
   * rejects a negative LIMIT or OFFSET, which the handlers turn into a 500;
   * that case is `None`.
   */
  function Paginate<T>(all: seq<T>, page: int, limit: int): (r: Option<Page<T>>)
    ensures r.Some? <==> limit >= 0 && (page - 1) * limit >= 0
    ensures r.Some? ==> r.value.info.page == page && r.value.info.limit == limit
    ensures r.Some? ==> r.value.info.total == |all|
    ensures r.Some? ==> r.value.info.pages == Pages(|all|, limit)
    ensures r.Some? ==> |r.value.items| <= limit
    ensures r.Some? ==> forall i :: 0 <= i < |r.value.items| ==>
              (page - 1) * limit + i < |all| && r.value.items[i] == all[(page - 1) * limit + i]
  {
    if limit < 0 || Offset(page, limit) < 0 then None
    else Some(Page(Window(all, Offset(page, limit), limit), PageInfo(page, limit, |all|, Pages(|all|, limit))))
  }

  /**
   * Every row of the result is reachable: row `i` is item `i % limit` of page
   * `i / limit + 1`, and that page number does not exceed `pages`.
   */
  lemma RowOnItsPage<T>(all: seq<T>, limit: int, i: int)
    requires limit > 0 && 0 <= i < |all|
    ensures var p := Paginate(all, i / limit + 1, limit);
      && p.Some?
      && i % limit < |p.value.items|
      && p.value.items[i % limit] == all[i]
      && i / limit + 1 <= p.value.info.pages.value
  {
    RowArithmetic(|all|, limit, i);
    var p := Paginate(all, i / limit + 1, limit);
    assert p.value.items == Window(all, i / limit * limit, limit);
  }

  /** Row `i` sits `i % limit` rows after the start of page `i / limit + 1`, and that page exists. */
  lemma RowArithmetic(total: nat, limit: int, i: int)
    requires limit > 0 && 0 <= i < total
    ensures Offset(i / limit + 1, limit) == i / limit * limit >= 0
    ensures i / limit * limit + i % limit == i && 0 <= i % limit < limit
    ensures i / limit + 1 <= PageCount(total, limit)
  {
    var q := i / limit;
    DivFacts(i, limit);
    MulMono(q, 0, limit);
    assert Offset(q + 1, limit) == q * limit;
    MulMono(q, PageCount(total, limit), limit);
  }

  /** Euclidean division of a non-negative row index by a positive page size. */
  lemma DivFacts(i: int, limit: int)
    requires limit > 0 && i >= 0
    ensures i == i / limit * limit + i % limit && 0 <= i % limit < limit
    ensures i / limit >= 0
  {
    MulMono(-1, i / limit, limit);
  }

  lemma MulMono(a: int, b: int, c: int)
    ensures a >= b && c >= 0 ==> a * c >= b * c
  {
  }
}

=== FILE: query.dfy ===
/**
 * What the client pages share when they talk to the catalogue: request
 * parameter objects, the "drop every falsy parameter" clean-up, and the
 * query string (`URLSearchParams`) the filters are mirrored into.
 */
module Query {

  /** The query-string keys the pages use, `q` being the one the header's search box links with. */
  datatype Param = Page | Limit | Search | Q | Genero | Status | OrderBy | Order | AnoMin

  /** The key as it appears in the request. */
  function Name(p: Param): string {
    match p
    case Page => "page"
    case Limit => "limit"
    case Search => "search"
    case Q => "q"
    case Genero => "genero"
    case Status => "status"
    case OrderBy => "orderBy"
    case Order => "order"
    case AnoMin => "ano_min"
  }

  /** Distinct keys have distinct names, so a map over keys is a map over names. */
  lemma NameInjective(a: Param, b: Param)
    ensures Name(a) == Name(b) <==> a == b
  {
  }

  /** A request parameter as a page builds it: a string or a number. */
  datatype Value = Text(s: string) | Number(n: int)

  /** JavaScript truthiness of a parameter: "" and 0 are falsy. */
  predicate Truthy(v: Value) {
    match v
    case Text(s) => s != ""
    case Number(n) => n != 0
  }

  type Params = map<Param, Value>

  /** `delete params[key]` for every key outside `exempt` whose value is falsy. */
  function Clean(p: Params, exempt: set<Param>): (r: Params)
    ensures forall k :: k in r ==> k in p && r[k] == p[k]
    ensures forall k :: k in p ==> (k in r <==> (k in exempt || Truthy(p[k])))
  {
    map k | k in p && (k in exempt || Truthy(p[k])) :: p[k]
  }

  /** A query string: at most one value per key. */
  type Url = map<Param, string>

  /** `searchParams.get(key) || ""`. */
  function UrlGet(url: Url, key: Param): string {
    if key in url then url[key] else ""
  }

  /** A fresh `URLSearchParams` into which only the non-empty entries are set. */
  function UrlOf(entries: map<Param, string>): (r: Url)
    ensures forall k :: k in r <==> (k in entries && entries[k] != "")
    ensures forall k :: k in r ==> r[k] == entries[k]
  {
    map k | k in entries && entries[k] != "" :: entries[k]
  }

  /** Reading a key back from the query string gives its value; empty values read back as "". */
  lemma UrlGetOf(entries: map<Param, string>, k: Param)
    ensures UrlGet(UrlOf(entries), k) == (if k in entries then entries[k] else "")
  {
  }

  /** The `{ page, limit, total, pages }` object the pages keep next to their results. */
  datatype Pagination = Pagination(page: int, limit: int, total: int, pages: int)
}

=== FILE: ranking.dfy ===
/**
 * `ORDER BY … DESC LIMIT k` over one or two sort columns. SQL leaves the
 * order of ties unspecified, so the model promises exactly what the query
 * does: the result is a descending arrangement of the candidate rows, and a
 * top-k cut keeps k rows none of which ranks below a row it drops.
 */
module Ranking {
  import opened Common
  import opened Paging

  /** A sort key: the primary column, then the tie-breaking column. */
  datatype Key = Key(major: real, minor: real)

  /** `a` may come before `b` in a descending order. */
  predicate AtLeast(a: Key, b: Key) {
    a.major > b.major || (a.major == b.major && a.minor >= b.minor)
  }

  predicate SortedDesc<T>(xs: seq<T>, key: T -> Key) {
    forall i, j :: 0 <= i < j < |xs| ==> AtLeast(key(xs[i]), key(xs[j]))
  }

  function Insert<T>(x: T, xs: seq<T>, key: T -> Key): (r: seq<T>)
    requires SortedDesc(xs, key)
    ensures SortedDesc(r, key)
    ensures multiset(r) == multiset(xs) + multiset{x}
    ensures forall i :: 0 <= i < |r| ==> r[i] == x || r[i] in xs
  {
    if |xs| == 0 then [x]
    else if AtLeast(key(x), key(xs[0])) then [x] + xs
    else
      var rest := Insert(x, xs[1..], key);
      assert xs == [xs[0]] + xs[1..];
      InsertBehindHead(x, xs, rest, key);
      [xs[0]] + rest
  }

  lemma InsertBehindHead<T>(x: T, xs: seq<T>, rest: seq<T>, key: T -> Key)
    requires |xs| > 0 && SortedDesc(xs, key) && !AtLeast(key(x), key(xs[0]))
    requires SortedDesc(rest, key)
    requires forall i :: 0 <= i < |rest| ==> rest[i] == x || rest[i] in xs[1..]
    ensures SortedDesc([xs[0]] + rest, key)
  {
    var r := [xs[0]] + rest;
    forall i, j | 0 <= i < j < |r|
      ensures AtLeast(key(r[i]), key(r[j]))
    {
      if i == 0 {
        assert r[j] == rest[j - 1];
        if r[j] != x {
          var k :| 0 <= k < |xs[1..]| && xs[1..][k] == r[j];
          assert xs[k + 1] == r[j];
        }
      } else {
        assert r[i] == rest[i - 1] && r[j] == rest[j - 1];
      }
    }
  }

  /** `ORDER BY key DESC` over the whole candidate set. */
  function SortDesc<T>(xs: seq<T>, key: T -> Key): (r: seq<T>)
    ensures SortedDesc(r, key)
    ensures multiset(r) == multiset(xs) && |r| == |xs|
  {
    if |xs| == 0 then []
    else
      assert xs == [xs[0]] + xs[1..];
      Insert(xs[0], SortDesc(xs[1..], key), key)
  }

  /**
   * `ORDER BY key DESC LIMIT k`: k rows (or all when fewer), drawn from the
   * candidates without duplication, descending, and none ranking below a
   * candidate that was cut.
   */
  function Top<T>(xs: seq<T>, key: T -> Key, k: nat): (r: seq<T>)
    ensures |r| == if k < |xs| then k else |xs|
    ensures SortedDesc(r, key)
    ensures multiset(r) <= multiset(xs)
    ensures forall i :: 0 <= i < |r| ==> r[i] in xs
    ensures forall x, i :: x in xs && x !in r && 0 <= i < |r| ==> AtLeast(key(r[i]), key(x))
  {
    var s := SortDesc(xs, key);
    var n := if k < |s| then k else |s|;
    SortedPrefix(xs, s, key, n);
    s[..n]
  }

  /** The first `n` rows of a sorted permutation of `xs` rank at least as high as every row left out. */
  lemma SortedPrefix<T>(xs: seq<T>, s: seq<T>, key: T -> Key, n: nat)
    requires multiset(s) == multiset(xs) && SortedDesc(s, key) && n <= |s|
    ensures SortedDesc(s[..n], key)
    ensures multiset(s[..n]) <= multiset(xs)
    ensures forall i :: 0 <= i < n ==> s[..n][i] in xs
    ensures forall x, i :: x in xs && x !in s[..n] && 0 <= i < n ==> AtLeast(key(s[..n][i]), key(x))
  {
    var r := s[..n];
    assert s == r + s[n..];
    assert multiset(s) == multiset(r) + multiset(s[n..]);
    forall i | 0 <= i < |r| ensures r[i] in xs {
      assert r[i] in multiset(s);
    }
    forall x, i | x in xs && x !in r && 0 <= i < |r|
      ensures AtLeast(key(r[i]), key(x))
    {
      assert x in multiset(s);
      assert x in s[n..];
      var j :| 0 <= j < |s[n..]| && s[n..][j] == x;
      assert s[i] == r[i] && s[n + j] == x;
    }
  }

  /** With no tie-breaking column the minor key is constant. */
  function ByOne(major: real): Key {
    Key(major, 0.0)
  }

  /** One page of a descending result is itself descending and drawn from it. */
  lemma PageKeepsOrder<T>(all: seq<T>, key: T -> Key, page: int, limit: int)
    requires SortedDesc(all, key)
    requires Paginate(all, page, limit).Some?
    ensures var items := Paginate(all, page, limit).value.items;
      SortedDesc(items, key) && forall i :: 0 <= i < |items| ==> items[i] in all
  {
    var items := Paginate(all, page, limit).value.items;
    var off := (page - 1) * limit;
    forall i, j | 0 <= i < j < |items|
      ensures AtLeast(key(items[i]), key(items[j]))
    {
      assert items[i] == all[off + i] && items[j] == all[off + j];
    }
  }

  /** Everything a descending sort returns was in its input. */
  lemma MembersOfSorted<T>(xs: seq<T>, key: T -> Key)
    ensures forall x :: x in SortDesc(xs, key) ==> x in xs
  {
    forall x | x in SortDesc(xs, key) ensures x in xs {
      assert x in multiset(SortDesc(xs, key));
    }
  }

  /**
   * `ORDER BY key LIMIT limit OFFSET (page-1)*limit` over the rows
   * `matching`, with the envelope counting all of them. The page holds every
   * row left after the offset, up to `limit` of them, drawn from `matching`
   * and in descending order; `None` is the database's refusal of a negative
   * LIMIT or OFFSET.
   */
  function PageOf<T>(matching: seq<T>, key: T -> Key, page: int, limit: int): (r: Option<Page<T>>)
    ensures r.Some? <==> limit >= 0 && (page - 1) * limit >= 0
    ensures r.Some? ==> r.value.info == PageInfo(page, limit, |matching|, Pages(|matching|, limit))
    ensures r.Some? ==> |r.value.items| == PageSize(|matching|, page, limit)
    ensures r.Some? ==> multiset(r.value.items) <= multiset(matching)
    ensures r.Some? ==> forall i :: 0 <= i < |r.value.items| ==> r.value.items[i] in matching
    ensures r.Some? ==> SortedDesc(r.value.items, key)
  {
    var all := SortDesc(matching, key);
    var p := Paginate(all, page, limit);
    if p.Some? then
      PageKeepsOrder(all, key, page, limit);
      MembersOfSorted(matching, key);
      PageIsSlice(all, page, limit);
      p
    else p
  }

  /** A page is a contiguous run of the result, so it repeats no row more often than the result does. */
  lemma PageIsSlice<T>(all: seq<T>, page: int, limit: int)
    requires Paginate(all, page, limit).Some?
    ensures |Paginate(all, page, limit).value.items| == PageSize(|all|, page, limit)
    ensures multiset(Paginate(all, page, limit).value.items) <= multiset(all)
  {
    var off := (page - 1) * limit;
    var items := Paginate(all, page, limit).value.items;
    assert items == Window(all, off, limit);
    if off < |all| {
      var end := Min(|all|, off + limit);
      assert all == all[..off] + all[off..end] + all[end..];
      assert items == all[off..end];
    }
  }

  /**
   * Paging through the result misses nothing: with a positive page size,
   * every matching row is on some page between 1 and `pages`.
   */
  lemma EveryRowOnAPage<T>(matching: seq<T>, key: T -> Key, limit: int, x: T)
    requires limit > 0 && x in matching
    ensures exists p :: 1 <= p <= PageCount(|matching|, limit) && PageOf(matching, key, p, limit).Some?
                        && x in PageOf(matching, key, p, limit).value.items
  {
    var all := SortDesc(matching, key);
    var i := SortedIndex(matching, key, x);
    var p := i / limit + 1;
    RowOnItsPage(all, limit, i);
    PageOfSorts(matching, key, p, limit);
    DivFacts(i, limit);
    var page := PageOf(matching, key, p, limit);
    assert page.value.items[i % limit] == x;
    assert x in page.value.items;
    assert 1 <= p <= PageCount(|matching|, limit) by {
      assert |multiset(all)| == |multiset(matching)|;
    }
    assert 1 <= p <= PageCount(|matching|, limit) && page.Some? && x in page.value.items;
  }

  /** Where a row of the input lands in the descending sort. */
  lemma SortedIndex<T>(xs: seq<T>, key: T -> Key, x: T) returns (i: nat)
    requires x in xs
    ensures i < |SortDesc(xs, key)| && SortDesc(xs, key)[i] == x
  {
    var all := SortDesc(xs, key);
    assert x in multiset(all);
    i :| 0 <= i < |all| && all[i] == x;
  }

  /** Under the hood a page of `matching` is a page of its descending sort. */
  lemma PageOfSorts<T>(matching: seq<T>, key: T -> Key, page: int, limit: int)
    ensures PageOf(matching, key, page, limit) == Paginate(SortDesc(matching, key), page, limit)
  {
  }

  /** No row of a later page ranks above a row of an earlier page. */
  lemma EarlierPageRanksHigher<T>(matching: seq<T>, key: T -> Key, limit: int, p1: int, p2: int, i: int, j: int)
    requires limit > 0 && 1 <= p1 < p2
    requires PageOf(matching, key, p1, limit).Some? && PageOf(matching, key, p2, limit).Some?
    requires 0 <= i < |PageOf(matching, key, p1, limit).value.items|
    requires 0 <= j < |PageOf(matching, key, p2, limit).value.items|
    ensures AtLeast(key(PageOf(matching, key, p1, limit).value.items[i]), key(PageOf(matching, key, p2, limit).value.items[j]))
  {
    PageOfSorts(matching, key, p1, limit);
    PageOfSorts(matching, key, p2, limit);
    PagesInOrder(SortDesc(matching, key), key, limit, p1, p2, i, j);
  }

  /** A row missing from the first page ranks no higher than any row on it: page 1 is the top `limit`. */
  lemma FirstPageIsTop<T>(matching: seq<T>, key: T -> Key, limit: int, x: T, i: int)
    requires limit > 0 && x in matching && PageOf(matching, key, 1, limit).Some?
    requires x !in PageOf(matching, key, 1, limit).value.items
    requires 0 <= i < |PageOf(matching, key, 1, limit).value.items|
    ensures AtLeast(key(PageOf(matching, key, 1, limit).value.items[i]), key(x))
  {
    EveryRowOnAPage(matching, key, limit, x);
    var p :| 1 <= p <= PageCount(|matching|, limit) && PageOf(matching, key, p, limit).Some?
             && x in PageOf(matching, key, p, limit).value.items;
    var later := PageOf(matching, key, p, limit).value.items;
    var j :| 0 <= j < |later| && later[j] == x;
    assert p != 1;
    EarlierPageRanksHigher(matching, key, limit, 1, p, i, j);
    assert AtLeast(key(PageOf(matching, key, 1, limit).value.items[i]), key(later[j]));
  }

  lemma PagesInOrder<T>(all: seq<T>, key: T -> Key, limit: int, p1: int, p2: int, i: int, j: int)
    requires SortedDesc(all, key)
    requires limit > 0 && 1 <= p1 < p2
    requires Paginate(all, p1, limit).Some? && Paginate(all, p2, limit).Some?
    requires 0 <= i < |Paginate(all, p1, limit).value.items|
    requires 0 <= j < |Paginate(all, p2, limit).value.items|
    ensures AtLeast(key(Paginate(all, p1, limit).value.items[i]), key(Paginate(all, p2, limit).value.items[j]))
  {
    var a := Paginate(all, p1, limit).value.items;
    var b := Paginate(all, p2, limit).value.items;
    assert a[i] == all[(p1 - 1) * limit + i];
    assert b[j] == all[(p2 - 1) * limit + j];
    LaterOffset(p1, p2, limit, i, j);
  }

  /** Row `i` of page `p1` precedes row `j` of a later page `p2` in the whole result. */
  lemma LaterOffset(p1: int, p2: int, limit: int, i: int, j: int)
    requires limit > 0 && 1 <= p1 < p2 && 0 <= i < limit && 0 <= j
    ensures 0 <= (p1 - 1) * limit + i < (p2 - 1) * limit + j
  {
    MulMono(p2 - 1, p1, limit);
    MulMono(p1 - 1, 0, limit);
  }
}

=== FILE: releases.dfy ===
/**
 * The releases page, frontend/src/pages/Lancamentos.jsx: three filters, a
 * fixed newest-first order, and two status rules layered on the request.
 */
module Releases {
  import opened Text
  import opened Schema
  import opened Query
  import Catalog

  datatype Filters = Filters(search: string, genero: string, status: string)

  predicate IsFilter(k: Param) {
    k == Search || k == Genero || k == Status
  }

  function Get(f: Filters, k: Param): string
    requires IsFilter(k)
  {
    match k
    case Search => f.search
    case Genero => f.genero
    case Status => f.status
  }

  function Set(f: Filters, k: Param, v: string): (r: Filters)
    requires IsFilter(k)
    ensures Get(r, k) == v
    ensures forall o :: IsFilter(o) && o != k ==> Get(r, o) == Get(f, o)
  {
    match k
    case Search => f.(search := v)
    case Genero => f.(genero := v)
    case Status => f.(status := v)
  }

  const DefaultStatus: string := "Em exibição"

  /** What an empty status filter asks the server for. */
  const CurrentStatuses: string := "Em exibição,Anunciado"

  /** Titles finished in this year or later count as releases. */
  const ReleaseYear: int := 2025

  /** The initial filters: read from the query string, status defaulting to "Em exibição". */
  function FromUrl(url: Url): (r: Filters)
    ensures r.status != ""
  {
    var st := UrlGet(url, Status);
    Filters(UrlGet(url, Search), UrlGet(url, Genero), if st == "" then DefaultStatus else st)
  }

  function Entries(f: Filters): map<Param, string> {
    map[Search := f.search, Genero := f.genero, Status := f.status]
  }

  /**
   * The query string mirrors the filters, but an empty status is not
   * written and so reads back as the default: choosing "all statuses" does
   * not survive a reload.
   */
  lemma UrlRoundTrip(f: Filters)
    ensures FromUrl(UrlOf(Entries(f))) == (if f.status == "" then f.(status := DefaultStatus) else f)
  {
  }

  /** The status value sent: the chosen one, or both current statuses when none is chosen. */
  function StatusParam(f: Filters): (r: string)
    ensures r != ""
    ensures f.status != "" ==> r == f.status
  {
    if f.status == "" then CurrentStatuses else f.status
  }

  /** The parameter object before falsy values are removed. */
  function Raw(f: Filters, p: Pagination): (r: Params)
    ensures r.Keys == {Page, Limit, OrderBy, Order, Search, Genero, Status} + (if f.status == "Finalizado" then {AnoMin} else {})
    ensures r[Page] == Number(p.page) && r[Limit] == Number(p.limit)
    ensures r[OrderBy] == Text("ano_lancamento") && r[Order] == Text("DESC")
    ensures r[Search] == Text(f.search) && r[Genero] == Text(f.genero)
    ensures r[Status] == Text(StatusParam(f))
    ensures AnoMin in r ==> r[AnoMin] == Number(ReleaseYear)
  {
    var base := map[Page := Number(p.page), Limit := Number(p.limit),
                    OrderBy := Text("ano_lancamento"), Order := Text("DESC"),
                    Search := Text(f.search), Genero := Text(f.genero), Status := Text(StatusParam(f))];
    if f.status == "Finalizado" then base[AnoMin := Number(ReleaseYear)] else base
  }

  /**
   * The parameters `fetchAnimacoes` sends: page, limit, the fixed newest-first
   * order and the non-empty filters; the status always, and the release-year
   * floor only for finished titles.
   */
  function RequestParams(f: Filters, p: Pagination): (r: Params)
    ensures OrderBy in r && r[OrderBy] == Text("ano_lancamento")
    ensures Order in r && r[Order] == Text("DESC")
    ensures Status in r && r[Status] == Text(if f.status == "" then CurrentStatuses else f.status)
    ensures (AnoMin in r <==> f.status == "Finalizado") && (AnoMin in r ==> r[AnoMin] == Number(ReleaseYear))
    ensures (Search in r <==> f.search != "") && (Search in r ==> r[Search] == Text(f.search))
    ensures (Genero in r <==> f.genero != "") && (Genero in r ==> r[Genero] == Text(f.genero))
    ensures (Page in r <==> p.page != 0) && (Limit in r <==> p.limit != 0)
    ensures Q !in r
    ensures forall k :: k in r && k != Status && k != AnoMin ==> Truthy(r[k])
  {
    var raw := Raw(f, p);
    assert Q !in raw;
    assert Page in raw && Limit in raw && OrderBy in raw && Order in raw;
    assert Search in raw && Genero in raw && Status in raw;
    Clean(raw, {Status, AnoMin})
  }

  /** The status the server receives is never empty, so the status filter always applies. */
  lemma StatusAlwaysFiltered(f: Filters, p: Pagination)
    ensures RequestParams(f, p)[Status].s != ""
  {
  }

  /** The default status list is the two current statuses joined with a comma. */
  lemma CurrentStatusesJoined()
    ensures Join(["Em exibição", "Anunciado"], ',') == CurrentStatuses
  {
    var names := ["Em exibição", "Anunciado"];
    assert names[1..] == ["Anunciado"];
    assert Join(names, ',') == "Em exibição" + [','] + "Anunciado";
  }

  /** With no status chosen the catalogue returns exactly the airing and the announced titles. */
  lemma EmptyStatusMeansCurrent(t: Title)
    ensures Catalog.StatusMatches(t, CurrentStatuses) <==> (t.status == "Em exibição" || t.status == "Anunciado")
  {
    var names := ["Em exibição", "Anunciado"];
    CurrentStatusesJoined();
    TrimIdentity(names[0]);
    TrimIdentity(names[1]);
    Catalog.StatusListJoin(names, t);
  }

  datatype State = State(filters: Filters, pagination: Pagination, url: Url)

  /** `handleFilterChange(key, value)`. */
  function FilterChange(s: State, k: Param, v: string): (r: State)
    requires IsFilter(k)
    ensures Get(r.filters, k) == v
    ensures forall o :: IsFilter(o) && o != k ==> Get(r.filters, o) == Get(s.filters, o)
    ensures r.pagination == s.pagination.(page := 1)
    ensures forall o :: IsFilter(o) ==> (o in r.url <==> Get(r.filters, o) != "")
    ensures forall o :: o in r.url ==> IsFilter(o) && r.url[o] == Get(r.filters, o)
  {
    var f := Set(s.filters, k, v);
    State(f, s.pagination.(page := 1), UrlOf(Entries(f)))
  }

  /** `clearFilters`: empty search and genre, the default status, and an empty query string. */
  function ClearFilters(s: State): (r: State)
    ensures r.filters.search == "" && r.filters.genero == "" && r.filters.status == DefaultStatus
    ensures r.url == map[]
    ensures r.pagination == s.pagination
    ensures r.filters == FromUrl(r.url)
  {
    State(Filters("", "", DefaultStatus), s.pagination, map[])
  }
}

=== FILE: reviews.dfy ===
/**
 * The review handlers of backend/controllers/avaliacaoController.js.
 *
 * Each mutation is a pure transition returning the HTTP status and the new
 * database. `recomputeOk` says whether the aggregate recomputation that
 * follows a write (`updateNotaMedia`) succeeds; when it fails the error is
 * logged and swallowed, so the mutation still answers with success.
 */
module Reviews {
  import opened Common
  import opened Schema
  import opened Paging
  import opened Ranking

  predicate HasReview(rs: seq<Review>, user: int, title: int) {
    exists i :: 0 <= i < |rs| && rs[i].userId == user && rs[i].titleId == title
  }

  /** `updateNotaMedia(t)`: rewrite title `t`'s aggregates from its current reviews. */
  function UpdateNotaMedia(db: Db, t: int, recomputeOk: bool): (r: Db)
    ensures r == db.(titles := r.titles)
    ensures |r.titles| == |db.titles|
    ensures forall i :: 0 <= i < |db.titles| ==> r.titles[i].id == db.titles[i].id
    ensures forall i :: 0 <= i < |db.titles| && (db.titles[i].id != t || !recomputeOk) ==> r.titles[i] == db.titles[i]
    ensures recomputeOk ==> forall i :: 0 <= i < |db.titles| && db.titles[i].id == t ==>
              && Fresh(r.titles[i], db.reviews)
              && r.titles[i] == db.titles[i].(notaMedia := r.titles[i].notaMedia, totalAvaliacoes := r.titles[i].totalAvaliacoes)
  {
    if recomputeOk then db.(titles := RecomputeTitles(db.titles, db.reviews, t)) else db
  }

  // --------------------------------------------------------------- create

  function CreateReview(db: Db, caller: int, titleId: int, nota: real, comentario: Field<string>,
                        now: int, recomputeOk: bool): (r: Outcome)
    ensures r.status == 400 <==> HasReview(db.reviews, caller, titleId)
    ensures r.status == 500 <==> !HasReview(db.reviews, caller, titleId) && !TitleExists(db.titles, titleId)
    ensures r.status in {201, 400, 500}
    ensures r.status != 201 ==> r.db == db
    ensures r.status == 201 ==>
              && r.db.reviews == db.reviews + [Review(db.next.reviews, caller, titleId, nota, OrNull(comentario), now, now)]
              && r.db.next == db.next.(reviews := db.next.reviews + 1)
              && r.db == db.(titles := r.db.titles, reviews := r.db.reviews, next := r.db.next)
    ensures |r.db.titles| == |db.titles|
    ensures forall i :: 0 <= i < |db.titles| && db.titles[i].id != titleId ==> r.db.titles[i] == db.titles[i]
    ensures !recomputeOk ==> r.db.titles == db.titles
    ensures r.status == 201 && recomputeOk ==> forall i :: 0 <= i < |r.db.titles| && r.db.titles[i].id == titleId ==>
              Fresh(r.db.titles[i], r.db.reviews)
  {
    if HasReview(db.reviews, caller, titleId) then Outcome(400, db)
    else if !TitleExists(db.titles, titleId) then Outcome(500, db)
    else
      var review := Review(db.next.reviews, caller, titleId, nota, OrNull(comentario), now, now);
      var inserted := db.(reviews := db.reviews + [review], next := db.next.(reviews := db.next.reviews + 1));
      Outcome(201, UpdateNotaMedia(inserted, titleId, recomputeOk))
  }

  // ------------------------------------------------- update and delete

  /** `SELECT animacao_id FROM avaliacoes WHERE id = ? AND usuario_id = ?`. */
  function FindOwned(rs: seq<Review>, id: int, caller: int): (r: Option<Review>)
    ensures r.Some? <==> exists i :: 0 <= i < |rs| && rs[i].id == id && rs[i].userId == caller
    ensures r.Some? ==> r.value in rs && r.value.id == id && r.value.userId == caller
  {
    if |rs| == 0 then None
    else if rs[0].id == id && rs[0].userId == caller then Some(rs[0])
    else
      var r := FindOwned(rs[1..], id, caller);
      assert (exists i :: 0 <= i < |rs[1..]| && rs[1..][i].id == id && rs[1..][i].userId == caller) ==>
             (exists i :: 0 <= i < |rs| && rs[i].id == id && rs[i].userId == caller) by {
        if exists i :: 0 <= i < |rs[1..]| && rs[1..][i].id == id && rs[1..][i].userId == caller {
          var i :| 0 <= i < |rs[1..]| && rs[1..][i].id == id && rs[1..][i].userId == caller;
          assert rs[i + 1] == rs[1..][i];
        }
      }
      r
  }

  /** `UPDATE avaliacoes SET nota, comentario, updated_at WHERE id = ?`. */
  function SetReview(rs: seq<Review>, id: int, nota: real, comentario: Option<string>, now: int): (r: seq<Review>)
    ensures |r| == |rs|
    ensures forall i :: 0 <= i < |rs| && rs[i].id != id ==> r[i] == rs[i]
    ensures forall i :: 0 <= i < |rs| && rs[i].id == id ==>
              r[i] == rs[i].(nota := nota, comentario := comentario, updatedAt := now)
  {
    seq(|rs|, i requires 0 <= i < |rs| =>
      if rs[i].id == id then rs[i].(nota := nota, comentario := comentario, updatedAt := now) else rs[i])
  }

  /** `DELETE FROM avaliacoes WHERE id = ?`. */
  function RemoveReview(rs: seq<Review>, id: int): (r: seq<Review>)
    ensures |r| <= |rs|
    ensures forall x :: x in r <==> x in rs && x.id != id
  {
    if |rs| == 0 then []
    else
      var last := rs[|rs| - 1];
      var init := RemoveReview(rs[..|rs| - 1], id);
      assert rs == rs[..|rs| - 1] + [last];
      if last.id == id then init else init + [last]
  }

  function UpdateReview(db: Db, caller: int, id: int, nota: real, comentario: Field<string>,
                        now: int, recomputeOk: bool): (r: Outcome)
    ensures r.status in {200, 404}
    ensures r.status == 404 <==> FindOwned(db.reviews, id, caller).None?
    ensures r.status == 404 ==> r.db == db
    ensures r.status == 200 ==>
              && r.db.reviews == SetReview(db.reviews, id, nota, OrNull(comentario), now)
              && r.db == db.(titles := r.db.titles, reviews := r.db.reviews)
    ensures |r.db.titles| == |db.titles|
    ensures r.status == 200 ==> forall i ::
              (0 <= i < |db.titles| && db.titles[i].id != FindOwned(db.reviews, id, caller).value.titleId) ==>
              r.db.titles[i] == db.titles[i]
  {
    match FindOwned(db.reviews, id, caller)
    case None => Outcome(404, db)
    case Some(found) =>
      var written := db.(reviews := SetReview(db.reviews, id, nota, OrNull(comentario), now));
      Outcome(200, UpdateNotaMedia(written, found.titleId, recomputeOk))
  }

  function DeleteReview(db: Db, caller: int, id: int, recomputeOk: bool): (r: Outcome)
    ensures r.status in {200, 404}
    ensures r.status == 404 <==> FindOwned(db.reviews, id, caller).None?
    ensures r.status == 404 ==> r.db == db
    ensures r.status == 200 ==>
              && (forall x :: x in r.db.reviews <==> x in db.reviews && x.id != id)
              && r.db == db.(titles := r.db.titles, reviews := r.db.reviews)
    ensures |r.db.titles| == |db.titles|
    ensures r.status == 200 ==> forall i ::
              (0 <= i < |db.titles| && db.titles[i].id != FindOwned(db.reviews, id, caller).value.titleId) ==>
              r.db.titles[i] == db.titles[i]
  {
    match FindOwned(db.reviews, id, caller)
    case None => Outcome(404, db)
    case Some(found) =>
      var removed := db.(reviews := RemoveReview(db.reviews, id));
      Outcome(200, UpdateNotaMedia(removed, found.titleId, recomputeOk))
  }

  // ------------------------------------------------------------- listing

  function NewestFirst(r: Review): Key {
    ByOne(r.createdAt as real)
  }

  /**
   * `getAvaliacoesByAnimacao`: the title's reviews, newest first, one page at
   * offset (page-1)*limit, with `page` 1 and `limit` 10 when absent. The rows
   * come from a join with `usuarios`, so a review whose author is gone is not
   * listed; the total counts all of the title's reviews regardless.
   */
  function ReviewsByTitle(db: Db, titleId: int, pageParam: Option<int>, limitParam: Option<int>): (r: Option<Page<Review>>)
    ensures var page := ParamOr(pageParam, 1); var limit := ParamOr(limitParam, 10);
      && (r.Some? <==> limit >= 0 && (page - 1) * limit >= 0)
      && (r.Some? ==> r.value.info == PageInfo(page, limit, |ReviewsOf(db.reviews, titleId)|,
                                              Pages(|ReviewsOf(db.reviews, titleId)|, limit)))
      && (r.Some? ==> |r.value.items| == PageSize(|Listed(db, titleId)|, page, limit))
    ensures r.Some? ==> forall i :: 0 <= i < |r.value.items| ==>
              && r.value.items[i] in db.reviews && r.value.items[i].titleId == titleId
              && UserExists(db.users, r.value.items[i].userId)
    ensures r.Some? ==> forall i, j :: 0 <= i < j < |r.value.items| ==>
              r.value.items[i].createdAt >= r.value.items[j].createdAt
  {
    var page := ParamOr(pageParam, 1);
    var limit := ParamOr(limitParam, 10);
    match PageOf(Listed(db, titleId), NewestFirst, page, limit)
    case None => None
    case Some(p) =>
      ListedPageFacts(db, titleId, p.items);
      var total := |ReviewsOf(db.reviews, titleId)|;
      Some(p.(info := p.info.(total := total, pages := Pages(total, limit))))
  }

  /** A page cut from the listed reviews, newest first. */
  lemma ListedPageFacts(db: Db, titleId: int, items: seq<Review>)
    requires forall i :: 0 <= i < |items| ==> items[i] in Listed(db, titleId)
    requires SortedDesc(items, NewestFirst)
    ensures forall i :: 0 <= i < |items| ==>
              items[i] in db.reviews && items[i].titleId == titleId && UserExists(db.users, items[i].userId)
    ensures forall i, j :: 0 <= i < j < |items| ==> items[i].createdAt >= items[j].createdAt
  {
    forall i, j | 0 <= i < j < |items| ensures items[i].createdAt >= items[j].createdAt {
      assert AtLeast(NewestFirst(items[i]), NewestFirst(items[j]));
    }
  }

  /** Without parameters the answer is the first page of ten: the ten newest listed reviews, or all of them. */
  lemma ReviewsDefaultPage(db: Db, titleId: int)
    ensures var r := ReviewsByTitle(db, titleId, None, None);
      && r.Some? && r.value.info.page == 1 && r.value.info.limit == 10
      && |r.value.items| == Min(10, |Listed(db, titleId)|)
    ensures var items := ReviewsByTitle(db, titleId, None, None).value.items;
      forall x, i :: x in Listed(db, titleId) && x !in items && 0 <= i < |items| ==> items[i].createdAt >= x.createdAt
  {
    assert ReviewsByTitle(db, titleId, None, None) == ReviewsByTitle(db, titleId, Some(1), Some(10));
    var items := ReviewsByTitle(db, titleId, Some(1), Some(10)).value.items;
    forall x, i | x in Listed(db, titleId) && x !in items && 0 <= i < |items|
      ensures items[i].createdAt >= x.createdAt
    {
      FirstPageNewest(db, titleId, 10, x, i);
    }
  }

  /** A listed review missing from the first page is no newer than any review on it. */
  lemma FirstPageNewest(db: Db, titleId: int, limit: int, x: Review, i: int)
    requires limit > 0 && ReviewsByTitle(db, titleId, Some(1), Some(limit)).Some?
    requires x in Listed(db, titleId) && x !in ReviewsByTitle(db, titleId, Some(1), Some(limit)).value.items
    requires 0 <= i < |ReviewsByTitle(db, titleId, Some(1), Some(limit)).value.items|
    ensures ReviewsByTitle(db, titleId, Some(1), Some(limit)).value.items[i].createdAt >= x.createdAt
  {
    var items := ReviewsByTitle(db, titleId, Some(1), Some(limit)).value.items;
    assert items == PageOf(Listed(db, titleId), NewestFirst, 1, limit).value.items;
    FirstPageIsTop(Listed(db, titleId), NewestFirst, limit, x, i);
    assert AtLeast(NewestFirst(items[i]), NewestFirst(x));
  }

  /** The title's reviews that survive the join with `usuarios`, in table order. */
  function Listed(db: Db, titleId: int): (r: seq<Review>)
    ensures forall x :: x in r <==> x in db.reviews && x.titleId == titleId && UserExists(db.users, x.userId)
  {
    Filter(ReviewsOf(db.reviews, titleId), (x: Review) => UserExists(db.users, x.userId))
  }

  /**
   * Paging through a title's reviews shows every review whose author
   * exists, on some page from 1 on.
   */
  lemma EveryReviewListed(db: Db, titleId: int, limit: int, x: Review)
    requires limit > 0 && x in db.reviews && x.titleId == titleId && UserExists(db.users, x.userId)
    ensures exists p :: 1 <= p && ReviewsByTitle(db, titleId, Some(p), Some(limit)).Some?
                        && x in ReviewsByTitle(db, titleId, Some(p), Some(limit)).value.items
  {
    EveryRowOnAPage(Listed(db, titleId), NewestFirst, limit, x);
    var p :| 1 <= p <= PageCount(|Listed(db, titleId)|, limit) && PageOf(Listed(db, titleId), NewestFirst, p, limit).Some?
             && x in PageOf(Listed(db, titleId), NewestFirst, p, limit).value.items;
    assert ReviewsByTitle(db, titleId, Some(p), Some(limit)).value.items == PageOf(Listed(db, titleId), NewestFirst, p, limit).value.items;
  }

  /** A page lists no review more often than the join returns it. */
  lemma ReviewsRepeatNothing(db: Db, titleId: int, pageParam: Option<int>, limitParam: Option<int>)
    requires ReviewsByTitle(db, titleId, pageParam, limitParam).Some?
    ensures multiset(ReviewsByTitle(db, titleId, pageParam, limitParam).value.items) <= multiset(Listed(db, titleId))
  {
    var page := ParamOr(pageParam, 1);
    var limit := ParamOr(limitParam, 10);
    assert ReviewsByTitle(db, titleId, pageParam, limitParam).value.items
        == PageOf(Listed(db, titleId), NewestFirst, page, limit).value.items;
  }

  /** A review on an earlier page was written no earlier than any review on a later page. */
  lemma ReviewPagesInOrder(db: Db, titleId: int, limit: int, p1: int, p2: int, i: int, j: int)
    requires limit > 0 && 1 <= p1 < p2
    requires ReviewsByTitle(db, titleId, Some(p1), Some(limit)).Some?
    requires ReviewsByTitle(db, titleId, Some(p2), Some(limit)).Some?
    requires 0 <= i < |ReviewsByTitle(db, titleId, Some(p1), Some(limit)).value.items|
    requires 0 <= j < |ReviewsByTitle(db, titleId, Some(p2), Some(limit)).value.items|
    ensures ReviewsByTitle(db, titleId, Some(p1), Some(limit)).value.items[i].createdAt
         >= ReviewsByTitle(db, titleId, Some(p2), Some(limit)).value.items[j].createdAt
  {
    var listed := Listed(db, titleId);
    assert ReviewsByTitle(db, titleId, Some(p1), Some(limit)).value.items == PageOf(listed, NewestFirst, p1, limit).value.items;
    assert ReviewsByTitle(db, titleId, Some(p2), Some(limit)).value.items == PageOf(listed, NewestFirst, p2, limit).value.items;
    EarlierPageRanksHigher(listed, NewestFirst, limit, p1, p2, i, j);
  }

  // ---------------------------------------------------------- invariants

  lemma ReviewsOfAppendOther(rs: seq<Review>, x: Review, u: int)
    requires x.titleId != u
    ensures ReviewsOf(rs + [x], u) == ReviewsOf(rs, u)
  {
    assert (rs + [x])[..|rs|] == rs;
  }

  /** Two tables that agree on every review of title `u` have the same reviews of `u`. */
  lemma {:induction false} ReviewsOfPointwise(a: seq<Review>, b: seq<Review>, u: int)
    requires |a| == |b|
    requires forall i :: 0 <= i < |a| ==> (a[i].titleId == u <==> b[i].titleId == u)
    requires forall i :: 0 <= i < |a| && a[i].titleId == u ==> a[i] == b[i]
    ensures ReviewsOf(a, u) == ReviewsOf(b, u)
  {
    if |a| > 0 {
      ReviewsOfPointwise(a[..|a| - 1], b[..|b| - 1], u);
    }
  }

  lemma {:induction false} ReviewsOfRemoveOther(rs: seq<Review>, id: int, u: int)
    requires forall i :: 0 <= i < |rs| && rs[i].titleId == u ==> rs[i].id != id
    ensures ReviewsOf(RemoveReview(rs, id), u) == ReviewsOf(rs, u)
  {
    if |rs| > 0 {
      var init := rs[..|rs| - 1];
      ReviewsOfRemoveOther(init, id, u);
      var last := rs[|rs| - 1];
      if last.id != id {
        assert (RemoveReview(init, id) + [last])[..|RemoveReview(init, id)|] == RemoveReview(init, id);
      }
    }
  }

  lemma {:induction false} RemoveReviewUnique(rs: seq<Review>, id: int)
    requires ReviewsUnique(rs)
    ensures ReviewsUnique(RemoveReview(rs, id))
  {
    if |rs| > 0 {
      var init := rs[..|rs| - 1];
      var last := rs[|rs| - 1];
      RemoveReviewUnique(init, id);
      var ri := RemoveReview(init, id);
      if last.id != id {
        var r := ri + [last];
        forall i, j | 0 <= i < j < |r|
          ensures r[i].id != r[j].id && (r[i].userId != r[j].userId || r[i].titleId != r[j].titleId)
        {
          if j == |ri| {
            assert r[i] in init;
            var k :| 0 <= k < |init| && init[k] == r[i];
            assert rs[k] == r[i] && rs[|rs| - 1] == last;
          } else {
            assert r[i] == ri[i] && r[j] == ri[j];
          }
        }
      }
    }
  }

  lemma TitleExistsAfterRecompute(ts: seq<Title>, rs: seq<Review>, t: int, id: int)
    ensures TitleExists(RecomputeTitles(ts, rs, t), id) <==> TitleExists(ts, id)
  {
    var r := RecomputeTitles(ts, rs, t);
    if TitleExists(ts, id) {
      var i :| 0 <= i < |ts| && ts[i].id == id;
      assert r[i].id == id;
    }
    if TitleExists(r, id) {
      var i :| 0 <= i < |r| && r[i].id == id;
      assert ts[i].id == id;
    }
  }

  /** Only the aggregate columns change, so every title-level invariant survives. */
  lemma UpdateNotaMediaKeepsTitles(db: Db, t: int, ok: bool)
    requires TitleIdsUnique(db.titles)
    ensures TitleIdsUnique(UpdateNotaMedia(db, t, ok).titles)
    ensures forall id :: TitleExists(UpdateNotaMedia(db, t, ok).titles, id) <==> TitleExists(db.titles, id)
  {
    forall id ensures TitleExists(UpdateNotaMedia(db, t, ok).titles, id) <==> TitleExists(db.titles, id) {
      if ok { TitleExistsAfterRecompute(db.titles, db.reviews, t, id); }
    }
  }

  /**
   * Any review write followed by recomputing title `t` keeps the invariants,
   * provided the write kept reviews unique, referenced existing titles,
   * stayed below the id counter and touched no other title's reviews.
   */
  lemma ReviewWriteKeepsValid(db: Db, rs: seq<Review>, next: int, t: int)
    requires Valid(db)
    requires ReviewsUnique(rs)
    requires forall i :: 0 <= i < |rs| ==> TitleExists(db.titles, rs[i].titleId) && rs[i].id < next
    requires forall u :: u != t ==> ReviewsOf(rs, u) == ReviewsOf(db.reviews, u)
    ensures Valid(UpdateNotaMedia(db.(reviews := rs, next := db.next.(reviews := next)), t, true))
  {
    var written := db.(reviews := rs, next := db.next.(reviews := next));
    var r := UpdateNotaMedia(written, t, true);
    assert r.titles == RecomputeTitles(db.titles, rs, t);
    RecomputeRestores(db.titles, db.reviews, rs, t);
    UpdateNotaMediaKeepsTitles(written, t, true);
    KeepsReferences(db, r);
    KeepsIdsBelow(db, r);
  }

  /** Title references survive any change that keeps the set of title ids. */
  lemma KeepsReferences(db: Db, r: Db)
    requires ReferencesTitles(db)
    requires r.lista == db.lista && r.links == db.links
    requires forall id :: TitleExists(r.titles, id) <==> TitleExists(db.titles, id)
    requires forall i :: 0 <= i < |r.reviews| ==> TitleExists(db.titles, r.reviews[i].titleId)
    ensures ReferencesTitles(r)
  {
  }

  lemma KeepsIdsBelow(db: Db, r: Db)
    requires IdsBelowCounters(db)
    requires |r.titles| == |db.titles| && forall i :: 0 <= i < |db.titles| ==> r.titles[i].id == db.titles[i].id
    requires r.genres == db.genres && r.users == db.users
    requires r.next == db.next.(reviews := r.next.reviews)
    requires forall i :: 0 <= i < |r.reviews| ==> r.reviews[i].id < r.next.reviews
    ensures IdsBelowCounters(r)
  {
  }

  lemma AppendUnique(rs: seq<Review>, x: Review)
    requires ReviewsUnique(rs)
    requires forall i :: 0 <= i < |rs| ==> rs[i].id < x.id
    requires !HasReview(rs, x.userId, x.titleId)
    ensures ReviewsUnique(rs + [x])
  {
    var r := rs + [x];
    forall i, j | 0 <= i < j < |r|
      ensures r[i].id != r[j].id && (r[i].userId != r[j].userId || r[i].titleId != r[j].titleId)
    {
      if j == |rs| {
        assert r[i] == rs[i];
      }
    }
  }

  /**
   * A successful create keeps every invariant: one review per (user, title),
   * and every title's aggregates equal the count and mean of its reviews.
   */
  lemma CreateReviewKeepsValid(db: Db, caller: int, titleId: int, nota: real, comentario: Field<string>, now: int)
    requires Valid(db)
    ensures Valid(CreateReview(db, caller, titleId, nota, comentario, now, true).db)
  {
    CreatedKeepsValid(db, caller, titleId, nota, comentario, now, CreateReview(db, caller, titleId, nota, comentario, now, true));
  }

  /** `r` is the outcome of the create, named so that its database is one term. */
  lemma CreatedKeepsValid(db: Db, caller: int, titleId: int, nota: real, comentario: Field<string>, now: int, r: Outcome)
    requires Valid(db)
    requires r == CreateReview(db, caller, titleId, nota, comentario, now, true)
    ensures Valid(r.db)
  {
    if !HasReview(db.reviews, caller, titleId) && TitleExists(db.titles, titleId) {
      var x := Review(db.next.reviews, caller, titleId, nota, OrNull(comentario), now, now);
      CreatedIsAppended(db, caller, titleId, nota, comentario, now);
      AppendKeepsValid(db, x, r.db);
    } else {
      assert r.db == db;
    }
  }

  /** The successful create is exactly an append followed by recomputing the title. */
  lemma CreatedIsAppended(db: Db, caller: int, titleId: int, nota: real, comentario: Field<string>, now: int)
    requires !HasReview(db.reviews, caller, titleId) && TitleExists(db.titles, titleId)
    ensures var x := Review(db.next.reviews, caller, titleId, nota, OrNull(comentario), now, now);
      CreateReview(db, caller, titleId, nota, comentario, now, true).db
        == UpdateNotaMedia(db.(reviews := db.reviews + [x], next := db.next.(reviews := x.id + 1)), titleId, true)
  {
  }

  /** `out` is the database after appending `x` and recomputing its title. */
  lemma AppendKeepsValid(db: Db, x: Review, out: Db)
    requires Valid(db)
    requires x.id == db.next.reviews && TitleExists(db.titles, x.titleId) && !HasReview(db.reviews, x.userId, x.titleId)
    requires out == UpdateNotaMedia(db.(reviews := db.reviews + [x], next := db.next.(reviews := x.id + 1)), x.titleId, true)
    ensures Valid(out)
  {
    AppendedFacts(db, x);
    ReviewWriteKeepsValid(db, db.reviews + [x], x.id + 1, x.titleId);
  }

  /** Appending a review with a fresh id for an existing title, which the user had not reviewed. */
  lemma AppendedFacts(db: Db, x: Review)
    requires Valid(db)
    requires x.id == db.next.reviews && TitleExists(db.titles, x.titleId) && !HasReview(db.reviews, x.userId, x.titleId)
    ensures var rs := db.reviews + [x];
      && ReviewsUnique(rs)
      && (forall i :: 0 <= i < |rs| ==> TitleExists(db.titles, rs[i].titleId) && rs[i].id < x.id + 1)
      && (forall u :: u != x.titleId ==> ReviewsOf(rs, u) == ReviewsOf(db.reviews, u))
  {
    var rs := db.reviews + [x];
    forall u | u != x.titleId ensures ReviewsOf(rs, u) == ReviewsOf(db.reviews, u) {
      ReviewsOfAppendOther(db.reviews, x, u);
    }
    AppendUnique(db.reviews, x);
    forall i | 0 <= i < |rs| ensures TitleExists(db.titles, rs[i].titleId) && rs[i].id < x.id + 1 {
      if i < |db.reviews| {
        assert rs[i] == db.reviews[i];
      }
    }
  }

  lemma SetReviewOthers(db: Db, found: Review, id: int, rs: seq<Review>)
    requires ReviewsUnique(db.reviews) && found in db.reviews && found.id == id
    requires |rs| == |db.reviews|
    requires forall i :: 0 <= i < |rs| ==> rs[i].titleId == db.reviews[i].titleId
    requires forall i :: 0 <= i < |rs| && db.reviews[i].id != id ==> rs[i] == db.reviews[i]
    ensures forall u :: u != found.titleId ==> ReviewsOf(rs, u) == ReviewsOf(db.reviews, u)
  {
    forall u | u != found.titleId ensures ReviewsOf(rs, u) == ReviewsOf(db.reviews, u) {
      assert forall i :: 0 <= i < |rs| && db.reviews[i].titleId == u ==> db.reviews[i] == rs[i];
      ReviewsOfPointwise(db.reviews, rs, u);
    }
  }

  lemma UpdateReviewKeepsValid(db: Db, caller: int, id: int, nota: real, comentario: Field<string>, now: int)
    requires Valid(db)
    ensures Valid(UpdateReview(db, caller, id, nota, comentario, now, true).db)
  {
    var out := UpdateReview(db, caller, id, nota, comentario, now, true);
    var found := FindOwned(db.reviews, id, caller);
    if found.Some? {
      var rs := SetReview(db.reviews, id, nota, OrNull(comentario), now);
      assert db.(reviews := rs, next := db.next.(reviews := db.next.reviews)) == db.(reviews := rs);
      assert out.db == UpdateNotaMedia(db.(reviews := rs), found.value.titleId, true);
      SetKeepsValid(db, found.value, id, nota, OrNull(comentario), now);
    } else {
      assert out.db == db;
    }
  }

  lemma SetKeepsValid(db: Db, found: Review, id: int, nota: real, comentario: Option<string>, now: int)
    requires Valid(db) && found in db.reviews && found.id == id
    ensures Valid(UpdateNotaMedia(db.(reviews := SetReview(db.reviews, id, nota, comentario, now)), found.titleId, true))
  {
    var rs := SetReview(db.reviews, id, nota, comentario, now);
    SetFacts(db, found, id, nota, comentario, now);
    assert db.(reviews := rs, next := db.next.(reviews := db.next.reviews)) == db.(reviews := rs);
    ReviewWriteKeepsValid(db, rs, db.next.reviews, found.titleId);
  }

  /** Rewriting a stored review keeps reviews unique, referencing titles, below the counter, and other titles' reviews as they were. */
  lemma SetFacts(db: Db, found: Review, id: int, nota: real, comentario: Option<string>, now: int)
    requires Valid(db) && found in db.reviews && found.id == id
    ensures var rs := SetReview(db.reviews, id, nota, comentario, now);
      && ReviewsUnique(rs)
      && (forall i :: 0 <= i < |rs| ==> TitleExists(db.titles, rs[i].titleId) && rs[i].id < db.next.reviews)
      && (forall u :: u != found.titleId ==> ReviewsOf(rs, u) == ReviewsOf(db.reviews, u))
  {
    var rs := SetReview(db.reviews, id, nota, comentario, now);
    SetReviewOthers(db, found, id, rs);
    SetReviewUnique(db.reviews, id, nota, comentario, now);
    forall i | 0 <= i < |rs| ensures TitleExists(db.titles, rs[i].titleId) && rs[i].id < db.next.reviews {
      assert rs[i].titleId == db.reviews[i].titleId && rs[i].id == db.reviews[i].id;
    }
  }

  /** Rewriting rating, comment and time keeps every review's id, user and title. */
  lemma SetReviewUnique(rs: seq<Review>, id: int, nota: real, comentario: Option<string>, now: int)
    requires ReviewsUnique(rs)
    ensures ReviewsUnique(SetReview(rs, id, nota, comentario, now))
  {
    var r := SetReview(rs, id, nota, comentario, now);
    assert forall i :: 0 <= i < |r| ==>
      r[i].id == rs[i].id && r[i].titleId == rs[i].titleId && r[i].userId == rs[i].userId;
  }

  lemma RemoveOthers(db: Db, found: Review, id: int)
    requires ReviewsUnique(db.reviews) && found in db.reviews && found.id == id
    ensures forall u :: u != found.titleId ==> ReviewsOf(RemoveReview(db.reviews, id), u) == ReviewsOf(db.reviews, u)
  {
    forall u | u != found.titleId ensures ReviewsOf(RemoveReview(db.reviews, id), u) == ReviewsOf(db.reviews, u) {
      assert forall i :: 0 <= i < |db.reviews| && db.reviews[i].titleId == u ==> db.reviews[i].id != id;
      ReviewsOfRemoveOther(db.reviews, id, u);
    }
  }

  lemma DeleteReviewKeepsValid(db: Db, caller: int, id: int)
    requires Valid(db)
    ensures Valid(DeleteReview(db, caller, id, true).db)
  {
    var out := DeleteReview(db, caller, id, true);
    var found := FindOwned(db.reviews, id, caller);
    if found.Some? {
      var rs := RemoveReview(db.reviews, id);
      assert out.db == UpdateNotaMedia(db.(reviews := rs), found.value.titleId, true);
      RemoveKeepsValid(db, found.value, id);
    } else {
      assert out.db == db;
    }
  }

  lemma RemoveKeepsValid(db: Db, found: Review, id: int)
    requires Valid(db) && found in db.reviews && found.id == id
    ensures Valid(UpdateNotaMedia(db.(reviews := RemoveReview(db.reviews, id)), found.titleId, true))
  {
    var rs := RemoveReview(db.reviews, id);
    RemovedFacts(db, found, id);
    assert db.(reviews := rs, next := db.next.(reviews := db.next.reviews)) == db.(reviews := rs);
    ReviewWriteKeepsValid(db, rs, db.next.reviews, found.titleId);
  }

  /** Removing a stored review keeps the rest unique, referencing titles, below the counter, and other titles' reviews as they were. */
  lemma RemovedFacts(db: Db, found: Review, id: int)
    requires Valid(db) && found in db.reviews && found.id == id
    ensures var rs := RemoveReview(db.reviews, id);
      && ReviewsUnique(rs)
      && (forall i :: 0 <= i < |rs| ==> TitleExists(db.titles, rs[i].titleId) && rs[i].id < db.next.reviews)
      && (forall u :: u != found.titleId ==> ReviewsOf(rs, u) == ReviewsOf(db.reviews, u))
  {
    var rs := RemoveReview(db.reviews, id);
    RemoveOthers(db, found, id);
    RemoveReviewUnique(db.reviews, id);
    forall i | 0 <= i < |rs| ensures TitleExists(db.titles, rs[i].titleId) && rs[i].id < db.next.reviews {
      assert rs[i] in db.reviews;
      var k :| 0 <= k < |db.reviews| && db.reviews[k] == rs[i];
    }
  }

  /** Creating twice for the same (user, title) fails the second time and adds nothing. */
  lemma SecondCreateRejected(db: Db, caller: int, titleId: int, n1: real, c1: Field<string>,
                             n2: real, c2: Field<string>, now: int, ok: bool)
    requires CreateReview(db, caller, titleId, n1, c1, now, ok).status == 201
    ensures var db1 := CreateReview(db, caller, titleId, n1, c1, now, ok).db;
            var r2 := CreateReview(db1, caller, titleId, n2, c2, now, ok);
            r2.status == 400 && r2.db == db1
  {
    var db1 := CreateReview(db, caller, titleId, n1, c1, now, ok).db;
    assert db1.reviews[|db.reviews|].userId == caller;
  }

  /** One review on a fresh title makes its mean that review's rating and its count 1. */
  lemma SingleReviewAggregate(db: Db, caller: int, titleId: int, nota: real, comentario: Field<string>, now: int)
    requires TitleExists(db.titles, titleId) && !HasReview(db.reviews, caller, titleId)
    requires ReviewsOf(db.reviews, titleId) == []
    ensures var r := CreateReview(db, caller, titleId, nota, comentario, now, true);
            r.status == 201 &&
            forall i :: 0 <= i < |r.db.titles| && r.db.titles[i].id == titleId ==>
              r.db.titles[i].notaMedia == nota && r.db.titles[i].totalAvaliacoes == 1
  {
    var x := Review(db.next.reviews, caller, titleId, nota, OrNull(comentario), now, now);
    var rs := db.reviews + [x];
    var r := CreateReview(db, caller, titleId, nota, comentario, now, true);
    assert r.db.reviews == rs;
    assert ReviewsOf(rs, titleId) == [x] by {
      assert rs[..|db.reviews|] == db.reviews;
    }
    MeanOfOne(x);
    forall i | 0 <= i < |r.db.titles| && r.db.titles[i].id == titleId
      ensures r.db.titles[i].notaMedia == nota && r.db.titles[i].totalAvaliacoes == 1
    {
      assert Fresh(r.db.titles[i], rs);
    }
  }

  lemma MeanOfOne(x: Review)
    ensures MeanNota([x]) == x.nota
  {
    assert [x][..0] == [];
    assert SumNota([x]) == x.nota;
    assert (|[x]| as real) == 1.0;
  }
}

=== FILE: routes.dfy ===
/**
 * The mutating routes under backend/routes, each the chain of middleware
 * Express runs in front of its controller: `authenticateToken`, then
 * `requireAdmin` on catalogue routes, then the Joi validator where the route
 * has one, then the handler. A middleware that answers ends the chain.
 */
module Routes {
  import opened Common
  import opened Schema
  import opened Auth
  import opened Validation
  import Reviews
  import Watchlist
  import TitleWrites
  import Genres

  /** Everything a request depends on besides the database and its own fields. */
  datatype Env = Env(
    verify: string -> Option<int>,
    now: int,
    currentYear: int,
    isUri: string -> bool,
    recomputeOk: bool)

  /** The write requests, one per route. */
  datatype Request =
    | PostReview(body: Body)
    | PutReview(id: int, body: Body)
    | DeleteReview(id: int)
    | PostListEntry(animacaoId: Field<int>, status: Field<string>)
    | DeleteListEntry(titleId: int)
    | PostTitle(body: Body)
    | PutTitle(id: int, body: Body)
    | DeleteTitle(id: int)
    | PostGenre(nome: Field<string>, descricao: Field<string>, cor: Field<string>)

  /** Routes that carry `requireAdmin`. */
  predicate AdminOnly(req: Request) {
    req.PostTitle? || req.PutTitle? || req.DeleteTitle? || req.PostGenre?
  }

  /** What the route's validator accepts; routes without one accept everything. */
  predicate BodyOk(req: Request, env: Env) {
    match req
    case PostReview(body) => ReviewOk(body)
    case PutReview(_, body) => ReviewOk(body)
    case PostTitle(body) => TitleOk(body, env.currentYear, env.isUri)
    case PutTitle(_, body) => TitleOk(body, env.currentYear, env.isUri)
    case _ => true
  }

  /** The result of the middleware before the handler: a refusal, or the caller. */
  datatype Guarded = Stop(status: int) | Pass(user: User)

  /** `authenticateToken`, then `requireAdmin` when the route has it. */
  function Guard(db: Db, header: Option<string>, verify: string -> Option<int>, adminOnly: bool): (r: Guarded)
    ensures r.Pass? <==> (Authenticate(db, header, verify).Authed?
                          && (adminOnly ==> Authenticate(db, header, verify).user.role == "admin"))
    ensures r.Pass? ==> r.user == Authenticate(db, header, verify).user
    ensures Authenticate(db, header, verify).Denied? ==> r == Stop(Authenticate(db, header, verify).status)
    ensures Authenticate(db, header, verify).Authed? && r.Stop? ==> r.status == 403
  {
    match Authenticate(db, header, verify)
    case Denied(s) => Stop(s)
    case Authed(u) =>
      if adminOnly && RequireAdmin(u).Some? then Stop(RequireAdmin(u).value) else Pass(u)
  }

  /** The controller a request reaches once every middleware has let it through. */
  function Dispatch(db: Db, caller: User, req: Request, env: Env): (r: Outcome)
    requires BodyOk(req, env)
    ensures r.db.users == db.users
    ensures !AdminOnly(req) ==> r.db.genres == db.genres && r.db.links == db.links
  {
    match req
    case PostReview(body) =>
      var in_ := DecodeReview(body);
      Reviews.CreateReview(db, caller.id, in_.animacaoId, in_.nota, in_.comentario, env.now, env.recomputeOk)
    case PutReview(id, body) =>
      var in_ := DecodeReview(body);
      Reviews.UpdateReview(db, caller.id, id, in_.nota, in_.comentario, env.now, env.recomputeOk)
    case DeleteReview(id) =>
      Reviews.DeleteReview(db, caller.id, id, env.recomputeOk)
    case PostListEntry(animacaoId, status) =>
      Watchlist.AddToList(db, caller.id, animacaoId, status, env.now)
    case DeleteListEntry(titleId) =>
      Watchlist.RemoveFromList(db, caller.id, titleId)
    case PostTitle(body) =>
      var c := TitleWrites.CreateTitle(db, DecodeTitle(body, env.currentYear, env.isUri), env.now);
      Outcome(c.status, c.db)
    case PutTitle(id, body) =>
      TitleWrites.UpdateTitle(db, id, DecodeTitle(body, env.currentYear, env.isUri), env.now)
    case DeleteTitle(id) =>
      TitleWrites.DeleteTitle(db, id)
    case PostGenre(nome, descricao, cor) =>
      var c := Genres.CreateGenre(db, nome, descricao, cor);
      Outcome(c.status, c.db)
  }

  /**
   * One write request through its route. Authentication comes before the
   * admin check, and both before validation: a bad body from an
   * unauthenticated caller is a 401, not a 400.
   */
  function Handle(db: Db, header: Option<string>, req: Request, env: Env): (r: Outcome)
    ensures Guard(db, header, env.verify, AdminOnly(req)).Stop? ==>
              r == Outcome(Guard(db, header, env.verify, AdminOnly(req)).status, db)
    ensures Guard(db, header, env.verify, AdminOnly(req)).Pass? && !BodyOk(req, env) ==> r == Outcome(400, db)
    ensures r.db != db ==> Guard(db, header, env.verify, AdminOnly(req)).Pass? && BodyOk(req, env)
  {
    match Guard(db, header, env.verify, AdminOnly(req))
    case Stop(s) => Outcome(s, db)
    case Pass(u) =>
      match Check(BodyOk(req, env))
      case Reject(s) => Outcome(s, db)
      case Next => Dispatch(db, u, req, env)
  }

  /** Without a token no route gets past the first middleware. */
  lemma NoTokenNoChange(db: Db, header: Option<string>, req: Request, env: Env)
    requires ExtractToken(header).None?
    ensures Handle(db, header, req, env) == Outcome(401, db)
  {
  }

  /** An authenticated user whose role is not "admin" is refused every catalogue write. */
  lemma NonAdminCannotWriteCatalogue(db: Db, header: Option<string>, req: Request, env: Env)
    requires AdminOnly(req)
    requires Authenticate(db, header, env.verify).Authed?
    requires Authenticate(db, header, env.verify).user.role != "admin"
    ensures Handle(db, header, req, env) == Outcome(403, db)
  {
  }

  /**
   * A database change is made only for a request whose token names an
   * active user, who is an admin on catalogue routes and whose body passed
   * validation; the controller runs with that user as the caller.
   */
  lemma ChangesNeedActiveUser(db: Db, header: Option<string>, req: Request, env: Env)
    requires Handle(db, header, req, env).db != db
    ensures Authenticate(db, header, env.verify).Authed?
    ensures var u := Authenticate(db, header, env.verify).user;
      && u in db.users && u.ativo
      && u.id == env.verify(ExtractToken(header).value).value
      && (AdminOnly(req) ==> u.role == "admin")
      && BodyOk(req, env)
      && Handle(db, header, req, env) == Dispatch(db, u, req, env)
  {
  }

  /**
   * Every write route keeps the database's integrity: unique keys, ids
   * below their counters, references to existing titles, consistent
   * aggregates, and unique genre names.
   */
  lemma HandleKeepsValid(db: Db, header: Option<string>, req: Request, env: Env)
    requires Valid(db) && Genres.GenreNamesUnique(db.genres)
    requires env.recomputeOk
    ensures var r := Handle(db, header, req, env);
      Valid(r.db) && Genres.GenreNamesUnique(r.db.genres)
  {
    var g := Guard(db, header, env.verify, AdminOnly(req));
    if g.Pass? && BodyOk(req, env) {
      assert Handle(db, header, req, env) == Dispatch(db, g.user, req, env);
      DispatchKeepsValid(db, g.user, req, env);
    }
  }

  /** Each controller, reached with a valid body, keeps the database's integrity. */
  lemma DispatchKeepsValid(db: Db, u: User, req: Request, env: Env)
    requires Valid(db) && Genres.GenreNamesUnique(db.genres)
    requires env.recomputeOk && BodyOk(req, env)
    ensures var r := Dispatch(db, u, req, env);
      Valid(r.db) && Genres.GenreNamesUnique(r.db.genres)
  {
    match req
    case PostReview(body) =>
      var in_ := DecodeReview(body);
      Reviews.CreateReviewKeepsValid(db, u.id, in_.animacaoId, in_.nota, in_.comentario, env.now);
    case PutReview(id, body) =>
      var in_ := DecodeReview(body);
      Reviews.UpdateReviewKeepsValid(db, u.id, id, in_.nota, in_.comentario, env.now);
    case DeleteReview(id) =>
      Reviews.DeleteReviewKeepsValid(db, u.id, id);
    case PostListEntry(animacaoId, status) =>
      Watchlist.AddToListKeepsValid(db, u.id, animacaoId, status, env.now);
    case DeleteListEntry(titleId) =>
      Watchlist.RemoveKeepsValid(db, u.id, titleId);
    case PostTitle(body) =>
      TitleWrites.CreateTitleKeepsValid(db, DecodeTitle(body, env.currentYear, env.isUri), env.now);
    case PutTitle(id, body) =>
      TitleWrites.UpdateTitleKeepsValid(db, id, DecodeTitle(body, env.currentYear, env.isUri), env.now);
    case DeleteTitle(id) =>
      TitleWrites.DeleteTitleKeepsValid(db, id);
    case PostGenre(nome, descricao, cor) =>
      Genres.CreateGenreKeepsInvariants(db, nome, descricao, cor);
  }
}

=== FILE: schema.dfy ===
/**
 * The relational schema as immutable values: one sequence of rows per table
 * and the auto-increment counters. Table and column meanings:
 *   animacoes        -> Title      (with the aggregate columns nota_media, total_avaliacoes)
 *   generos          -> Genre
 *   animacao_generos -> Link
 *   usuarios + roles -> User       (role is the joined roles.nome)
 *   avaliacoes       -> Review
 *   lista_pessoal    -> ListEntry
 * Times are integers (seconds); the clock is a parameter of every handler.
 */
module Schema {
  import opened Common

  datatype Title = Title(
    id: int,
    titulo: string,
    tituloOriginal: Option<string>,
    sinopse: Option<string>,
    posterUrl: Option<string>,
    bannerUrl: Option<string>,
    anoLancamento: Option<int>,
    episodios: int,
    status: string,
    estudio: Option<string>,
    diretor: Option<string>,
    notaMedia: real,
    totalAvaliacoes: nat,
    createdAt: int,
    updatedAt: int)

  datatype Genre = Genre(id: int, nome: string, descricao: Option<string>, cor: string)

  datatype Link = Link(titleId: int, genreId: int)

  datatype User = User(
    id: int,
    nome: string,
    email: string,
    senhaHash: string,
    role: string,
    avatarUrl: Option<string>,
    ativo: bool,
    createdAt: int)

  datatype Review = Review(
    id: int,
    userId: int,
    titleId: int,
    nota: real,
    comentario: Option<string>,
    createdAt: int,
    updatedAt: int)

  /** The five values of the `lista_pessoal.status` column. */
  datatype ListStatus = Assistido | Desejado | Assistindo | Pausado | Abandonado

  datatype ListEntry = ListEntry(userId: int, titleId: int, status: ListStatus, createdAt: int, updatedAt: int)

  /** Next value of each table's AUTO_INCREMENT id. */
  datatype Counters = Counters(titles: int, genres: int, users: int, reviews: int)

  datatype Db = Db(
    titles: seq<Title>,
    genres: seq<Genre>,
    links: seq<Link>,
    users: seq<User>,
    reviews: seq<Review>,
    lista: seq<ListEntry>,
    next: Counters)

  /** HTTP status of a handler together with the database it leaves behind. */
  datatype Outcome = Outcome(status: int, db: Db)

  /** The answer of an insert handler: status, database, and the AUTO_INCREMENT id it used. */
  datatype Created = Created(status: int, db: Db, id: int)

  function ListStatusName(s: ListStatus): string {
    match s
    case Assistido => "assistido"
    case Desejado => "desejado"
    case Assistindo => "assistindo"
    case Pausado => "pausado"
    case Abandonado => "abandonado"
  }

  /** The `statusValidos.includes(status)` check, returning the enum value it names. */
  function ParseListStatus(x: string): (r: Option<ListStatus>)
    ensures r.Some? ==> ListStatusName(r.value) == x
  {
    if x == "assistido" then Some(Assistido)
    else if x == "desejado" then Some(Desejado)
    else if x == "assistindo" then Some(Assistindo)
    else if x == "pausado" then Some(Pausado)
    else if x == "abandonado" then Some(Abandonado)
    else None
  }

  /** Every enum value is accepted under its own name, so the two are inverse. */
  lemma ParseListStatusName(s: ListStatus)
    ensures ParseListStatus(ListStatusName(s)) == Some(s)
  {
  }

  /** The five status names, in the order the server lists them in its error message. */
  const ListStatusNames: seq<string> := ["assistido", "desejado", "assistindo", "pausado", "abandonado"]

  lemma ParseListStatusIffNamed(x: string)
    ensures ParseListStatus(x).Some? <==> x in ListStatusNames
  {
  }

  // ---------------------------------------------------------------- lookups

  predicate TitleExists(ts: seq<Title>, id: int) {
    exists i :: 0 <= i < |ts| && ts[i].id == id
  }

  predicate UserExists(us: seq<User>, id: int) {
    exists i :: 0 <= i < |us| && us[i].id == id
  }

  function FindTitle(ts: seq<Title>, id: int): (r: Option<Title>)
    ensures r.Some? <==> TitleExists(ts, id)
    ensures r.Some? ==> r.value in ts && r.value.id == id
  {
    if |ts| == 0 then None
    else if ts[0].id == id then Some(ts[0])
    else
      var r := FindTitle(ts[1..], id);
      assert TitleExists(ts[1..], id) ==> TitleExists(ts, id) by {
        if TitleExists(ts[1..], id) {
          var i :| 0 <= i < |ts[1..]| && ts[1..][i].id == id;
          assert ts[i + 1].id == id;
        }
      }
      r
  }

  /** The first active user `matches` accepts: `SELECT … WHERE … AND u.ativo = TRUE`, first row. */
  function FindActive(us: seq<User>, matches: User -> bool): (r: Option<User>)
    ensures r.Some? ==> r.value in us && matches(r.value) && r.value.ativo
    ensures r.None? <==> forall i :: 0 <= i < |us| ==> !(matches(us[i]) && us[i].ativo)
  {
    if |us| == 0 then None
    else if matches(us[0]) && us[0].ativo then Some(us[0])
    else
      var r := FindActive(us[1..], matches);
      assert forall i :: 1 <= i < |us| ==> us[i] == us[1..][i - 1];
      r
  }

  predicate GenreExists(gs: seq<Genre>, id: int) {
    exists i :: 0 <= i < |gs| && gs[i].id == id
  }

  // ------------------------------------------------------ review aggregates

  /** `SELECT … FROM avaliacoes WHERE animacao_id = t`, in table order. */
  function ReviewsOf(rs: seq<Review>, t: int): (r: seq<Review>)
    ensures |r| <= |rs|
    ensures forall x :: x in r <==> x in rs && x.titleId == t
  {
    if |rs| == 0 then []
    else
      var last := rs[|rs| - 1];
      var init := ReviewsOf(rs[..|rs| - 1], t);
      assert rs == rs[..|rs| - 1] + [last];
      if last.titleId == t then init + [last] else init
  }

  /** The reviews of `t` are as many as the rows whose `animacao_id` is `t`. */
  lemma {:induction false} ReviewsOfCount(rs: seq<Review>, t: int)
    ensures |ReviewsOf(rs, t)| == CountWhere(rs, (x: Review) => x.titleId == t)
  {
    if |rs| > 0 {
      var init := rs[..|rs| - 1];
      assert rs == init + [rs[|rs| - 1]];
      ReviewsOfCount(init, t);
      CountWhereSnoc(init, rs[|rs| - 1], (x: Review) => x.titleId == t);
    }
  }

  function SumNota(rs: seq<Review>): real {
    if |rs| == 0 then 0.0 else SumNota(rs[..|rs| - 1]) + rs[|rs| - 1].nota
  }

  /** `AVG(nota)`, with the empty average read as 0 (`media || 0`). */
  function MeanNota(rs: seq<Review>): real {
    if |rs| == 0 then 0.0 else SumNota(rs) / (|rs| as real)
  }

  /** A title's stored aggregates agree with its current reviews. */
  predicate Fresh(t: Title, rs: seq<Review>) {
    && t.totalAvaliacoes == |ReviewsOf(rs, t.id)|
    && t.notaMedia == MeanNota(ReviewsOf(rs, t.id))
  }

  predicate AggregatesConsistent(db: Db) {
    forall i :: 0 <= i < |db.titles| ==> Fresh(db.titles[i], db.reviews)
  }

  /** Rewrites the aggregate columns of every title with id `t` from `rs`. */
  function RecomputeTitles(ts: seq<Title>, rs: seq<Review>, t: int): (r: seq<Title>)
    ensures |r| == |ts|
    ensures forall i :: 0 <= i < |ts| && ts[i].id != t ==> r[i] == ts[i]
    ensures forall i :: 0 <= i < |ts| && ts[i].id == t ==>
              r[i] == ts[i].(notaMedia := MeanNota(ReviewsOf(rs, t)), totalAvaliacoes := |ReviewsOf(rs, t)|)
  {
    seq(|ts|, i requires 0 <= i < |ts| =>
      if ts[i].id == t
      then ts[i].(notaMedia := MeanNota(ReviewsOf(rs, t)), totalAvaliacoes := |ReviewsOf(rs, t)|)
      else ts[i])
  }

  /**
   * If a review change touched only title `t`'s reviews, recomputing `t`
   * restores consistency for every title.
   */
  lemma RecomputeRestores(ts: seq<Title>, rsOld: seq<Review>, rsNew: seq<Review>, t: int)
    requires forall i :: 0 <= i < |ts| ==> Fresh(ts[i], rsOld)
    requires forall u :: u != t ==> ReviewsOf(rsNew, u) == ReviewsOf(rsOld, u)
    ensures forall i :: 0 <= i < |ts| ==> Fresh(RecomputeTitles(ts, rsNew, t)[i], rsNew)
  {
    var r := RecomputeTitles(ts, rsNew, t);
    forall i | 0 <= i < |ts|
      ensures Fresh(r[i], rsNew)
    {
      if ts[i].id != t {
        assert ReviewsOf(rsNew, ts[i].id) == ReviewsOf(rsOld, ts[i].id);
      }
    }
  }

  // --------------------------------------------------------------- integrity

  /** At most one review per id and at most one per (user, title). */
  predicate ReviewsUnique(rs: seq<Review>) {
    forall i, j :: 0 <= i < j < |rs| ==>
      rs[i].id != rs[j].id && (rs[i].userId != rs[j].userId || rs[i].titleId != rs[j].titleId)
  }

  /** At most one list entry per (user, title): the table's unique key. */
  predicate ListKeysUnique(es: seq<ListEntry>) {
    forall i, j :: 0 <= i < j < |es| ==> es[i].userId != es[j].userId || es[i].titleId != es[j].titleId
  }

  predicate TitleIdsUnique(ts: seq<Title>) {
    forall i, j :: 0 <= i < j < |ts| ==> ts[i].id != ts[j].id
  }

  /** Every stored id is below its table's AUTO_INCREMENT counter. */
  predicate IdsBelowCounters(db: Db) {
    && (forall i :: 0 <= i < |db.titles| ==> db.titles[i].id < db.next.titles)
    && (forall i :: 0 <= i < |db.genres| ==> db.genres[i].id < db.next.genres)
    && (forall i :: 0 <= i < |db.users| ==> db.users[i].id < db.next.users)
    && (forall i :: 0 <= i < |db.reviews| ==> db.reviews[i].id < db.next.reviews)
  }

  /** Foreign keys into `animacoes`. */
  predicate ReferencesTitles(db: Db) {
    && (forall i :: 0 <= i < |db.reviews| ==> TitleExists(db.titles, db.reviews[i].titleId))
    && (forall i :: 0 <= i < |db.lista| ==> TitleExists(db.titles, db.lista[i].titleId))
    && (forall i :: 0 <= i < |db.links| ==> TitleExists(db.titles, db.links[i].titleId))
  }

  /** The invariants the review and list handlers maintain. */
  predicate Valid(db: Db) {
    && TitleIdsUnique(db.titles)
    && IdsBelowCounters(db)
    && ReferencesTitles(db)
    && ReviewsUnique(db.reviews)
    && ListKeysUnique(db.lista)
    && AggregatesConsistent(db)
  }
}

=== FILE: server.dfy ===
/**
 * The request pipeline of backend/server.js that is not a controller: the
 * CORS origin decision, the error handler, and the fallback for unmatched
 * routes. `NODE_ENV` is a parameter (None when unset).
 */
module Server {
  import opened Common
  import opened Text

  const BaseOrigins: seq<string> := ["http://localhost:3000", "http://localhost:5173", "https://animalist-frontend.vercel.app"]
  const LoopbackOrigins: seq<string> := ["http://127.0.0.1:3000", "http://127.0.0.1:5173"]

  /** The message of the error the CORS callback raises. */
  const CorsMessage := "Não permitido pelo CORS"

  predicate IsDevelopment(nodeEnv: Option<string>) {
    nodeEnv == Some("development")
  }

  predicate IsProduction(nodeEnv: Option<string>) {
    nodeEnv == Some("production")
  }

  /** `allowedOrigins` after the development-only push. */
  function AllowedOrigins(nodeEnv: Option<string>): (r: seq<string>)
    ensures forall o :: o in r <==> (o in BaseOrigins || (IsDevelopment(nodeEnv) && o in LoopbackOrigins))
  {
    if IsDevelopment(nodeEnv) then BaseOrigins + LoopbackOrigins else BaseOrigins
  }

  /** `Array.prototype.indexOf`: the first position holding `x`, or -1. */
  function IndexIn(xs: seq<string>, x: string): (r: int)
    ensures -1 <= r < |xs|
    ensures r == -1 <==> x !in xs
    ensures r >= 0 ==> xs[r] == x && x !in xs[..r]
  {
    if |xs| == 0 then -1
    else if xs[0] == x then 0
    else
      var k := IndexIn(xs[1..], x);
      assert xs == [xs[0]] + xs[1..];
      if k == -1 then -1
      else
        assert xs[..k + 1] == [xs[0]] + xs[1..][..k];
        k + 1
  }

  /** An `Error` value as the handlers see it: only its message is inspected. */
  datatype Error = Error(message: string)

  /**
   * `corsOptions.origin`: None when the request may proceed, otherwise the
   * error passed to the callback. A missing or empty Origin header is falsy
   * and is let through.
   */
  function CorsDecision(origin: Option<string>, nodeEnv: Option<string>): (r: Option<Error>)
    ensures r.None? <==> (|| origin.None? || origin.value == ""
                          || origin.value in BaseOrigins
                          || (IsDevelopment(nodeEnv) && origin.value in LoopbackOrigins))
    ensures r.Some? ==> r.value.message == CorsMessage
  {
    if origin.None? || origin.value == "" then None
    else if IndexIn(AllowedOrigins(nodeEnv), origin.value) != -1 then None
    else Some(Error(CorsMessage))
  }

  /** A JSON error reply: `{ error }`, and for the 404 fallback also `path` and `method` (here `verb`). */
  datatype Reply = Reply(status: int, error: string, path: Option<string>, verb: Option<string>)

  /** The error-handling middleware. */
  function HandleError(err: Error, nodeEnv: Option<string>): (r: Reply)
    ensures r.path.None? && r.verb.None?
    ensures r.status == 403 <==> err.message == CorsMessage
    ensures r.status == 403 ==> r.error == "CORS: Origem não permitida"
    ensures r.status != 403 ==> r.status == 500
    ensures r.status == 500 && IsProduction(nodeEnv) ==> r.error == "Erro interno do servidor"
    ensures r.status == 500 && !IsProduction(nodeEnv) ==> r.error == err.message
  {
    if err.message == CorsMessage then Reply(403, "CORS: Origem não permitida", None, None)
    else Reply(500, if IsProduction(nodeEnv) then "Erro interno do servidor" else err.message, None, None)
  }

  /** A request refused by the CORS check reaches the client as a 403. */
  lemma RejectedOriginIs403(origin: Option<string>, nodeEnv: Option<string>)
    requires CorsDecision(origin, nodeEnv).Some?
    ensures HandleError(CorsDecision(origin, nodeEnv).value, nodeEnv).status == 403
  {
  }

  /** The loopback origins are accepted in development and refused otherwise. */
  lemma LoopbackOnlyInDevelopment(nodeEnv: Option<string>)
    ensures CorsDecision(Some("http://127.0.0.1:5173"), nodeEnv).None? <==> IsDevelopment(nodeEnv)
  {
    assert "http://127.0.0.1:5173" in LoopbackOrigins;
    assert "http://127.0.0.1:5173" !in BaseOrigins by {
      assert "http://127.0.0.1:5173"[7] != BaseOrigins[0][7];
      assert "http://127.0.0.1:5173"[7] != BaseOrigins[1][7];
      assert "http://127.0.0.1:5173"[7] != BaseOrigins[2][7];
    }
  }

  // ------------------------------------------------------------- dispatch

  /** A route: its HTTP method and its path, split at '/'; a segment starting with ':' is a parameter. */
  datatype Route = Route(verb: string, pattern: seq<string>)

  predicate SegmentMatches(pattern: string, segment: string) {
    if |pattern| > 0 && pattern[0] == ':' then segment != "" else pattern == segment
  }

  predicate RouteMatches(route: Route, verb: string, segments: seq<string>) {
    && route.verb == verb
    && |route.pattern| == |segments|
    && forall i :: 0 <= i < |segments| ==> SegmentMatches(route.pattern[i], segments[i])
  }

  /** Where a request ends up: the first route that matches it, or the 404 reply. */
  datatype Dispatch = Handled(index: nat) | Unmatched(reply: Reply)

  /**
   * Express tries the routes in registration order and falls through to
   * `app.use("*")` when none matches, answering 404 with the original URL and
   * the method.
   */
  function Resolve(routes: seq<Route>, verb: string, path: string, originalUrl: string): (r: Dispatch)
    ensures r.Handled? ==> (&& r.index < |routes|
                            && RouteMatches(routes[r.index], verb, Split(path, '/'))
                            && forall j :: 0 <= j < r.index ==> !RouteMatches(routes[j], verb, Split(path, '/')))
    ensures r.Unmatched? <==> (forall j :: 0 <= j < |routes| ==> !RouteMatches(routes[j], verb, Split(path, '/')))
    ensures r.Unmatched? ==> r.reply == Reply(404, "Rota não encontrada", Some(originalUrl), Some(verb))
  {
    FirstMatch(routes, verb, Split(path, '/'), 0, originalUrl)
  }

  function FirstMatch(routes: seq<Route>, verb: string, segments: seq<string>, from: nat, originalUrl: string): (r: Dispatch)
    requires from <= |routes|
    requires forall j :: 0 <= j < from ==> !RouteMatches(routes[j], verb, segments)
    ensures r.Handled? ==> (&& from <= r.index < |routes|
                            && RouteMatches(routes[r.index], verb, segments)
                            && forall j :: 0 <= j < r.index ==> !RouteMatches(routes[j], verb, segments))
    ensures r.Unmatched? <==> (forall j :: 0 <= j < |routes| ==> !RouteMatches(routes[j], verb, segments))
    ensures r.Unmatched? ==> r.reply == Reply(404, "Rota não encontrada", Some(originalUrl), Some(verb))
    decreases |routes| - from
  {
    if from == |routes| then Unmatched(Reply(404, "Rota não encontrada", Some(originalUrl), Some(verb)))
    else if RouteMatches(routes[from], verb, segments) then Handled(from)
    else FirstMatch(routes, verb, segments, from + 1, originalUrl)
  }
}

=== FILE: session.dfy ===
/**
 * The browser session: frontend/src/contexts/AuthContext.jsx keeps the
 * signed-in user in memory and mirrors it, with the token, in local storage;
 * frontend/src/lib/api.js sends the token as a Bearer header and drops the
 * session on a 401; frontend/src/components/ProtectedRoute.jsx decides what a
 * guarded page shows.
 */
module Session {
  import opened Common
  import Auth

  /** The user object the server returns at login and registration. */
  datatype SessionUser = SessionUser(id: int, nome: string, email: string, role: string)

  /** The two local-storage keys, "token" and "user"; a stored user reads back as it was written. */
  datatype Storage = Storage(token: Option<string>, user: Option<SessionUser>)

  const Cleared: Storage := Storage(None, None)

  /** The context: the user in memory, the storage behind it, and whether the first read is pending. */
  datatype State = State(storage: Storage, user: Option<SessionUser>, loading: bool)

  /** A stored token counts only when it is a non-empty string. */
  predicate HasToken(st: Storage) {
    st.token.Some? && st.token.value != ""
  }

  /** The mount effect: restore the stored user only when a token is stored too, then stop loading. */
  function Mount(st: Storage): (s: State)
    ensures !s.loading && s.storage == st
    ensures s.user.Some? <==> HasToken(st) && st.user.Some?
    ensures s.user.Some? ==> s.user == st.user
  {
    State(st, if HasToken(st) && st.user.Some? then st.user else None, false)
  }

  predicate IsAuthenticated(s: State) {
    s.user.Some?
  }

  /** `user?.role === "admin"`. */
  predicate IsAdmin(s: State) {
    s.user.Some? && s.user.value.role == "admin"
  }

  /**
   * The answer of `/auth/login` or `/auth/register`: the token and user, or
   * a failure with its HTTP status (0 when no response arrived) and the
   * server's `error` message.
   */
  datatype ApiResult = Ok(token: string, user: SessionUser) | Fail(status: int, error: Option<string>)

  /** What `login` and `register` return to the page. */
  datatype Outcome = Outcome(success: bool, error: Option<string>)

  const LoginFailed: string := "Erro ao fazer login"
  const RegisterFailed: string := "Erro ao criar conta"

  /**
   * The common body of `login` and `register`: on success store the token and
   * the user and sign the user in; on failure the response interceptor has
   * already run (a 401 removes both stored keys), the user in memory stays,
   * and the page gets the server's message or the fallback.
   */
  function SignIn(s: State, res: ApiResult, fallback: string): (r: (State, Outcome))
    ensures r.1.success <==> res.Ok?
    ensures res.Ok? ==> r.0 == s.(storage := Storage(Some(res.token), Some(res.user)), user := Some(res.user))
    ensures res.Ok? ==> r.1.error.None?
    ensures res.Fail? ==> r.0.user == s.user && r.0.loading == s.loading
    ensures res.Fail? && res.status == 401 ==> r.0.storage == Cleared
    ensures res.Fail? && res.status != 401 ==> r.0.storage == s.storage
    ensures res.Fail? ==> r.1.error == Some(if res.error.Some? && res.error.value != "" then res.error.value else fallback)
  {
    match res
    case Ok(token, user) => (s.(storage := Storage(Some(token), Some(user)), user := Some(user)), Outcome(true, None))
    case Fail(status, e) =>
      (s.(storage := OnError(s.storage, status)), Outcome(false, Some(if e.Some? && e.value != "" then e.value else fallback)))
  }

  function Login(s: State, res: ApiResult): (r: (State, Outcome))
    ensures r.1.success <==> IsAuthenticated(r.0) && res.Ok?
    ensures res.Ok? ==> r.0.storage == Storage(Some(res.token), Some(res.user)) && r.0.user == Some(res.user)
    ensures res.Fail? ==> r.1.error == Some(if res.error.Some? && res.error.value != "" then res.error.value else LoginFailed)
    ensures res.Fail? ==> r.0.storage == OnError(s.storage, res.status) && r.0.user == s.user
  {
    SignIn(s, res, LoginFailed)
  }

  function Register(s: State, res: ApiResult): (r: (State, Outcome))
    ensures r.1.success <==> IsAuthenticated(r.0) && res.Ok?
    ensures res.Ok? ==> r.0.storage == Storage(Some(res.token), Some(res.user)) && r.0.user == Some(res.user)
    ensures res.Fail? ==> r.1.error == Some(if res.error.Some? && res.error.value != "" then res.error.value else RegisterFailed)
    ensures res.Fail? ==> r.0.storage == OnError(s.storage, res.status) && r.0.user == s.user
  {
    SignIn(s, res, RegisterFailed)
  }

  /**
   * A login refused with 401 signs the visitor out for good: the
   * interceptor's redirect reloads the page, and the reload finds nobody
   * signed in, whoever was signed in before.
   */
  lemma RejectedLoginSignsOut(s: State, e: Option<string>, adminOnly: bool)
    ensures var after := Login(s, Fail(401, e)).0;
      !IsAuthenticated(Mount(after.storage)) && Guard(Mount(after.storage), adminOnly) == Redirect("/login")
  {
  }

  /** Any other failure, such as a 409 at registration, leaves a stored session as it was. */
  lemma OtherFailureKeepsSession(s: State, status: int, e: Option<string>)
    requires status != 401
    ensures Mount(Register(s, Fail(status, e)).0.storage) == Mount(s.storage)
  {
  }

  /** `logout`: both keys removed and nobody signed in. */
  function Logout(s: State): (r: State)
    ensures r.storage == Cleared && !IsAuthenticated(r) && r.loading == s.loading
  {
    s.(storage := Cleared, user := None)
  }

  /** A successful sign-in survives a reload: mounting on the new storage restores the same user. */
  lemma SignInPersists(s: State, token: string, user: SessionUser, fallback: string)
    requires token != ""
    ensures var after := SignIn(s, Ok(token, user), fallback).0;
      Mount(after.storage).user == after.user == Some(user)
  {
  }

  /** After logging out, a reload finds nobody signed in. */
  lemma LogoutPersists(s: State)
    ensures !IsAuthenticated(Mount(Logout(s).storage))
  {
  }

  /** The request interceptor: a stored non-empty token goes out as `Bearer <token>`. */
  function AuthHeader(st: Storage): (r: Option<string>)
    ensures r.Some? <==> HasToken(st)
    ensures r.Some? ==> r.value == "Bearer " + st.token.value
  {
    if HasToken(st) then Some("Bearer " + st.token.value) else None
  }

  /** The header the client sends carries back, for the server, exactly the stored token. */
  lemma HeaderCarriesToken(st: Storage)
    requires HasToken(st) && ' ' !in st.token.value
    ensures Auth.ExtractToken(AuthHeader(st)) == st.token
  {
    Auth.BearerRoundTrip(st.token.value);
  }

  /** Without a stored token no header is sent, and the server answers 401. */
  lemma NoTokenNoHeader(st: Storage)
    requires !HasToken(st)
    ensures Auth.ExtractToken(AuthHeader(st)).None?
  {
  }

  /** The response interceptor: a 401 removes both keys; other statuses leave storage alone. */
  function OnError(st: Storage, status: int): (r: Storage)
    ensures status == 401 ==> r == Cleared
    ensures status != 401 ==> r == st
  {
    if status == 401 then Cleared else st
  }

  // ------------------------------------------------------- guarded pages

  /** What a guarded route renders. */
  datatype View = Spinner | Redirect(to: string) | Children

  /** `ProtectedRoute`: a spinner while loading, then /login without a user, / for a non-admin on an admin page. */
  function Guard(s: State, adminOnly: bool): (v: View)
    ensures v == Spinner <==> s.loading
    ensures v == Redirect("/login") <==> !s.loading && !IsAuthenticated(s)
    ensures v == Redirect("/") <==> !s.loading && IsAuthenticated(s) && adminOnly && !IsAdmin(s)
    ensures v == Children <==> !s.loading && IsAuthenticated(s) && (!adminOnly || IsAdmin(s))
  {
    if s.loading then Spinner
    else if !IsAuthenticated(s) then Redirect("/login")
    else if adminOnly && !IsAdmin(s) then Redirect("/")
    else Children
  }

  /** A page that is not admin-only never looks at the role. */
  lemma RoleIgnoredOffAdminPages(s: State, role: string)
    requires s.user.Some?
    ensures Guard(s, false) == Guard(s.(user := Some(s.user.value.(role := role))), false)
  {
  }

  /** After a 401 and the reload it triggers, every guarded page sends the visitor to /login. */
  lemma UnauthorizedLeadsToLogin(st: Storage, adminOnly: bool)
    ensures Guard(Mount(OnError(st, 401)), adminOnly) == Redirect("/login")
  {
  }
}

=== FILE: sql_like.dfy ===
/**
 * MySQL's `LIKE` as the catalogue search uses it: the pattern is the user's
 * text wrapped in `%…%`, so a `%` or `_` the user types is itself a
 * wildcard and `\` escapes the character after it. Case and accent folding
 * by the column's collation is not part of this model.
 */
module SqlLike {
  import opened Text

  /** The characters `LIKE` does not read literally. */
  predicate Wild(c: char) {
    c == '%' || c == '_' || c == '\\'
  }

  /** A pattern with no wildcard and no escape. */
  predicate Literal(p: string) {
    forall i :: 0 <= i < |p| ==> !Wild(p[i])
  }

  /**
   * `text LIKE pat`: `%` matches any run of characters, `_` exactly one,
   * `\c` the character c, and a trailing `\` itself.
   */
  predicate Like(text: string, pat: string)
    decreases |text| + |pat|
  {
    if |pat| == 0 then |text| == 0
    else if pat[0] == '%' then Like(text, pat[1..]) || (|text| > 0 && Like(text[1..], pat))
    else if pat[0] == '_' then |text| > 0 && Like(text[1..], pat[1..])
    else if pat[0] == '\\' && |pat| > 1 then |text| > 0 && text[0] == pat[1] && Like(text[1..], pat[2..])
    else |text| > 0 && text[0] == pat[0] && Like(text[1..], pat[1..])
  }

  /** `%${search}%`, the pattern the handler binds. */
  function Surround(search: string): (p: string)
    ensures |p| == |search| + 2 && p[0] == '%' && p[|p| - 1] == '%'
    ensures p[1..|p| - 1] == search
  {
    "%" + search + "%"
  }

  /** A lone `%` matches every text. */
  lemma {:induction false} PercentMatchesAll(t: string)
    ensures Like(t, "%")
  {
    if |t| > 0 {
      PercentMatchesAll(t[1..]);
    }
  }

  /** A literal followed by `%` matches exactly the texts that start with it. */
  lemma {:induction false} LiteralPrefix(u: string, s: string)
    requires Literal(s)
    ensures Like(u, s + "%") <==> StartsWith(u, s)
  {
    if |s| == 0 {
      assert s + "%" == "%";
      PercentMatchesAll(u);
    } else {
      assert (s + "%")[0] == s[0];
      assert (s + "%")[1..] == s[1..] + "%";
      if |u| > 0 {
        LiteralPrefix(u[1..], s[1..]);
        assert StartsWith(u, s) <==> u[0] == s[0] && StartsWith(u[1..], s[1..]) by {
          if |s| <= |u| {
            assert u[..|s|] == [u[0]] + u[1..][..|s| - 1];
            assert s == [s[0]] + s[1..];
          }
        }
      }
    }
  }

  /** A leading `%` tries the rest of the pattern at every starting point. */
  lemma {:induction false} LeadingPercent(t: string, q: string)
    ensures Like(t, "%" + q) <==> exists k :: 0 <= k <= |t| && Like(t[k..], q)
  {
    assert ("%" + q)[0] == '%' && ("%" + q)[1..] == q;
    if |t| == 0 {
      assert t[0..] == t;
    } else {
      LeadingPercent(t[1..], q);
      if exists k :: 0 <= k <= |t| && Like(t[k..], q) {
        var k :| 0 <= k <= |t| && Like(t[k..], q);
        if k > 0 {
          assert t[1..][k - 1..] == t[k..];
        } else {
          assert t[0..] == t;
        }
      }
      if exists k :: 0 <= k <= |t[1..]| && Like(t[1..][k..], q) {
        var k :| 0 <= k <= |t[1..]| && Like(t[1..][k..], q);
        assert t[1..][k..] == t[k + 1..];
      }
      if Like(t, q) {
        assert t[0..] == t;
      }
    }
  }

  /** A search without wildcards or escapes selects exactly the texts containing it. */
  lemma LiteralSearchIsSubstring(t: string, s: string)
    requires Literal(s)
    ensures Like(t, Surround(s)) <==> Contains(t, s)
  {
    assert Surround(s) == "%" + (s + "%");
    LeadingPercent(t, s + "%");
    if Contains(t, s) {
      var i :| 0 <= i <= |t| - |s| && StartsWith(t[i..], s);
      LiteralPrefix(t[i..], s);
    }
    if exists k :: 0 <= k <= |t| && Like(t[k..], s + "%") {
      var k :| 0 <= k <= |t| && Like(t[k..], s + "%");
      LiteralPrefix(t[k..], s);
    }
  }

  /** `_` is a wildcard: searching for it selects every non-empty text. */
  lemma UnderscoreMatchesAny(t: string)
    ensures Like(t, Surround("_")) <==> |t| > 0
  {
    assert Surround("_") == "%" + "_%";
    LeadingPercent(t, "_%");
    if |t| > 0 {
      assert ("_%")[0] == '_' && ("_%")[1..] == "%";
      PercentMatchesAll(t[1..]);
      assert t[0..] == t;
    }
  }

  /** An escaped `_` is read literally: `\_` selects only texts holding an underscore. */
  lemma EscapedUnderscoreLiteral(t: string)
    requires '_' !in t
    ensures !Like(t, Surround("\\_"))
  {
    assert Surround("\\_") == "%" + "\\_%";
    LeadingPercent(t, "\\_%");
  }
}

=== FILE: stars.dfy ===
/**
 * The five-star widget, frontend/src/components/RatingStars.jsx: the stars
 * filled up to the hovered star, or up to the rating when nothing is hovered,
 * and the clicks and hovers it accepts unless it is read-only.
 */
module Stars {
  import opened Common

  /** What the parent passes: the rating shown, whether a change handler exists, and read-only mode. */
  datatype Props = Props(rating: real, hasHandler: bool, readonly: bool)

  /** `hoverRating || rating`: a hovered star wins, 0 means nothing is hovered. */
  function Effective(hover: int, rating: real): real {
    if hover != 0 then hover as real else rating
  }

  /** The five stars, star k at index k - 1, filled when the effective rating reaches k. */
  function Filled(hover: int, rating: real): (r: seq<bool>)
    ensures |r| == 5
    ensures forall i :: 0 <= i < 5 ==> (r[i] <==> Effective(hover, rating) >= (i + 1) as real)
  {
    seq(5, i requires 0 <= i < 5 => Effective(hover, rating) >= (i + 1) as real)
  }

  /** Filled stars form a prefix: a filled star has every star before it filled. */
  lemma FilledPrefix(hover: int, rating: real, i: nat, j: nat)
    requires i < j < 5 && Filled(hover, rating)[j]
    ensures Filled(hover, rating)[i]
  {
  }

  function CountTrue(bs: seq<bool>): (n: nat)
    ensures n <= |bs|
  {
    if |bs| == 0 then 0 else (if bs[0] then 1 else 0) + CountTrue(bs[1..])
  }

  function Bit(b: bool): nat {
    if b then 1 else 0
  }

  lemma CountFive(r: seq<bool>)
    requires |r| == 5
    ensures CountTrue(r) == Bit(r[0]) + Bit(r[1]) + Bit(r[2]) + Bit(r[3]) + Bit(r[4])
  {
    assert CountTrue(r[4..]) == Bit(r[4]) by {
      assert r[4..][1..] == [];
    }
    assert CountTrue(r[3..]) == Bit(r[3]) + CountTrue(r[4..]) by {
      assert r[3..][1..] == r[4..];
    }
    assert CountTrue(r[2..]) == Bit(r[2]) + CountTrue(r[3..]) by {
      assert r[2..][1..] == r[3..];
    }
    assert CountTrue(r[1..]) == Bit(r[1]) + CountTrue(r[2..]) by {
      assert r[1..][1..] == r[2..];
    }
  }

  /** The number of filled stars is the effective rating rounded down, kept within 0..5. */
  lemma FilledCount(hover: int, rating: real)
    ensures CountTrue(Filled(hover, rating)) == Max(0, Min(5, Effective(hover, rating).Floor))
  {
    var r := Filled(hover, rating);
    CountFive(r);
    assert r[0] == (Effective(hover, rating) >= 1.0);
    assert r[4] == (Effective(hover, rating) >= 5.0);
  }

  /** The mouse and click events on star k, and leaving a star. */
  datatype Event = Enter(star: int) | Leave | Click(star: int)

  /** The hover state after an event, and the value reported to the handler if any. */
  datatype Reaction = Reaction(hover: int, reported: Option<int>)

  /**
   * `handleMouseEnter`, `handleMouseLeave` and `handleClick`: in read-only mode
   * nothing changes and nothing is reported; a click reports its star only
   * when a handler exists.
   */
  function React(p: Props, hover: int, e: Event): (r: Reaction)
    ensures p.readonly ==> r == Reaction(hover, None)
    ensures !p.readonly && e.Enter? ==> r == Reaction(e.star, None)
    ensures !p.readonly && e.Leave? ==> r == Reaction(0, None)
    ensures e.Click? ==> r.hover == hover && (r.reported.Some? <==> !p.readonly && p.hasHandler)
    ensures r.reported.Some? ==> e.Click? && r.reported.value == e.star
  {
    match e
    case Enter(k) => if p.readonly then Reaction(hover, None) else Reaction(k, None)
    case Leave => if p.readonly then Reaction(hover, None) else Reaction(0, None)
    case Click(k) => Reaction(hover, if !p.readonly && p.hasHandler then Some(k) else None)
  }

  /** Hovering star k previews exactly k filled stars, whatever the rating. */
  lemma HoverPreview(p: Props, hover: int, k: int)
    requires !p.readonly && 1 <= k <= 5
    ensures var h := React(p, hover, Enter(k)).hover;
      forall i :: 0 <= i < 5 ==> (Filled(h, p.rating)[i] <==> i < k)
  {
  }

  /** Leaving the stars shows the rating again. */
  lemma LeaveRestoresRating(p: Props, hover: int)
    requires !p.readonly
    ensures Filled(React(p, hover, Leave).hover, p.rating) == Filled(0, p.rating)
  {
  }

  /** The hover values and the reports after a sequence of events. */
  function Run(p: Props, hover: int, es: seq<Event>): (r: (int, seq<int>))
    decreases |es|
  {
    if |es| == 0 then (hover, [])
    else
      var first := React(p, hover, es[0]);
      var rest := Run(p, first.hover, es[1..]);
      (rest.0, (if first.reported.Some? then [first.reported.value] else []) + rest.1)
  }

  /**
   * A read-only widget never changes what it shows and never calls the
   * handler: after any events it still shows the rating.
   */
  lemma {:induction false} ReadonlyInert(p: Props, es: seq<Event>)
    requires p.readonly
    ensures Run(p, 0, es).0 == 0 && Run(p, 0, es).1 == []
    decreases |es|
  {
    if |es| > 0 {
      ReadonlyInert(p, es[1..]);
      var first := React(p, 0, es[0]);
      assert first == Reaction(0, None);
      var rest := Run(p, first.hover, es[1..]);
      assert Run(p, 0, es) == (rest.0, [] + rest.1);
    }
  }

  /** Every reported value is the star of a click among the events. */
  lemma {:induction false} ReportsAreClicks(p: Props, hover: int, es: seq<Event>)
    ensures forall v :: v in Run(p, hover, es).1 ==> Click(v) in es
    decreases |es|
  {
    if |es| > 0 {
      var first := React(p, hover, es[0]);
      ReportsAreClicks(p, first.hover, es[1..]);
      forall v | v in Run(p, hover, es).1 ensures Click(v) in es {
        if v !in Run(p, first.hover, es[1..]).1 {
          assert es[0] == Click(v);
        } else {
          assert Click(v) in es[1..];
        }
      }
    }
  }
}

=== FILE: stats.dfy ===
/**
 * The admin dashboard, backend/controllers/statsController.js. `now` is the
 * database clock in seconds and `monthAgo` the instant one calendar month
 * earlier (`DATE_SUB(NOW(), INTERVAL 1 MONTH)`), whose distance from `now`
 * depends on the calendar and is left to the caller.
 */
module Stats {
  import opened Common
  import opened Schema
  import opened Ranking
  import opened Reviews
  import opened Catalog
  import TitleWrites

  const Day: int := 86400
  const WeekSeconds: int := 7 * Day

  /** A non-empty comment written at or after `since`. */
  predicate PendingComment(r: Review, since: int) {
    r.comentario.Some? && r.comentario.value != "" && r.createdAt >= since
  }

  datatype Totals = Totals(animacoes: nat, usuarios: nat, avaliacoes: nat, comentariosPendentes: nat)

  datatype Growth = Growth(animacoesMes: nat, usuariosMes: nat, avaliacoesMes: nat)

  /** A user with the number of reviews they wrote. */
  datatype UserCount = UserCount(user: User, reviews: nat)

  /** A genre with the number of links that name it. */
  datatype GenreCount = GenreCount(genre: Genre, titles: nat)

  datatype Dashboard = Dashboard(
    totals: Totals,
    growth: Growth,
    topAnimacoes: seq<Title>,
    usuariosAtivos: seq<UserCount>,
    generoStats: seq<GenreCount>,
    ultimasAvaliacoes: seq<Review>)

  function ReviewsBy(rs: seq<Review>, user: int): nat {
    CountWhere(rs, (x: Review) => x.userId == user)
  }

  function EntriesBy(lista: seq<ListEntry>, user: int): nat {
    CountWhere(lista, (e: ListEntry) => e.userId == user)
  }

  function ActiveCount(users: seq<User>): nat {
    CountWhere(users, (u: User) => u.ativo)
  }

  function LinksTo(links: seq<Link>, genre: int): nat {
    CountWhere(links, (l: Link) => l.genreId == genre)
  }

  function ComputeTotals(db: Db, now: int): (r: Totals)
    ensures r.animacoes == |db.titles|
    ensures r.usuarios == ActiveCount(db.users)
    ensures r.avaliacoes == |db.reviews|
    ensures r.comentariosPendentes == CountWhere(db.reviews, (x: Review) => PendingComment(x, now - 7 * 86400))
    ensures r.comentariosPendentes <= r.avaliacoes && r.usuarios <= |db.users|
  {
    Totals(|db.titles|, ActiveCount(db.users), |db.reviews|,
           CountWhere(db.reviews, (x: Review) => PendingComment(x, now - WeekSeconds)))
  }

  function ComputeGrowth(db: Db, monthAgo: int): (r: Growth)
    ensures r.animacoesMes == CountWhere(db.titles, (t: Title) => t.createdAt >= monthAgo)
    ensures r.usuariosMes == CountWhere(db.users, (u: User) => u.createdAt >= monthAgo && u.ativo)
    ensures r.avaliacoesMes == CountWhere(db.reviews, (x: Review) => x.createdAt >= monthAgo)
    ensures r.animacoesMes <= |db.titles| && r.usuariosMes <= |db.users| && r.avaliacoesMes <= |db.reviews|
  {
    Growth(CountWhere(db.titles, (t: Title) => t.createdAt >= monthAgo),
           CountWhere(db.users, (u: User) => u.createdAt >= monthAgo && u.ativo),
           CountWhere(db.reviews, (x: Review) => x.createdAt >= monthAgo))
  }

  function BestRated(t: Title): Key {
    Key(t.notaMedia, t.totalAvaliacoes as real)
  }

  /** `WHERE total_avaliacoes > 0 ORDER BY nota_media DESC, total_avaliacoes DESC LIMIT 5`. */
  function TopTitles(db: Db): (r: seq<Title>)
    ensures |r| == Min(5, CountWhere(db.titles, (t: Title) => t.totalAvaliacoes > 0))
    ensures multiset(r) <= multiset(db.titles)
    ensures forall i :: 0 <= i < |r| ==> r[i] in db.titles && r[i].totalAvaliacoes > 0
    ensures SortedDesc(r, BestRated)
    ensures forall t, i :: t in db.titles && t.totalAvaliacoes > 0 && t !in r && 0 <= i < |r| ==>
              AtLeast(BestRated(r[i]), BestRated(t))
  {
    var rated := Filter(db.titles, (t: Title) => t.totalAvaliacoes > 0);
    FilterSubMultiset(db.titles, (t: Title) => t.totalAvaliacoes > 0);
    Top(rated, BestRated, 5)
  }

  function MostReviews(c: UserCount): Key {
    ByOne(c.reviews as real)
  }

  function ActiveUserCounts(db: Db): (r: seq<UserCount>)
    ensures |r| == ActiveCount(db.users)
    ensures forall i :: 0 <= i < |r| ==> r[i].user in db.users && r[i].user.ativo
                                         && r[i].reviews == ReviewsBy(db.reviews, r[i].user.id)
    ensures forall u :: u in db.users && u.ativo ==> UserCount(u, ReviewsBy(db.reviews, u.id)) in r
  {
    var active := Filter(db.users, (u: User) => u.ativo);
    var r := seq(|active|, i requires 0 <= i < |active| => UserCount(active[i], ReviewsBy(db.reviews, active[i].id)));
    assert forall u :: u in db.users && u.ativo ==> UserCount(u, ReviewsBy(db.reviews, u.id)) in r by {
      forall u | u in db.users && u.ativo ensures UserCount(u, ReviewsBy(db.reviews, u.id)) in r {
        var i :| 0 <= i < |active| && active[i] == u;
        assert r[i] == UserCount(u, ReviewsBy(db.reviews, u.id));
      }
    }
    r
  }

  /** `WHERE u.ativo = TRUE ORDER BY total_avaliacoes DESC LIMIT 5`. */
  function MostActiveUsers(db: Db): (r: seq<UserCount>)
    ensures |r| == Min(5, ActiveCount(db.users))
    ensures multiset(r) <= multiset(ActiveUserCounts(db))
    ensures forall i :: 0 <= i < |r| ==> r[i].user in db.users && r[i].user.ativo
                                         && r[i].reviews == ReviewsBy(db.reviews, r[i].user.id)
    ensures forall i, j :: 0 <= i < j < |r| ==> r[i].reviews >= r[j].reviews
    ensures forall u, i :: u in db.users && u.ativo && UserCount(u, ReviewsBy(db.reviews, u.id)) !in r && 0 <= i < |r| ==>
              r[i].reviews >= ReviewsBy(db.reviews, u.id)
  {
    var r := Top(ActiveUserCounts(db), MostReviews, 5);
    MostActiveFacts(db, r);
    r
  }

  lemma MostActiveFacts(db: Db, r: seq<UserCount>)
    requires r == Top(ActiveUserCounts(db), MostReviews, 5)
    ensures forall i, j :: 0 <= i < j < |r| ==> r[i].reviews >= r[j].reviews
    ensures forall u, i :: u in db.users && u.ativo && UserCount(u, ReviewsBy(db.reviews, u.id)) !in r && 0 <= i < |r| ==>
              r[i].reviews >= ReviewsBy(db.reviews, u.id)
  {
    assert forall i, j :: 0 <= i < j < |r| ==> AtLeast(MostReviews(r[i]), MostReviews(r[j]));
    forall u, i | u in db.users && u.ativo && UserCount(u, ReviewsBy(db.reviews, u.id)) !in r && 0 <= i < |r|
      ensures r[i].reviews >= ReviewsBy(db.reviews, u.id)
    {
      var x := UserCount(u, ReviewsBy(db.reviews, u.id));
      assert AtLeast(MostReviews(r[i]), MostReviews(x));
    }
  }

  function MostTitles(c: GenreCount): Key {
    ByOne(c.titles as real)
  }

  function GenreCounts(db: Db): (r: seq<GenreCount>)
    ensures |r| == |db.genres|
    ensures forall i :: 0 <= i < |r| ==> r[i] == GenreCount(db.genres[i], LinksTo(db.links, db.genres[i].id))
  {
    seq(|db.genres|, i requires 0 <= i < |db.genres| => GenreCount(db.genres[i], LinksTo(db.links, db.genres[i].id)))
  }

  /**
   * `generos LEFT JOIN animacao_generos … ORDER BY total DESC LIMIT 8`:
   * a genre without titles takes part with a count of 0.
   */
  function GenreRanking(db: Db): (r: seq<GenreCount>)
    ensures |r| == Min(8, |db.genres|)
    ensures multiset(r) <= multiset(GenreCounts(db))
    ensures forall i :: 0 <= i < |r| ==> r[i].genre in db.genres && r[i].titles == LinksTo(db.links, r[i].genre.id)
    ensures forall i, j :: 0 <= i < j < |r| ==> r[i].titles >= r[j].titles
    ensures forall g, i :: g in db.genres && GenreCount(g, LinksTo(db.links, g.id)) !in r && 0 <= i < |r| ==>
              r[i].titles >= LinksTo(db.links, g.id)
  {
    var r := Top(GenreCounts(db), MostTitles, 8);
    RankedByTitles(r);
    CutGenresRankLower(db, r);
    r
  }

  /** Rows sorted by the ranking key are sorted by title count. */
  lemma RankedByTitles(r: seq<GenreCount>)
    requires SortedDesc(r, MostTitles)
    ensures forall i, j :: 0 <= i < j < |r| ==> r[i].titles >= r[j].titles
  {
    forall i, j | 0 <= i < j < |r| ensures r[i].titles >= r[j].titles {
      assert AtLeast(MostTitles(r[i]), MostTitles(r[j]));
    }
  }

  /** A genre left out of the eight has no more titles than any genre shown. */
  lemma CutGenresRankLower(db: Db, r: seq<GenreCount>)
    requires r == Top(GenreCounts(db), MostTitles, 8)
    ensures forall g, i :: g in db.genres && GenreCount(g, LinksTo(db.links, g.id)) !in r && 0 <= i < |r| ==>
              r[i].titles >= LinksTo(db.links, g.id)
  {
    GenreCountsCover(db);
    forall g, i | g in db.genres && GenreCount(g, LinksTo(db.links, g.id)) !in r && 0 <= i < |r|
      ensures r[i].titles >= LinksTo(db.links, g.id)
    {
      var x := GenreCount(g, LinksTo(db.links, g.id));
      assert AtLeast(MostTitles(r[i]), MostTitles(x));
    }
  }

  /** Every genre has its row in the counts. */
  lemma GenreCountsCover(db: Db)
    ensures forall g :: g in db.genres ==> GenreCount(g, LinksTo(db.links, g.id)) in GenreCounts(db)
  {
    var rows := GenreCounts(db);
    forall g | g in db.genres ensures GenreCount(g, LinksTo(db.links, g.id)) in rows {
      var i :| 0 <= i < |db.genres| && db.genres[i] == g;
      assert rows[i] == GenreCount(g, LinksTo(db.links, g.id));
    }
  }

  /** `avaliacoes JOIN usuarios JOIN animacoes ORDER BY created_at DESC LIMIT 10`. */
  function LatestReviews(db: Db): (r: seq<Review>)
    ensures |r| == Min(10, CountWhere(db.reviews, (x: Review) => Joined(db, x)))
    ensures multiset(r) <= multiset(db.reviews)
    ensures forall i :: 0 <= i < |r| ==>
              r[i] in db.reviews && UserExists(db.users, r[i].userId) && TitleExists(db.titles, r[i].titleId)
    ensures forall i, j :: 0 <= i < j < |r| ==> r[i].createdAt >= r[j].createdAt
    ensures forall x, i :: x in db.reviews && Joined(db, x) && x !in r && 0 <= i < |r| ==> r[i].createdAt >= x.createdAt
  {
    var joined := Filter(db.reviews, (x: Review) => Joined(db, x));
    FilterSubMultiset(db.reviews, (x: Review) => Joined(db, x));
    var r := Top(joined, NewestFirst, 10);
    NewestFirstFacts(joined, r);
    r
  }

  /** A newest-first cut of `xs`, read on the creation instant. */
  lemma NewestFirstFacts(xs: seq<Review>, r: seq<Review>)
    requires SortedDesc(r, NewestFirst)
    requires forall x, i :: x in xs && x !in r && 0 <= i < |r| ==> AtLeast(NewestFirst(r[i]), NewestFirst(x))
    ensures forall i, j :: 0 <= i < j < |r| ==> r[i].createdAt >= r[j].createdAt
    ensures forall x, i :: x in xs && x !in r && 0 <= i < |r| ==> r[i].createdAt >= x.createdAt
  {
    forall i, j | 0 <= i < j < |r| ensures r[i].createdAt >= r[j].createdAt {
      assert AtLeast(NewestFirst(r[i]), NewestFirst(r[j]));
    }
    forall x, i | x in xs && x !in r && 0 <= i < |r| ensures r[i].createdAt >= x.createdAt {
      assert AtLeast(NewestFirst(r[i]), NewestFirst(x));
    }
  }

  /** The review survives both inner joins: its author and its title exist. */
  predicate Joined(db: Db, x: Review) {
    UserExists(db.users, x.userId) && TitleExists(db.titles, x.titleId)
  }

  /** `getDashboardStats`. */
  function DashboardStats(db: Db, now: int, monthAgo: int): (r: Dashboard)
    ensures r.totals == ComputeTotals(db, now) && r.growth == ComputeGrowth(db, monthAgo)
    ensures r.topAnimacoes == TopTitles(db) && r.usuariosAtivos == MostActiveUsers(db)
    ensures r.generoStats == GenreRanking(db) && r.ultimasAvaliacoes == LatestReviews(db)
  {
    Dashboard(ComputeTotals(db, now), ComputeGrowth(db, monthAgo), TopTitles(db), MostActiveUsers(db),
              GenreRanking(db), LatestReviews(db))
  }

  /** A rated title whose mean beats every other rated title's heads the ranking. */
  lemma HighestMeanFirst(db: Db, t: Title)
    requires t in db.titles && t.totalAvaliacoes > 0
    requires forall u :: u in db.titles && u.totalAvaliacoes > 0 && u != t ==> t.notaMedia > u.notaMedia
    ensures |TopTitles(db)| > 0 && TopTitles(db)[0] == t
  {
    RatedCounted(db.titles, t);
    HeadOfTop(db, t, TopTitles(db));
  }

  /** Some rated title means some rated title is counted. */
  lemma RatedCounted(titles: seq<Title>, t: Title)
    requires t in titles && t.totalAvaliacoes > 0
    ensures CountWhere(titles, (u: Title) => u.totalAvaliacoes > 0) > 0
  {
    assert t in Filter(titles, (u: Title) => u.totalAvaliacoes > 0);
  }

  /** The head of a ranking drawn from the rated titles, when one title strictly leads. */
  lemma HeadOfTop(db: Db, t: Title, r: seq<Title>)
    requires t in db.titles && t.totalAvaliacoes > 0 && |r| > 0
    requires forall u :: u in db.titles && u.totalAvaliacoes > 0 && u != t ==> t.notaMedia > u.notaMedia
    requires forall i :: 0 <= i < |r| ==> r[i] in db.titles && r[i].totalAvaliacoes > 0
    requires SortedDesc(r, BestRated)
    requires forall u, i :: u in db.titles && u.totalAvaliacoes > 0 && u !in r && 0 <= i < |r| ==>
               AtLeast(BestRated(r[i]), BestRated(u))
    ensures r[0] == t
  {
  }

  // -------------------------------------------------------- recent users

  /** A user with their own review and list-entry counts. */
  datatype RecentUser = RecentUser(user: User, reviews: nat, listEntries: nat)

  function Newcomer(u: User): Key {
    ByOne(u.createdAt as real)
  }

  /**
   * `getUsuariosRecentes`: active users newest first, `limit` of them (10
   * when the parameter is absent). A negative LIMIT is a database error
   * (None, the 500 answer).
   */
  function RecentUsers(db: Db, limitParam: Option<int>): (r: Option<seq<RecentUser>>)
    ensures var limit := if limitParam.Some? then limitParam.value else 10;
      && (r.Some? <==> limit >= 0)
      && (r.Some? ==> |r.value| == Min(limit, ActiveCount(db.users)))
    ensures r.Some? ==> forall i :: 0 <= i < |r.value| ==>
              && r.value[i].user in db.users && r.value[i].user.ativo
              && r.value[i].reviews == ReviewsBy(db.reviews, r.value[i].user.id)
              && r.value[i].listEntries == EntriesBy(db.lista, r.value[i].user.id)
    ensures r.Some? ==> forall i, j :: 0 <= i < j < |r.value| ==> r.value[i].user.createdAt >= r.value[j].user.createdAt
    ensures var limit := if limitParam.Some? then limitParam.value else 10;
      r.Some? ==> forall i :: 0 <= i < |r.value| ==> r.value[i].user == NewestActive(db, limit)[i]
  {
    var limit := if limitParam.Some? then limitParam.value else 10;
    if limit < 0 then None
    else
      Some(Activity(db, NewestActive(db, limit)))
  }

  /** Each user's row, in order: their review count and list-entry count. */
  function Activity(db: Db, us: seq<User>): (r: seq<RecentUser>)
    ensures |r| == |us|
    ensures forall i :: 0 <= i < |us| ==> r[i] == RecentUser(us[i], ReviewsBy(db.reviews, us[i].id), EntriesBy(db.lista, us[i].id))
  {
    if |us| == 0 then []
    else [RecentUser(us[0], ReviewsBy(db.reviews, us[0].id), EntriesBy(db.lista, us[0].id))] + Activity(db, us[1..])
  }

  /** `WHERE u.ativo = TRUE ORDER BY u.created_at DESC LIMIT limit`. */
  function NewestActive(db: Db, limit: nat): (r: seq<User>)
    ensures |r| == Min(limit, ActiveCount(db.users))
    ensures multiset(r) <= multiset(db.users)
    ensures forall i :: 0 <= i < |r| ==> r[i] in db.users && r[i].ativo
    ensures forall i, j :: 0 <= i < j < |r| ==> r[i].createdAt >= r[j].createdAt
    ensures forall u, i :: u in db.users && u.ativo && u !in r && 0 <= i < |r| ==> r[i].createdAt >= u.createdAt
  {
    var active := Filter(db.users, (u: User) => u.ativo);
    FilterSubMultiset(db.users, (u: User) => u.ativo);
    var top := Top(active, Newcomer, limit);
    NewcomerFacts(active, top);
    top
  }

  /** A newest-first cut of users, read on the sign-up instant. */
  lemma NewcomerFacts(xs: seq<User>, r: seq<User>)
    requires SortedDesc(r, Newcomer)
    requires forall u, i :: u in xs && u !in r && 0 <= i < |r| ==> AtLeast(Newcomer(r[i]), Newcomer(u))
    ensures forall i, j :: 0 <= i < j < |r| ==> r[i].createdAt >= r[j].createdAt
    ensures forall u, i :: u in xs && u !in r && 0 <= i < |r| ==> r[i].createdAt >= u.createdAt
  {
    forall i, j | 0 <= i < j < |r| ensures r[i].createdAt >= r[j].createdAt {
      assert AtLeast(Newcomer(r[i]), Newcomer(r[j]));
    }
    forall u, i | u in xs && u !in r && 0 <= i < |r| ensures r[i].createdAt >= u.createdAt {
      assert AtLeast(Newcomer(r[i]), Newcomer(u));
    }
  }

  // ------------------------------------------- how the counters move

  /**
   * A posted review is counted: one more review in total, one more in the
   * month (it is dated `now`), and one more comment awaiting moderation
   * exactly when it carries a non-empty comment.
   */
  lemma ReviewMovesDashboard(db: Db, caller: int, titleId: int, nota: real, comentario: Field<string>,
                             now: int, recomputeOk: bool, monthAgo: int)
    requires CreateReview(db, caller, titleId, nota, comentario, now, recomputeOk).status == 201
    requires monthAgo <= now
    ensures var after := CreateReview(db, caller, titleId, nota, comentario, now, recomputeOk).db;
      && ComputeTotals(after, now).avaliacoes == ComputeTotals(db, now).avaliacoes + 1
      && ComputeGrowth(after, monthAgo).avaliacoesMes == ComputeGrowth(db, monthAgo).avaliacoesMes + 1
      && ComputeTotals(after, now).comentariosPendentes
           == ComputeTotals(db, now).comentariosPendentes + (if comentario.Present? && comentario.value != "" then 1 else 0)
      && ComputeTotals(after, now).animacoes == ComputeTotals(db, now).animacoes
      && ComputeTotals(after, now).usuarios == ComputeTotals(db, now).usuarios
  {
    var x := Review(db.next.reviews, caller, titleId, nota, OrNull(comentario), now, now);
    CountWhereSnoc(db.reviews, x, (x: Review) => x.createdAt >= monthAgo);
    CountWhereSnoc(db.reviews, x, (x: Review) => PendingComment(x, now - WeekSeconds));
  }

  /** A new title is counted once in the total and once in the month. */
  lemma TitleMovesDashboard(db: Db, in_: TitleWrites.TitleInput, now: int, monthAgo: int)
    requires monthAgo <= now
    ensures var after := TitleWrites.CreateTitle(db, in_, now).db;
      && ComputeTotals(after, now).animacoes == ComputeTotals(db, now).animacoes + 1
      && ComputeGrowth(after, monthAgo).animacoesMes == ComputeGrowth(db, monthAgo).animacoesMes + 1
      && ComputeTotals(after, now).avaliacoes == ComputeTotals(db, now).avaliacoes
      && ComputeTotals(after, now).usuarios == ComputeTotals(db, now).usuarios
  {
    var t := TitleWrites.NewTitle(db.next.titles, in_, now);
    CountWhereSnoc(db.titles, t, (t: Title) => t.createdAt >= monthAgo);
  }

  /**
   * Deleting a title takes its reviews with it: the review total drops by
   * exactly the number of reviews the title had, and the title total by
   * the number of rows carrying its id.
   */
  lemma DeleteMovesDashboard(db: Db, id: int, now: int)
    ensures var after := TitleWrites.DeleteTitle(db, id).db;
      && ComputeTotals(after, now).avaliacoes == ComputeTotals(db, now).avaliacoes - |ReviewsOf(db.reviews, id)|
      && ComputeTotals(after, now).animacoes == ComputeTotals(db, now).animacoes - CountWhere(db.titles, (t: Title) => t.id == id)
      && ComputeTotals(after, now).usuarios == ComputeTotals(db, now).usuarios
  {
    CountWhereSplit(db.reviews, (x: Review) => x.titleId != id, (x: Review) => x.titleId == id);
    ReviewsOfCount(db.reviews, id);
    CountWhereSplit(db.titles, (t: Title) => t.id != id, (t: Title) => t.id == id);
  }
}

=== FILE: text.dfy ===
/**
 * The string operations the application relies on, with JavaScript's
 * meaning: `String.prototype.trim`, `split` on a one-character separator,
 * `includes`, and lower-casing (ASCII letters only).
 */
module Text {

  /** The characters `String.prototype.trim` removes (WhiteSpace and LineTerminator). */
  predicate IsSpace(c: char) {
    || ('\t' <= c <= '\r') || c == ' ' || c == '\U{00A0}' || c == '\U{1680}'
    || ('\U{2000}' <= c <= '\U{200A}') || c == '\U{2028}' || c == '\U{2029}'
    || c == '\U{202F}' || c == '\U{205F}' || c == '\U{3000}' || c == '\U{FEFF}'
  }

  predicate IsBlank(s: string) {
    forall i :: 0 <= i < |s| ==> IsSpace(s[i])
  }

  /** The first index at or after `i` that is not white space, or `|s|`. */
  function SkipSpace(s: string, i: nat): (r: nat)
    requires i <= |s|
    ensures i <= r <= |s|
    ensures forall j :: i <= j < r ==> IsSpace(s[j])
    ensures r < |s| ==> !IsSpace(s[r])
    decreases |s| - i
  {
    if i < |s| && IsSpace(s[i]) then SkipSpace(s, i + 1) else i
  }

  /** The last index at or below `j`, and above `lo`, that ends white space: everything from it up to `j` is white space. */
  function SkipSpaceBack(s: string, lo: nat, j: nat): (r: nat)
    requires lo <= j <= |s|
    ensures lo <= r <= j
    ensures forall m :: r <= m < j ==> IsSpace(s[m])
    ensures r > lo ==> !IsSpace(s[r - 1])
    decreases j
  {
    if j > lo && IsSpace(s[j - 1]) then SkipSpaceBack(s, lo, j - 1) else j
  }

  /** Number of white-space characters at the front of `s`. */
  function LeadingSpace(s: string): (k: nat)
    ensures k <= |s|
  {
    SkipSpace(s, 0)
  }

  /** `s.trim()`: a contiguous slice of `s` with no surrounding white space. */
  function Trim(s: string): (r: string)
    ensures r == "" || (!IsSpace(r[0]) && !IsSpace(r[|r| - 1]))
    ensures LeadingSpace(s) + |r| <= |s| && r == s[LeadingSpace(s)..LeadingSpace(s) + |r|]
    ensures IsBlank(s[..LeadingSpace(s)]) && IsBlank(s[LeadingSpace(s) + |r|..])
  {
    var a := SkipSpace(s, 0);
    var b := SkipSpaceBack(s, a, |s|);
    BlankSlice(s, 0, a);
    BlankSlice(s, b, |s|);
    assert s[..a] == s[0..a] && s[b..] == s[b..|s|];
    var r := s[a..b];
    assert r != "" ==> r[0] == s[a] && r[|r| - 1] == s[b - 1];
    r
  }

  lemma BlankSlice(s: string, lo: nat, hi: nat)
    requires lo <= hi <= |s|
    requires forall j :: lo <= j < hi ==> IsSpace(s[j])
    ensures IsBlank(s[lo..hi])
  {
    forall m | 0 <= m < hi - lo ensures IsSpace(s[lo..hi][m]) {
      assert s[lo..hi][m] == s[lo + m];
    }
  }

  /** A string trims to "" exactly when it is all white space. */
  lemma TrimEmptyIffBlank(s: string)
    ensures Trim(s) == "" <==> IsBlank(s)
  {
    var k := LeadingSpace(s);
    if Trim(s) == "" {
      assert s == s[..k] + s[k..];
    } else {
      assert Trim(s)[0] == s[k];
    }
  }

  /** Trimming a string without surrounding white space leaves it unchanged. */
  lemma TrimIdentity(s: string)
    requires s == "" || (!IsSpace(s[0]) && !IsSpace(s[|s| - 1]))
    ensures Trim(s) == s
  {
  }

  /** Trimming only removes characters, so a character absent before is absent after. */
  lemma TrimKeepsOut(s: string, c: char)
    requires c !in s
    ensures c !in Trim(s)
  {
    var r := Trim(s);
    var k := LeadingSpace(s);
    forall j | 0 <= j < |r| ensures r[j] != c {
      assert r[j] == s[k + j];
    }
  }

  /** A leading white-space character is dropped by trimming. */
  lemma TrimPadded(c: char, s: string)
    requires IsSpace(c) && s != "" && !IsSpace(s[0]) && !IsSpace(s[|s| - 1])
    ensures Trim([c] + s) == s
  {
    var t := [c] + s;
    assert t[1..] == s;
    assert LeadingSpace(t) == 1;
  }

  function ToLowerChar(c: char): char {
    if 'A' <= c <= 'Z' then (c as int + 32) as char else c
  }

  function ToLower(s: string): (r: string)
    ensures |r| == |s|
    ensures forall i :: 0 <= i < |s| ==> r[i] == ToLowerChar(s[i])
  {
    seq(|s|, i requires 0 <= i < |s| => ToLowerChar(s[i]))
  }

  predicate StartsWith(s: string, p: string) {
    |p| <= |s| && s[..|p|] == p
  }

  /** `s.includes(sub)`. */
  predicate Contains(s: string, sub: string) {
    exists i :: 0 <= i <= |s| - |sub| && StartsWith(s[i..], sub)
  }

  lemma ContainsItself(s: string)
    ensures Contains(s, s)
  {
    assert StartsWith(s[0..], s);
  }

  /** Index of the first `sep` in `s`. */
  function IndexOf(s: string, sep: char): (i: nat)
    requires sep in s
    ensures i < |s| && s[i] == sep && sep !in s[..i]
  {
    if s[0] == sep then 0 else 1 + IndexOf(s[1..], sep)
  }

  /**
   * `s.split(sep)`: the maximal separator-free pieces, including empty ones
   * at the ends and between adjacent separators.
   */
  function Split(s: string, sep: char): (r: seq<string>)
    ensures |r| >= 1
    ensures forall k :: 0 <= k < |r| ==> sep !in r[k]
    ensures |r| == 1 <==> sep !in s
    decreases |s|
  {
    if sep !in s then [s]
    else
      var i := IndexOf(s, sep);
      [s[..i]] + Split(s[i + 1..], sep)
  }

  /** `parts.join(sep)`. */
  function Join(parts: seq<string>, sep: char): string
  {
    if |parts| == 0 then ""
    else if |parts| == 1 then parts[0]
    else parts[0] + [sep] + Join(parts[1..], sep)
  }

  /** Splitting loses nothing: joining the pieces back gives the original string. */
  lemma {:induction false} JoinSplit(s: string, sep: char)
    ensures Join(Split(s, sep), sep) == s
    decreases |s|
  {
    if sep in s {
      var i := IndexOf(s, sep);
      var rest := Split(s[i + 1..], sep);
      JoinCons(s[..i], rest, sep);
      JoinSplit(s[i + 1..], sep);
      SplitAround(s, i);
    }
  }

  /** A string is what comes before index `i`, the character at `i`, and what comes after. */
  lemma SplitAround(s: string, i: nat)
    requires i < |s|
    ensures s == s[..i] + [s[i]] + s[i + 1..]
  {
    var t := s[..i] + [s[i]] + s[i + 1..];
    assert |t| == |s|;
    forall j | 0 <= j < |s| ensures t[j] == s[j] {
      if j < i {
        assert t[j] == s[..i][j];
      } else if j > i {
        assert t[j] == s[i + 1..][j - i - 1];
      }
    }
  }

  lemma JoinCons(p: string, rest: seq<string>, sep: char)
    requires |rest| >= 1
    ensures Join([p] + rest, sep) == p + [sep] + Join(rest, sep)
  {
    var parts := [p] + rest;
    assert parts[0] == p && parts[1..] == rest;
  }

  lemma SplitCons(p: string, t: string, sep: char)
    requires sep !in p
    ensures Split(p + [sep] + t, sep) == [p] + Split(t, sep)
  {
    var s := p + [sep] + t;
    assert s[|p|] == sep;
    var i := IndexOf(s, sep);
    assert s[..|p|] == p;
    assert s[i + 1..] == t;
  }

  /** Splitting a join of separator-free pieces gives the pieces back. */
  lemma {:induction false} SplitJoin(parts: seq<string>, sep: char)
    requires |parts| >= 1
    requires forall k :: 0 <= k < |parts| ==> sep !in parts[k]
    ensures Split(Join(parts, sep), sep) == parts
  {
    if |parts| > 1 {
      SplitJoin(parts[1..], sep);
      SplitCons(parts[0], Join(parts[1..], sep), sep);
      assert parts == [parts[0]] + parts[1..];
    }
  }

  predicate IsDigit(c: char) {
    '0' <= c <= '9'
  }

  function DigitChar(d: nat): (c: char)
    requires d < 10
    ensures IsDigit(c) && DigitValue(c) == d
  {
    ('0' as int + d) as char
  }

  /** `String(n)` for a non-negative integer: its decimal digits, no leading zero. */
  function NatToString(n: nat): (r: string)
    ensures r != "" && forall i :: 0 <= i < |r| ==> IsDigit(r[i])
    ensures |r| > 1 ==> r[0] != '0'
  {
    if n < 10 then [DigitChar(n)] else NatToString(n / 10) + [DigitChar(n % 10)]
  }

  /** The number a string of decimal digits denotes. */
  function DigitsValue(s: string): nat
    requires forall i :: 0 <= i < |s| ==> IsDigit(s[i])
  {
    if s == "" then 0 else DigitsValue(s[..|s| - 1]) * 10 + DigitValue(s[|s| - 1])
  }

  function DigitValue(c: char): nat
    requires IsDigit(c)
  {
    c as int - '0' as int
  }

  /** Reading the digits back gives the number written. */
  lemma {:induction false} NatToStringValue(n: nat)
    ensures DigitsValue(NatToString(n)) == n
  {
    if n >= 10 {
      NatToStringValue(n / 10);
      var r := NatToString(n);
      assert r[..|r| - 1] == NatToString(n / 10);
    }
  }
}

=== FILE: title_form.dfy ===
/**
 * The two title forms of the admin screens:
 * frontend/src/components/GerenciarAnimacoesModal.jsx (create and edit, with
 * per-field messages and a trimming save) and
 * frontend/src/components/novaAnimacaoModal.jsx (create only, two checks,
 * no trimming). Both share the genre toggle.
 */
module TitleForm {
  import opened Common
  import opened Text
  import opened Schema

  /** The text of a number input: empty, or the integer typed into it. */
  datatype NumText = Empty | Num(n: int)

  /** The form state; every text input holds a string, `generos` the selected genre ids. */
  datatype Form = Form(
    titulo: string,
    tituloOriginal: string,
    sinopse: string,
    posterUrl: string,
    bannerUrl: string,
    ano: NumText,
    episodios: NumText,
    status: string,
    estudio: string,
    diretor: string,
    generos: seq<int>)

  // ------------------------------------------------------------ genres

  predicate Distinct(xs: seq<int>) {
    forall i, j :: 0 <= i < j < |xs| ==> xs[i] != xs[j]
  }

  /** `handleGeneroToggle`: drop every occurrence of the id if it is selected, append it otherwise. */
  function Toggle(gs: seq<int>, id: int): (r: seq<int>)
    ensures id in r <==> id !in gs
    ensures forall x :: x != id ==> (x in r <==> x in gs)
    ensures id !in gs ==> r == gs + [id]
  {
    if id in gs then Filter(gs, (x: int) => x != id) else gs + [id]
  }

  /** Selecting a genre and deselecting it again restores the selection exactly. */
  lemma ToggleTwice(gs: seq<int>, id: int)
    requires id !in gs
    ensures Toggle(Toggle(gs, id), id) == gs
  {
    var p := (x: int) => x != id;
    FilterAppend(gs, [id], p);
    FilterKeepsAll(gs, p);
    assert Filter([id], p) == [];
  }

  /** A selection without repeats stays without repeats. */
  lemma ToggleKeepsDistinct(gs: seq<int>, id: int)
    requires Distinct(gs)
    ensures Distinct(Toggle(gs, id))
  {
    if id in gs {
      FilterPairwise(gs, (x: int) => x != id, (a: int, b: int) => a != b);
    }
  }

  // --------------------------------------------------- the admin modal

  /** The default status on create, and what an empty status is sent as. */
  const DefaultStatus: string := "Finalizado"

  const TitleRequired: string := "Título é obrigatório"
  const GenreRequired: string := "Selecione pelo menos um gênero"
  const EpisodesMessage: string := "Número de episódios deve ser maior que 0"

  /** The form `handleCreate` opens: this year, one episode, finished, nothing else. */
  function NewForm(currentYear: nat): (f: Form)
    ensures f.ano == Num(currentYear) && f.episodios == Num(1) && f.status == DefaultStatus
    ensures f.titulo == "" && f.generos == []
  {
    Form("", "", "", "", "", Num(currentYear), Num(1), DefaultStatus, "", "", [])
  }

  /** `x || ""` on an optional column. */
  function TextOf(x: Option<string>): string {
    if x.Some? then x.value else ""
  }

  /** `x ? String(x) : ""`: a missing or zero number leaves the input empty. */
  function NumTextOf(x: Option<int>): (r: NumText)
    ensures r.Num? <==> x.Some? && x.value != 0
  {
    if x.Some? && x.value != 0 then Num(x.value) else Empty
  }

  /** The form `handleEdit` opens for a stored title and its genre ids. */
  function EditForm(t: Title, genreIds: seq<int>): (r: Form)
    ensures r.titulo == t.titulo && r.status == t.status && r.generos == genreIds
    ensures r.sinopse == "" <==> t.sinopse.None? || t.sinopse.value == ""
    ensures r.ano.Num? <==> t.anoLancamento.Some? && t.anoLancamento.value != 0
    ensures r.episodios.Num? <==> t.episodios != 0
    ensures r.episodios.Num? ==> r.episodios.n == t.episodios
  {
    Form(t.titulo, TextOf(t.tituloOriginal), TextOf(t.sinopse), TextOf(t.posterUrl), TextOf(t.bannerUrl),
         NumTextOf(t.anoLancamento), NumTextOf(Some(t.episodios)), t.status,
         TextOf(t.estudio), TextOf(t.diretor), genreIds)
  }

  /** The year check: an empty input passes, a number must lie in [1900, currentYear + 5]. */
  predicate YearOk(t: NumText, currentYear: nat) {
    t.Empty? || 1900 <= t.n <= currentYear + 5
  }

  predicate EpisodesOk(t: NumText) {
    t.Empty? || t.n >= 1
  }

  /** The body the forms send. */
  datatype Payload = Payload(
    titulo: string,
    tituloOriginal: Option<string>,
    sinopse: Option<string>,
    posterUrl: Option<string>,
    bannerUrl: Option<string>,
    ano: Option<int>,
    episodios: Option<int>,
    status: string,
    estudio: Option<string>,
    diretor: Option<string>,
    generos: seq<int>)

  /** A save either stops with a message before any request or sends a payload. */
  datatype Save = Alert(message: string) | Send(payload: Payload)

  /** `s?.trim() || null`. */
  function TrimOrNull(s: string): (r: Option<string>)
    ensures r.Some? <==> !IsBlank(s)
    ensures r.Some? ==> r.value == Trim(s) && r.value != ""
  {
    TrimEmptyIffBlank(s);
    if Trim(s) == "" then None else Some(Trim(s))
  }

  /** `x ? parseInt(x) : null`. */
  function NumOrNull(t: NumText): (r: Option<int>)
    ensures r.Some? <==> t.Num?
    ensures r.Some? ==> r.value == t.n
  {
    if t.Num? then Some(t.n) else None
  }

  function YearAlert(currentYear: nat): string {
    "Ano de lançamento deve estar entre 1900 e " + NatToString(currentYear + 5)
  }

  predicate NonZero(id: int) {
    id != 0
  }

  /** The payload `handleSave` builds: trimmed strings with "" as null, numbers parsed, zero genre ids dropped. */
  function AdminPayload(f: Form): (p: Payload)
    ensures p.titulo == Trim(f.titulo)
    ensures p.tituloOriginal == TrimOrNull(f.tituloOriginal) && p.sinopse == TrimOrNull(f.sinopse)
    ensures p.posterUrl == TrimOrNull(f.posterUrl) && p.bannerUrl == TrimOrNull(f.bannerUrl)
    ensures p.estudio == TrimOrNull(f.estudio) && p.diretor == TrimOrNull(f.diretor)
    ensures p.ano == NumOrNull(f.ano) && p.episodios == NumOrNull(f.episodios)
    ensures p.status == (if f.status == "" then DefaultStatus else f.status)
    ensures p.generos == Filter(f.generos, NonZero)
  {
    Payload(Trim(f.titulo), TrimOrNull(f.tituloOriginal), TrimOrNull(f.sinopse),
            TrimOrNull(f.posterUrl), TrimOrNull(f.bannerUrl), NumOrNull(f.ano), NumOrNull(f.episodios),
            if f.status == "" then DefaultStatus else f.status,
            TrimOrNull(f.estudio), TrimOrNull(f.diretor), Filter(f.generos, NonZero))
  }

  predicate HasNonZero(gs: seq<int>) {
    exists i :: 0 <= i < |gs| && NonZero(gs[i])
  }

  /** Some id is non-zero exactly when dropping the zero ids leaves something. */
  lemma NonZeroKept(gs: seq<int>)
    ensures HasNonZero(gs) <==> Filter(gs, NonZero) != []
  {
    var kept := Filter(gs, NonZero);
    if HasNonZero(gs) {
      var i :| 0 <= i < |gs| && NonZero(gs[i]);
      assert gs[i] in gs;
    }
    if kept != [] {
      assert NonZero(kept[0]) && kept[0] in gs;
    }
  }

  /**
   * The first check of `handleSave` that fails, in the order the modal makes
   * them: blank title, no genre selected, year out of range, episodes below
   * one, and no non-zero genre id left after filtering.
   */
  function FirstProblem(f: Form, currentYear: nat): (r: Option<string>)
    ensures r.None? <==>
      !IsBlank(f.titulo) && YearOk(f.ano, currentYear) && EpisodesOk(f.episodios) && HasNonZero(f.generos)
    ensures IsBlank(f.titulo) ==> r == Some(TitleRequired)
    ensures !IsBlank(f.titulo) && f.generos == [] ==> r == Some(GenreRequired)
    ensures !IsBlank(f.titulo) && f.generos != [] && !YearOk(f.ano, currentYear) ==> r == Some(YearAlert(currentYear))
    ensures (!IsBlank(f.titulo) && f.generos != [] && YearOk(f.ano, currentYear) && !EpisodesOk(f.episodios))
              ==> r == Some(EpisodesMessage)
    ensures (!IsBlank(f.titulo) && YearOk(f.ano, currentYear) && EpisodesOk(f.episodios) && !HasNonZero(f.generos))
              ==> r == Some(GenreRequired)
  {
    TrimEmptyIffBlank(f.titulo);
    NonZeroKept(f.generos);
    if Trim(f.titulo) == "" then Some(TitleRequired)
    else if |f.generos| == 0 then Some(GenreRequired)
    else if !YearOk(f.ano, currentYear) then Some(YearAlert(currentYear))
    else if !EpisodesOk(f.episodios) then Some(EpisodesMessage)
    else if Filter(f.generos, NonZero) == [] then Some(GenreRequired)
    else None
  }

  /** `handleSave`: an alert for the first failing check, otherwise the payload, with a non-blank title and some genre. */
  function AdminSave(f: Form, currentYear: nat): (r: Save)
    ensures r.Send? <==> FirstProblem(f, currentYear).None?
    ensures r.Alert? ==> r.message == FirstProblem(f, currentYear).value
    ensures r.Send? ==> r.payload == AdminPayload(f) && r.payload.titulo != "" && r.payload.generos != []
  {
    var problem := FirstProblem(f, currentYear);
    if problem.Some? then Alert(problem.value)
    else
      TrimEmptyIffBlank(f.titulo);
      NonZeroKept(f.generos);
      Send(AdminPayload(f))
  }

  /** A fresh create form can be saved exactly once it has a title and a non-zero genre. */
  lemma NewFormNeeds(currentYear: nat, titulo: string, gs: seq<int>)
    requires currentYear >= 1900
    ensures AdminSave(NewForm(currentYear).(titulo := titulo, generos := gs), currentYear).Send? <==>
      !IsBlank(titulo) && HasNonZero(gs)
  {
    var f := NewForm(currentYear).(titulo := titulo, generos := gs);
    assert YearOk(f.ano, currentYear) && EpisodesOk(f.episodios);
  }

  /** The columns of a stored title that the edit form can send back unchanged. */
  predicate Clean(x: Option<string>) {
    x.None? || (x.value != "" && Trim(x.value) == x.value)
  }

  /**
   * Opening a stored title for editing and saving it unchanged sends back the
   * stored values, provided its strings carry no surrounding white space, its
   * status is set, its episode count is positive and its year is in range.
   */
  lemma EditRoundTrip(t: Title, genreIds: seq<int>, currentYear: nat)
    requires t.titulo != "" && Trim(t.titulo) == t.titulo
    requires Clean(t.tituloOriginal) && Clean(t.sinopse) && Clean(t.posterUrl) && Clean(t.bannerUrl)
    requires Clean(t.estudio) && Clean(t.diretor)
    requires t.anoLancamento.None? || 1900 <= t.anoLancamento.value <= currentYear + 5
    requires t.episodios >= 1 && t.status != ""
    requires forall i :: 0 <= i < |genreIds| ==> genreIds[i] != 0
    requires |genreIds| > 0
    ensures var r := AdminSave(EditForm(t, genreIds), currentYear);
      && r.Send?
      && r.payload == Payload(t.titulo, t.tituloOriginal, t.sinopse, t.posterUrl, t.bannerUrl,
                              t.anoLancamento, Some(t.episodios), t.status, t.estudio, t.diretor, genreIds)
  {
    var f := EditForm(t, genreIds);
    EditFormPasses(t, genreIds, currentYear);
    EditFormPayload(t, genreIds);
  }

  lemma EditFormPasses(t: Title, genreIds: seq<int>, currentYear: nat)
    requires t.titulo != "" && Trim(t.titulo) == t.titulo
    requires t.anoLancamento.None? || 1900 <= t.anoLancamento.value <= currentYear + 5
    requires t.episodios >= 1
    requires |genreIds| > 0 && genreIds[0] != 0
    ensures FirstProblem(EditForm(t, genreIds), currentYear).None?
  {
    var f := EditForm(t, genreIds);
    TrimEmptyIffBlank(t.titulo);
    assert NonZero(f.generos[0]);
    assert YearOk(f.ano, currentYear) && EpisodesOk(f.episodios);
  }

  lemma EditFormPayload(t: Title, genreIds: seq<int>)
    requires Trim(t.titulo) == t.titulo
    requires Clean(t.tituloOriginal) && Clean(t.sinopse) && Clean(t.posterUrl) && Clean(t.bannerUrl)
    requires Clean(t.estudio) && Clean(t.diretor)
    requires t.anoLancamento.None? || t.anoLancamento.value != 0
    requires t.episodios != 0 && t.status != ""
    requires forall i :: 0 <= i < |genreIds| ==> genreIds[i] != 0
    ensures AdminPayload(EditForm(t, genreIds)) ==
      Payload(t.titulo, t.tituloOriginal, t.sinopse, t.posterUrl, t.bannerUrl,
              t.anoLancamento, Some(t.episodios), t.status, t.estudio, t.diretor, genreIds)
  {
    EditTitles(t, genreIds);
    EditLinks(t, genreIds);
    EditRest(t, genreIds);
  }

  /** The title, original title and synopsis come back as stored. */
  lemma EditTitles(t: Title, genreIds: seq<int>)
    requires Trim(t.titulo) == t.titulo
    requires Clean(t.tituloOriginal) && Clean(t.sinopse)
    ensures var p := AdminPayload(EditForm(t, genreIds));
      p.titulo == t.titulo && p.tituloOriginal == t.tituloOriginal && p.sinopse == t.sinopse
  {
    CleanRoundTrip(t.tituloOriginal);
    CleanRoundTrip(t.sinopse);
  }

  /** The poster and banner addresses and the studio come back as stored. */
  lemma EditLinks(t: Title, genreIds: seq<int>)
    requires Clean(t.posterUrl) && Clean(t.bannerUrl) && Clean(t.estudio)
    ensures var p := AdminPayload(EditForm(t, genreIds));
      p.posterUrl == t.posterUrl && p.bannerUrl == t.bannerUrl && p.estudio == t.estudio
  {
    CleanRoundTrip(t.posterUrl);
    CleanRoundTrip(t.bannerUrl);
    CleanRoundTrip(t.estudio);
  }

  /** The director, numbers, status and genres come back as stored. */
  lemma EditRest(t: Title, genreIds: seq<int>)
    requires Clean(t.diretor)
    requires t.anoLancamento.None? || t.anoLancamento.value != 0
    requires t.episodios != 0 && t.status != ""
    requires forall i :: 0 <= i < |genreIds| ==> genreIds[i] != 0
    ensures var p := AdminPayload(EditForm(t, genreIds));
      && p.diretor == t.diretor && p.ano == t.anoLancamento && p.episodios == Some(t.episodios)
      && p.status == t.status && p.generos == genreIds
  {
    CleanRoundTrip(t.diretor);
    FilterKeepsAll(genreIds, NonZero);
  }

  lemma CleanRoundTrip(x: Option<string>)
    requires Clean(x)
    ensures TrimOrNull(TextOf(x)) == x
  {
    if x.Some? {
      TrimEmptyIffBlank(x.value);
    } else {
      assert IsBlank("");
    }
  }

  // ------------------------------------------------- per-field messages

  /** The inputs `validateField` checks; every other input is `Unchecked`. */
  datatype FieldName = Titulo | AnoLancamento | Episodios | Unchecked

  function FieldError(f: Form, field: FieldName, currentYear: nat): Option<string> {
    match field
    case Titulo => if IsBlank(f.titulo) then Some(TitleRequired) else None
    case AnoLancamento =>
      if YearOk(f.ano, currentYear) then None
      else Some("Ano deve estar entre 1900 e " + NatToString(currentYear + 5))
    case Episodios => if EpisodesOk(f.episodios) then None else Some(EpisodesMessage)
    case Unchecked => None
  }

  /**
   * `handleInputChange` followed by `validateField` on the edited form: the
   * message of the edited input is set or removed, and no other message changes.
   */
  function ValidateField(errors: map<FieldName, string>, f: Form, field: FieldName, currentYear: nat): (r: map<FieldName, string>)
    ensures forall k :: k != field ==> (k in r <==> k in errors) && (k in r ==> r[k] == errors[k])
    ensures field != Unchecked ==> (field in r <==> FieldError(f, field, currentYear).Some?)
    ensures field != Unchecked && field in r ==> r[field] == FieldError(f, field, currentYear).value
    ensures field == Unchecked ==> r == errors
  {
    if field == Unchecked then errors
    else
      var e := FieldError(f, field, currentYear);
      if e.Some? then errors[field := e.value] else errors - {field}
  }

  /** Validating every checked input in turn, starting with no messages. */
  function AllErrors(f: Form, currentYear: nat): map<FieldName, string> {
    var e1 := ValidateField(map[], f, Titulo, currentYear);
    var e2 := ValidateField(e1, f, AnoLancamento, currentYear);
    ValidateField(e2, f, Episodios, currentYear)
  }

  /**
   * The save and the per-field messages agree: a form is sent exactly when
   * validating each input shows no message and a non-zero genre is selected.
   */
  lemma SaveAgreesWithFieldErrors(f: Form, currentYear: nat)
    ensures AdminSave(f, currentYear).Send? <==> AllErrors(f, currentYear) == map[] && HasNonZero(f.generos)
  {
    var all := AllErrors(f, currentYear);
    if all == map[] {
      assert Titulo !in all && AnoLancamento !in all && Episodios !in all;
    }
    if !IsBlank(f.titulo) && YearOk(f.ano, currentYear) && EpisodesOk(f.episodios) {
      assert all.Keys == {};
    }
  }

  /** What a failed save reports. */
  datatype Failure =
    | HttpError(status: nat, error: Option<string>)  // the server answered
    | NoResponse                                     // the request went out, no answer came
    | Thrown(message: Option<string>)                // the request was never made

  /** `x || fallback` on an optional message. */
  function OrElse(x: Option<string>, fallback: string): (r: string)
    ensures r != "" <==> (x.Some? && x.value != "") || fallback != ""
  {
    if x.Some? && x.value != "" then x.value else fallback
  }

  /** The alert after a failed save: fixed texts for 401 and 403, the server's message otherwise. */
  function SaveFailureMessage(e: Failure): (r: string)
    ensures r != ""
    ensures e.HttpError? && e.status == 401 ==> r == "Não autorizado. Faça login novamente."
    ensures e.HttpError? && e.status == 403 ==> r == "Você não tem permissão para esta operação"
    ensures e.HttpError? && e.status == 400 ==> r == OrElse(e.error, "Dados inválidos")
    ensures e.HttpError? && e.status !in {400, 401, 403} ==> r == OrElse(e.error, "Erro " + NatToString(e.status))
    ensures e.NoResponse? ==> r == "Servidor não está respondendo. Verifique sua conexão."
    ensures e.Thrown? ==> r == OrElse(e.message, "Erro inesperado")
  {
    match e
    case HttpError(status, error) =>
      if status == 400 then OrElse(error, "Dados inválidos")
      else if status == 401 then "Não autorizado. Faça login novamente."
      else if status == 403 then "Você não tem permissão para esta operação"
      else OrElse(error, "Erro " + NatToString(status))
    case NoResponse => "Servidor não está respondendo. Verifique sua conexão."
    case Thrown(message) => OrElse(message, "Erro inesperado")
  }

  /** `handleDelete`: nothing without confirmation; otherwise deleted, or the server's message. */
  datatype DeleteStep = Cancelled | Deleted | DeleteFailed(message: string)

  function DeleteTitle(confirmed: bool, failure: Option<Option<string>>): (r: DeleteStep)
    ensures r.Cancelled? <==> !confirmed
    ensures r.Deleted? <==> confirmed && failure.None?
    ensures r.DeleteFailed? ==> r.message == OrElse(failure.value, "Erro ao excluir animação") && r.message != ""
  {
    if !confirmed then Cancelled
    else if failure.None? then Deleted
    else DeleteFailed(OrElse(failure.value, "Erro ao excluir animação"))
  }

  // ----------------------------------------------------- the create modal

  /** `x || null`: only the empty string becomes null; nothing is trimmed. */
  function EmptyToNull(s: string): (r: Option<string>)
    ensures r.Some? <==> s != ""
    ensures r.Some? ==> r.value == s
  {
    if s == "" then None else Some(s)
  }

  /**
   * `handleSubmit` of the create modal: only the title (after trimming) and
   * the genre count are checked; the payload keeps the strings as typed, the
   * status as chosen and every genre id. An empty number input parses to NaN,
   * which is sent as null.
   */
  function NewSubmit(f: Form): (r: Save)
    ensures r.Send? <==> !IsBlank(f.titulo) && f.generos != []
    ensures IsBlank(f.titulo) ==> r == Alert(TitleRequired)
    ensures !IsBlank(f.titulo) && f.generos == [] ==> r == Alert(GenreRequired)
    ensures r.Send? ==> r.payload.titulo == f.titulo && r.payload.status == f.status && r.payload.generos == f.generos
    ensures r.Send? ==> r.payload.ano == NumOrNull(f.ano) && r.payload.episodios == NumOrNull(f.episodios)
    ensures r.Send? ==> r.payload.tituloOriginal == EmptyToNull(f.tituloOriginal) && r.payload.sinopse == EmptyToNull(f.sinopse)
    ensures r.Send? ==> r.payload.posterUrl == EmptyToNull(f.posterUrl) && r.payload.bannerUrl == EmptyToNull(f.bannerUrl)
    ensures r.Send? ==> r.payload.estudio == EmptyToNull(f.estudio) && r.payload.diretor == EmptyToNull(f.diretor)
  {
    TrimEmptyIffBlank(f.titulo);
    if Trim(f.titulo) == "" then Alert(TitleRequired)
    else if |f.generos| == 0 then Alert(GenreRequired)
    else Send(NewPayload(f))
  }

  /** The body the create modal sends: the strings as typed with "" as null, and every genre id. */
  function NewPayload(f: Form): (p: Payload)
    ensures p.titulo == f.titulo && p.status == f.status && p.generos == f.generos
    ensures p.ano == NumOrNull(f.ano) && p.episodios == NumOrNull(f.episodios)
    ensures p.tituloOriginal == EmptyToNull(f.tituloOriginal) && p.sinopse == EmptyToNull(f.sinopse)
    ensures p.posterUrl == EmptyToNull(f.posterUrl) && p.bannerUrl == EmptyToNull(f.bannerUrl)
    ensures p.estudio == EmptyToNull(f.estudio) && p.diretor == EmptyToNull(f.diretor)
  {
    Payload(f.titulo, EmptyToNull(f.tituloOriginal), EmptyToNull(f.sinopse),
            EmptyToNull(f.posterUrl), EmptyToNull(f.bannerUrl), NumOrNull(f.ano), NumOrNull(f.episodios),
            f.status, EmptyToNull(f.estudio), EmptyToNull(f.diretor), f.generos)
  }

  /** A string that trimming leaves as it is. */
  predicate Untrimmed(s: string) {
    Trim(s) == s
  }

  /**
   * On a form whose strings have no surrounding white space, whose status is
   * set and whose genre ids are non-zero, the two modals send the same body
   * whenever the admin modal sends at all.
   */
  lemma ModalsAgree(f: Form, currentYear: nat)
    requires Untrimmed(f.titulo) && Untrimmed(f.tituloOriginal) && Untrimmed(f.sinopse)
    requires Untrimmed(f.posterUrl) && Untrimmed(f.bannerUrl) && Untrimmed(f.estudio) && Untrimmed(f.diretor)
    requires f.status != ""
    requires forall i :: 0 <= i < |f.generos| ==> f.generos[i] != 0
    requires AdminSave(f, currentYear).Send?
    ensures NewSubmit(f) == AdminSave(f, currentYear)
  {
    AdminSends(f, currentYear);
    TrimEmptyIffBlank(f.titulo);
    PayloadsAgree(f);
  }

  /** Without surrounding white space, a set status and zero ids, both payload builders agree. */
  lemma PayloadsAgree(f: Form)
    requires Untrimmed(f.titulo) && Untrimmed(f.tituloOriginal) && Untrimmed(f.sinopse)
    requires Untrimmed(f.posterUrl) && Untrimmed(f.bannerUrl) && Untrimmed(f.estudio) && Untrimmed(f.diretor)
    requires f.status != ""
    requires forall i :: 0 <= i < |f.generos| ==> f.generos[i] != 0
    ensures NewPayload(f) == AdminPayload(f)
  {
    AgreeTitles(f);
    AgreeLinks(f);
    AgreeRest(f);
  }

  /** A form the admin modal sends has a non-blank title and some genre, and goes out as its payload. */
  lemma AdminSends(f: Form, currentYear: nat)
    requires AdminSave(f, currentYear).Send?
    ensures !IsBlank(f.titulo) && f.generos != []
    ensures AdminSave(f, currentYear) == Send(AdminPayload(f))
  {
    NonZeroKept(f.generos);
  }

  lemma AgreeTitles(f: Form)
    requires Untrimmed(f.titulo) && Untrimmed(f.tituloOriginal) && Untrimmed(f.sinopse)
    ensures var a := AdminPayload(f);
      a.titulo == f.titulo && a.tituloOriginal == EmptyToNull(f.tituloOriginal) && a.sinopse == EmptyToNull(f.sinopse)
  {
    SameNull(f.tituloOriginal);
    SameNull(f.sinopse);
  }

  lemma AgreeLinks(f: Form)
    requires Untrimmed(f.posterUrl) && Untrimmed(f.bannerUrl) && Untrimmed(f.estudio)
    ensures var a := AdminPayload(f);
      a.posterUrl == EmptyToNull(f.posterUrl) && a.bannerUrl == EmptyToNull(f.bannerUrl) && a.estudio == EmptyToNull(f.estudio)
  {
    SameNull(f.posterUrl);
    SameNull(f.bannerUrl);
    SameNull(f.estudio);
  }

  lemma AgreeRest(f: Form)
    requires Untrimmed(f.diretor) && f.status != ""
    requires forall i :: 0 <= i < |f.generos| ==> f.generos[i] != 0
    ensures var a := AdminPayload(f);
      a.diretor == EmptyToNull(f.diretor) && a.status == f.status && a.generos == f.generos
  {
    SameNull(f.diretor);
    FilterKeepsAll(f.generos, NonZero);
  }

  lemma SameNull(s: string)
    requires Untrimmed(s)
    ensures TrimOrNull(s) == EmptyToNull(s)
  {
    TrimEmptyIffBlank(s);
  }

  /** Padding the title with a space: the create modal sends it as typed, the admin modal trims it. */
  lemma PaddedTitleDiffers(currentYear: nat)
    requires currentYear >= 1900
    ensures var f := NewForm(currentYear).(titulo := " Naruto", generos := [1]);
      && NewSubmit(f).Send? && NewSubmit(f).payload.titulo == " Naruto"
      && AdminSave(f, currentYear).Send? && AdminSave(f, currentYear).payload.titulo == "Naruto"
  {
    var f := NewForm(currentYear).(titulo := " Naruto", generos := [1]);
    assert !IsSpace('N') && !IsSpace('o');
    TrimPadded(' ', "Naruto");
    assert " Naruto" == [' '] + "Naruto";
    TrimEmptyIffBlank(" Naruto");
    assert NonZero(f.generos[0]);
  }

  /**
   * What a create submission leaves behind: on success the form is reset to
   * its initial values and the message cleared; on failure the form is kept and
   * the server's message, or a fixed one, is shown.
   */
  datatype NewState = NewState(form: Form, error: string)

  function NewAfterSubmit(s: NewState, currentYear: nat, failure: Option<Option<string>>): (r: NewState)
    requires NewSubmit(s.form).Send?
    ensures failure.None? ==> r.form == NewForm(currentYear) && r.error == ""
    ensures failure.Some? ==> r.form == s.form && r.error == OrElse(failure.value, "Erro ao criar animação") && r.error != ""
  {
    if failure.None? then NewState(NewForm(currentYear), "")
    else NewState(s.form, OrElse(failure.value, "Erro ao criar animação"))
  }

  // ------------------------------------------------------- admin listing

  /** The admin list's search text and pager; the list is fetched again whenever either changes. */
  datatype Listing = Listing(searchTerm: string, page: int, limit: int)

  /** `handleSearch`: take the new text and go back to the first page, keeping the page size. */
  function HandleSearch(l: Listing, value: string): (r: Listing)
    ensures r.searchTerm == value && r.page == 1 && r.limit == l.limit
  {
    l.(searchTerm := value, page := 1)
  }

  /** After a search the list shows the first page of that text, whichever page was showing before. */
  lemma SearchForgetsPage(l: Listing, page: int, value: string)
    ensures HandleSearch(l.(page := page), value) == HandleSearch(l, value) == Listing(value, 1, l.limit)
  {
  }
}

=== FILE: titles.dfy ===
/**
 * The admin writes of backend/controllers/animacaoController.js:
 * `createAnimacao`, `updateAnimacao` and `deleteAnimacao`.
 *
 * The handlers run after the title validator, so the body's properties
 * have the types it admits. Inserting a link is checked against both
 * referenced tables and stops the handler with a 500 at the first missing
 * one, keeping what was already written; deleting a title removes the rows
 * that reference it.
 */
module TitleWrites {
  import opened Common
  import opened Schema
  import opened Reviews

  /** The body of `POST /animacoes` and `PUT /animacoes/:id`. */
  datatype TitleInput = TitleInput(
    titulo: string,
    tituloOriginal: Field<string>,
    sinopse: Field<string>,
    posterUrl: Field<string>,
    bannerUrl: Field<string>,
    anoLancamento: Field<int>,
    episodios: Field<int>,
    status: Field<string>,
    estudio: Field<string>,
    diretor: Field<string>,
    generos: Field<seq<int>>)

  /** `x || null` on a number: 0 is falsy. */
  function IntOrNull(f: Field<int>): (r: Option<int>)
    ensures r.Some? <==> f.Present? && f.value != 0
    ensures r.Some? ==> r.value == f.value
  {
    if f.Present? && f.value != 0 then Some(f.value) else None
  }

  /** `episodios || 1`. */
  function EpisodesOrOne(f: Field<int>): (r: int)
    ensures f.Present? && f.value != 0 ==> r == f.value
    ensures !(f.Present? && f.value != 0) ==> r == 1
  {
    if f.Present? && f.value != 0 then f.value else 1
  }

  /** The columns both create and update write, with their `||` defaults. */
  function Columns(t: Title, in_: TitleInput): (r: Title)
    ensures r.id == t.id && r.notaMedia == t.notaMedia && r.totalAvaliacoes == t.totalAvaliacoes
    ensures r.createdAt == t.createdAt && r.updatedAt == t.updatedAt
    ensures r.titulo == in_.titulo
    ensures r.status == OrDefault(in_.status, "Finalizado")
    ensures r.episodios == EpisodesOrOne(in_.episodios)
    ensures r.anoLancamento == IntOrNull(in_.anoLancamento)
  {
    t.(titulo := in_.titulo,
       tituloOriginal := OrNull(in_.tituloOriginal),
       sinopse := OrNull(in_.sinopse),
       posterUrl := OrNull(in_.posterUrl),
       bannerUrl := OrNull(in_.bannerUrl),
       anoLancamento := IntOrNull(in_.anoLancamento),
       episodios := EpisodesOrOne(in_.episodios),
       status := OrDefault(in_.status, "Finalizado"),
       estudio := OrNull(in_.estudio),
       diretor := OrNull(in_.diretor))
  }

  function LinksFor(title: int, gs: seq<int>): (r: seq<Link>)
    ensures |r| == |gs|
    ensures forall i :: 0 <= i < |gs| ==> r[i] == Link(title, gs[i])
  {
    seq(|gs|, i requires 0 <= i < |gs| => Link(title, gs[i]))
  }

  predicate AllGenresExist(db: Db, gs: seq<int>) {
    forall i :: 0 <= i < |gs| ==> GenreExists(db.genres, gs[i])
  }

  /**
   * `for (const generoId of generos) INSERT INTO animacao_generos …`, one
   * row per id in order. Returns whether every insert succeeded; on a
   * failure the links inserted before it stay.
   */
  function InsertLinks(db: Db, title: int, gs: seq<int>): (r: (bool, Db))
    ensures r.1 == db.(links := r.1.links)
    ensures r.0 <==> |gs| == 0 || (TitleExists(db.titles, title) && AllGenresExist(db, gs))
    ensures r.0 ==> r.1.links == db.links + LinksFor(title, gs)
    ensures exists k :: 0 <= k <= |gs| && r.1.links == db.links + LinksFor(title, gs[..k])
    ensures !TitleExists(db.titles, title) ==> r.1 == db
    decreases |gs|
  {
    if |gs| == 0 then
      assert db.links + LinksFor(title, gs[..0]) == db.links;
      (true, db)
    else if !TitleExists(db.titles, title) || !GenreExists(db.genres, gs[0]) then
      assert db.links + LinksFor(title, gs[..0]) == db.links;
      (false, db)
    else
      var db1 := db.(links := db.links + [Link(title, gs[0])]);
      var rest := InsertLinks(db1, title, gs[1..]);
      var k :| 0 <= k <= |gs[1..]| && rest.1.links == db1.links + LinksFor(title, gs[1..][..k]);
      LinksForCons(db.links, title, gs, k);
      LinksForCons(db.links, title, gs, |gs| - 1);
      AllGenresCons(db, gs);
      rest
  }

  /** Inserting the first link and then the next k is inserting the first k + 1. */
  lemma LinksForCons(links: seq<Link>, title: int, gs: seq<int>, k: int)
    requires 0 <= k < |gs|
    ensures (links + [Link(title, gs[0])]) + LinksFor(title, gs[1..][..k]) == links + LinksFor(title, gs[..k + 1])
    ensures k == |gs| - 1 ==> gs[1..][..k] == gs[1..] && gs[..k + 1] == gs
  {
    var lhs := (links + [Link(title, gs[0])]) + LinksFor(title, gs[1..][..k]);
    var rhs := links + LinksFor(title, gs[..k + 1]);
    assert |lhs| == |rhs|;
    forall i | 0 <= i < |lhs| ensures lhs[i] == rhs[i] {
      if i > |links| {
        assert lhs[i] == Link(title, gs[1..][..k][i - |links| - 1]);
      }
    }
  }

  lemma AllGenresCons(db: Db, gs: seq<int>)
    requires |gs| > 0
    ensures AllGenresExist(db, gs) <==> GenreExists(db.genres, gs[0]) && AllGenresExist(db, gs[1..])
  {
    if GenreExists(db.genres, gs[0]) && AllGenresExist(db, gs[1..]) {
      forall i | 0 <= i < |gs| ensures GenreExists(db.genres, gs[i]) {
        if i > 0 { assert gs[i] == gs[1..][i - 1]; }
      }
    }
  }

  // ---------------------------------------------------------------- create

  /** The row `INSERT INTO animacoes` adds: the aggregate columns start at 0. */
  function NewTitle(id: int, in_: TitleInput, now: int): (t: Title)
    ensures t.id == id && t.notaMedia == 0.0 && t.totalAvaliacoes == 0
    ensures t.createdAt == now && t.updatedAt == now
  {
    Columns(Title(id, "", None, None, None, None, None, 1, "", None, None, 0.0, 0, now, now), in_)
  }

  /**
   * `createAnimacao`: insert the title under the next id, then one link per
   * listed genre when `generos` is a non-empty array. 201 with the id, or
   * 500 when a link insert fails.
   */
  function CreateTitle(db: Db, in_: TitleInput, now: int): (r: Created)
    ensures r.id == db.next.titles
    ensures r.status in {201, 500}
    ensures r.db.titles == db.titles + [NewTitle(db.next.titles, in_, now)]
    ensures r.db.next == db.next.(titles := db.next.titles + 1)
    ensures r.db == db.(titles := r.db.titles, links := r.db.links, next := r.db.next)
    ensures r.status == 201 <==> !in_.generos.Present? || AllGenresExist(db, in_.generos.value)
    ensures r.status == 201 && in_.generos.Present? ==> r.db.links == db.links + LinksFor(r.id, in_.generos.value)
    ensures !in_.generos.Present? ==> r.db.links == db.links
    ensures |db.links| <= |r.db.links| && forall i :: 0 <= i < |db.links| ==> r.db.links[i] == db.links[i]
    ensures forall i :: |db.links| <= i < |r.db.links| ==> r.db.links[i].titleId == r.id
  {
    var id := db.next.titles;
    var db1 := db.(titles := db.titles + [NewTitle(id, in_, now)], next := db.next.(titles := id + 1));
    assert TitleExists(db1.titles, id) by { assert db1.titles[|db.titles|].id == id; }
    if in_.generos.Present? && |in_.generos.value| > 0 then
      var (ok, db2) := InsertLinks(db1, id, in_.generos.value);
      Created(if ok then 201 else 500, db2, id)
    else
      Created(201, db1, id)
  }

  // ---------------------------------------------------------------- update

  /** `UPDATE animacoes SET … WHERE id = ?`: no row matches an unknown id. */
  function SetColumns(ts: seq<Title>, id: int, in_: TitleInput, now: int): (r: seq<Title>)
    ensures |r| == |ts|
    ensures forall i :: 0 <= i < |ts| && ts[i].id != id ==> r[i] == ts[i]
    ensures forall i :: 0 <= i < |ts| && ts[i].id == id ==> r[i] == Columns(ts[i], in_).(updatedAt := now)
  {
    seq(|ts|, i requires 0 <= i < |ts| => if ts[i].id == id then Columns(ts[i], in_).(updatedAt := now) else ts[i])
  }

  function LinksOf(links: seq<Link>, title: int): seq<Link> {
    Filter(links, (l: Link) => l.titleId == title)
  }

  function DropLinks(links: seq<Link>, title: int): (r: seq<Link>)
    ensures forall l :: l in r <==> l in links && l.titleId != title
  {
    Filter(links, (l: Link) => l.titleId != title)
  }

  /**
   * `updateAnimacao`: rewrite the columns; when `generos` is an array,
   * replace the title's links by one per listed id. 200, also for an unknown
   * id, except when a link insert fails (500).
   */
  function UpdateTitle(db: Db, id: int, in_: TitleInput, now: int): (r: Outcome)
    ensures r.status in {200, 500}
    ensures r.db.titles == SetColumns(db.titles, id, in_, now)
    ensures r.db == db.(titles := r.db.titles, links := r.db.links)
    ensures !in_.generos.Present? ==> r.status == 200 && r.db.links == db.links
    ensures in_.generos.Present? ==>
              (r.status == 200 <==> |in_.generos.value| == 0 || (TitleExists(db.titles, id) && AllGenresExist(db, in_.generos.value)))
    ensures in_.generos.Present? && r.status == 200 ==>
              r.db.links == DropLinks(db.links, id) + LinksFor(id, in_.generos.value)
    ensures in_.generos.Present? ==> forall l :: l in r.db.links && l.titleId != id <==> l in db.links && l.titleId != id
  {
    var db1 := db.(titles := SetColumns(db.titles, id, in_, now));
    assert forall x :: TitleExists(db1.titles, x) <==> TitleExists(db.titles, x) by {
      SameIdsSameExists(db.titles, db1.titles);
    }
    if in_.generos.Present? then
      var db2 := db1.(links := DropLinks(db.links, id));
      if |in_.generos.value| > 0 then
        var (ok, db3) := InsertLinks(db2, id, in_.generos.value);
        Outcome(if ok then 200 else 500, db3)
      else Outcome(200, db2)
    else Outcome(200, db1)
  }

  lemma SameIdsSameExists(a: seq<Title>, b: seq<Title>)
    requires |a| == |b| && forall i :: 0 <= i < |a| ==> a[i].id == b[i].id
    ensures forall x :: TitleExists(a, x) <==> TitleExists(b, x)
  {
    forall x ensures TitleExists(a, x) <==> TitleExists(b, x) {
      if TitleExists(a, x) {
        var i :| 0 <= i < |a| && a[i].id == x;
        assert b[i].id == x;
      }
      if TitleExists(b, x) {
        var i :| 0 <= i < |b| && b[i].id == x;
        assert a[i].id == x;
      }
    }
  }

  // ---------------------------------------------------------------- delete

  /**
   * `deleteAnimacao`: the row goes, and with it every link, review and list
   * entry that referenced it. Always 200.
   */
  function DeleteTitle(db: Db, id: int): (r: Outcome)
    ensures r.status == 200
    ensures !TitleExists(r.db.titles, id)
    ensures forall t :: t in r.db.titles <==> t in db.titles && t.id != id
    ensures forall l :: l in r.db.links <==> l in db.links && l.titleId != id
    ensures forall x :: x in r.db.reviews <==> x in db.reviews && x.titleId != id
    ensures forall e :: e in r.db.lista <==> e in db.lista && e.titleId != id
    ensures r.db == db.(titles := r.db.titles, links := r.db.links, reviews := r.db.reviews, lista := r.db.lista)
  {
    var ts := Filter(db.titles, (t: Title) => t.id != id);
    Outcome(200, db.(titles := ts,
                     links := DropLinks(db.links, id),
                     reviews := Filter(db.reviews, (x: Review) => x.titleId != id),
                     lista := Filter(db.lista, (e: ListEntry) => e.titleId != id)))
  }

  // ------------------------------------------------------------ invariants

  lemma ReviewsOfSnoc(xs: seq<Review>, x: Review, u: int)
    ensures ReviewsOf(xs + [x], u) == ReviewsOf(xs, u) + (if x.titleId == u then [x] else [])
  {
    assert (xs + [x])[..|xs|] == xs;
  }

  lemma {:induction false} ReviewsOfAppend(a: seq<Review>, b: seq<Review>, u: int)
    ensures ReviewsOf(a + b, u) == ReviewsOf(a, u) + ReviewsOf(b, u)
    decreases |b|
  {
    if |b| == 0 {
      assert a + b == a;
    } else {
      var init, last := b[..|b| - 1], b[|b| - 1];
      var tail := if last.titleId == u then [last] else [];
      assert a + b == (a + init) + [last];
      assert b == init + [last];
      calc {
        ReviewsOf(a + b, u);
        { ReviewsOfSnoc(a + init, last, u); }
        ReviewsOf(a + init, u) + tail;
        { ReviewsOfAppend(a, init, u); }
        ReviewsOf(a, u) + ReviewsOf(init, u) + tail;
        { ReviewsOfSnoc(init, last, u); }
        ReviewsOf(a, u) + ReviewsOf(b, u);
      }
    }
  }

  /** Dropping reviews none of which belongs to `u` leaves `u`'s reviews as they were. */
  lemma {:induction false} ReviewsOfFilter(rs: seq<Review>, p: Review -> bool, u: int)
    requires forall i :: 0 <= i < |rs| && rs[i].titleId == u ==> p(rs[i])
    ensures ReviewsOf(Filter(rs, p), u) == ReviewsOf(rs, u)
    decreases |rs|
  {
    if |rs| > 0 {
      var init := rs[..|rs| - 1];
      var last := rs[|rs| - 1];
      assert rs == init + [last];
      ReviewsOfFilter(init, p, u);
      FilterAppend(init, [last], p);
      ReviewsOfAppend(Filter(init, p), Filter([last], p), u);
      ReviewsOfAppend(init, [last], u);
      assert Filter([last], p) == if p(last) then [last] else [];
    }
  }

  lemma NoReviewsOfUnknown(rs: seq<Review>, ts: seq<Title>, id: int)
    requires forall i :: 0 <= i < |rs| ==> TitleExists(ts, rs[i].titleId)
    requires !TitleExists(ts, id)
    ensures ReviewsOf(rs, id) == []
  {
  }

  lemma NewTitleFresh(db: Db, in_: TitleInput, now: int)
    requires Valid(db)
    ensures Fresh(NewTitle(db.next.titles, in_, now), db.reviews)
  {
    assert !TitleExists(db.titles, db.next.titles);
    NoReviewsOfUnknown(db.reviews, db.titles, db.next.titles);
  }

  lemma AppendTitleUnique(ts: seq<Title>, t: Title)
    requires TitleIdsUnique(ts)
    requires forall i :: 0 <= i < |ts| ==> ts[i].id < t.id
    ensures TitleIdsUnique(ts + [t])
  {
  }

  lemma ExistsInLarger(ts: seq<Title>, t: Title)
    ensures forall x :: TitleExists(ts, x) ==> TitleExists(ts + [t], x)
  {
    forall x | TitleExists(ts, x) ensures TitleExists(ts + [t], x) {
      var i :| 0 <= i < |ts| && ts[i].id == x;
      assert (ts + [t])[i].id == x;
    }
  }

  /** A create keeps every invariant, whether its link inserts succeed or not. */
  lemma CreateTitleKeepsValid(db: Db, in_: TitleInput, now: int)
    requires Valid(db)
    ensures Valid(CreateTitle(db, in_, now).db)
  {
    AppendTitleUnique(db.titles, NewTitle(db.next.titles, in_, now));
    CreatedReferencesTitles(db, in_, now);
    CreatedAggregatesFresh(db, in_, now);
  }

  /** The reviews and list rows still find their titles, and so do the old and new links. */
  lemma CreatedReferencesTitles(db: Db, in_: TitleInput, now: int)
    requires ReferencesTitles(db)
    ensures ReferencesTitles(CreateTitle(db, in_, now).db)
  {
    var r := CreateTitle(db, in_, now);
    var t := NewTitle(db.next.titles, in_, now);
    ExistsInLarger(db.titles, t);
    assert TitleExists(r.db.titles, r.id) by { assert r.db.titles[|db.titles|] == t; }
    forall i | 0 <= i < |r.db.links| ensures TitleExists(r.db.titles, r.db.links[i].titleId) {
      if i < |db.links| {
        assert r.db.links[i] == db.links[i];
      }
    }
  }

  /** The new title starts with no reviews and the aggregates of the others are untouched. */
  lemma CreatedAggregatesFresh(db: Db, in_: TitleInput, now: int)
    requires Valid(db)
    ensures AggregatesConsistent(CreateTitle(db, in_, now).db)
  {
    var r := CreateTitle(db, in_, now);
    NewTitleFresh(db, in_, now);
    forall i | 0 <= i < |r.db.titles| ensures Fresh(r.db.titles[i], r.db.reviews) {
      if i < |db.titles| {
        assert r.db.titles[i] == db.titles[i];
      }
    }
  }

  lemma UpdateTitleKeepsValid(db: Db, id: int, in_: TitleInput, now: int)
    requires Valid(db)
    ensures Valid(UpdateTitle(db, id, in_, now).db)
  {
    var r := UpdateTitle(db, id, in_, now);
    SameIdsSameExists(db.titles, r.db.titles);
    assert TitleIdsUnique(r.db.titles);
    assert IdsBelowCounters(r.db);
    assert AggregatesConsistent(r.db) by {
      forall i | 0 <= i < |r.db.titles| ensures Fresh(r.db.titles[i], r.db.reviews) {
        assert Fresh(db.titles[i], db.reviews);
      }
    }
    assert forall i :: 0 <= i < |r.db.links| ==> TitleExists(r.db.titles, r.db.links[i].titleId) by {
      forall i | 0 <= i < |r.db.links| ensures TitleExists(db.titles, r.db.links[i].titleId) {
        var l := r.db.links[i];
        assert l in r.db.links;
        if l.titleId != id {
          assert l in db.links;
        } else {
          UpdateLinksOfId(db, id, in_, now, l);
        }
      }
    }
  }

  /** A link that an update leaves for the updated id names an existing title. */
  lemma UpdateLinksOfId(db: Db, id: int, in_: TitleInput, now: int, l: Link)
    requires ReferencesTitles(db)
    requires l in UpdateTitle(db, id, in_, now).db.links && l.titleId == id
    ensures TitleExists(db.titles, id)
  {
    var db1 := db.(titles := SetColumns(db.titles, id, in_, now));
    SameIdsSameExists(db.titles, db1.titles);
    if !in_.generos.Present? {
      var k :| 0 <= k < |db.links| && db.links[k] == l;
    }
  }

  lemma DeleteTitleKeepsValid(db: Db, id: int)
    requires Valid(db)
    ensures Valid(DeleteTitle(db, id).db)
  {
    var r := DeleteTitle(db, id).db;
    FilterPairwise(db.titles, (t: Title) => t.id != id, (a: Title, b: Title) => a.id != b.id);
    FilterPairwise(db.reviews, (x: Review) => x.titleId != id,
      (a: Review, b: Review) => a.id != b.id && (a.userId != b.userId || a.titleId != b.titleId));
    FilterPairwise(db.lista, (e: ListEntry) => e.titleId != id,
      (a: ListEntry, b: ListEntry) => a.userId != b.userId || a.titleId != b.titleId);
    DeleteKeepsReferences(db, id);
    DeleteKeepsIdsBelow(db, id);
    DeleteKeepsAggregates(db, id);
  }

  lemma DeleteKeepsReferences(db: Db, id: int)
    requires ReferencesTitles(db)
    ensures ReferencesTitles(DeleteTitle(db, id).db)
  {
    var r := DeleteTitle(db, id).db;
    forall x | x != id && TitleExists(db.titles, x) ensures TitleExists(r.titles, x) {
      var i :| 0 <= i < |db.titles| && db.titles[i].id == x;
      assert db.titles[i] in r.titles;
      var j :| 0 <= j < |r.titles| && r.titles[j] == db.titles[i];
    }
    assert forall i :: 0 <= i < |r.reviews| ==> r.reviews[i] in db.reviews;
    assert forall i :: 0 <= i < |r.lista| ==> r.lista[i] in db.lista;
    assert forall i :: 0 <= i < |r.links| ==> r.links[i] in db.links;
  }

  lemma DeleteKeepsIdsBelow(db: Db, id: int)
    requires IdsBelowCounters(db)
    ensures IdsBelowCounters(DeleteTitle(db, id).db)
  {
    var r := DeleteTitle(db, id).db;
    assert forall i :: 0 <= i < |r.titles| ==> r.titles[i] in db.titles;
    assert forall i :: 0 <= i < |r.reviews| ==> r.reviews[i] in db.reviews;
  }

  lemma DeleteKeepsAggregates(db: Db, id: int)
    requires AggregatesConsistent(db)
    ensures AggregatesConsistent(DeleteTitle(db, id).db)
  {
    var r := DeleteTitle(db, id).db;
    forall i | 0 <= i < |r.titles| ensures Fresh(r.titles[i], r.reviews) {
      var t := r.titles[i];
      assert t in db.titles;
      var k :| 0 <= k < |db.titles| && db.titles[k] == t;
      ReviewsOfFilter(db.reviews, (x: Review) => x.titleId != id, t.id);
    }
  }
}

=== FILE: validation.dfy ===
/**
 * The request-body validators of backend/middleware/validation.js, as
 * accept/reject predicates over a JSON object, and the decoding of an
 * accepted body into the typed input its handler reads.
 *
 * Each schema is a conjunction of per-key rules. A key may be missing,
 * `null`, or hold a value; the string rules reject the empty string unless
 * it is explicitly allowed, and reject a non-string value.
 */
module Validation {
  import opened Common
  import opened TitleWrites

  /** A JSON value as `JSON.parse` leaves it: a number is the value it parsed to. */
  datatype Json = JNull | JBool(b: bool) | JNum(n: real) | JStr(s: string) | JArr(items: seq<Json>)

  /** A request body: the keys it has. */
  type Body = map<string, Json>

  function Get(body: Body, k: string): (r: Field<Json>)
    ensures r.Absent? <==> k !in body
    ensures r.Null? <==> k in body && body[k] == JNull
    ensures r.Present? ==> k in body && r.value == body[k] && r.value != JNull
  {
    if k !in body then Absent else if body[k] == JNull then Null else Present(body[k])
  }

  /** Extra checks of a string rule beyond its length bounds. */
  datatype Format = Plain | Email | Uri | OneOf(values: seq<string>)

  /** `Joi.string().min(min).max(max)[.email()|.uri()|.valid(...)][.allow("")][.allow(null)][.required()]`. */
  datatype StrRule = StrRule(min: nat, max: Option<nat>, format: Format, allowEmpty: bool, allowNull: bool, required: bool)

  /** `Joi.number()[.integer()][.min(min)][.max(max)][.positive()][.allow(null)][.required()]`. */
  datatype NumRule = NumRule(integer: bool, min: Option<real>, max: Option<real>, positive: bool, allowNull: bool, required: bool)

  predicate FormatOk(s: string, f: Format, isEmail: string -> bool, isUri: string -> bool) {
    match f
    case Plain => true
    case Email => isEmail(s)
    case Uri => isUri(s)
    case OneOf(vs) => s in vs
  }

  predicate StrOk(v: Field<Json>, rule: StrRule, isEmail: string -> bool, isUri: string -> bool) {
    match v
    case Absent => !rule.required
    case Null => rule.allowNull
    case Present(j) =>
      j.JStr? &&
      (if j.s == "" then rule.allowEmpty
       else rule.min <= |j.s| && (rule.max.None? || |j.s| <= rule.max.value)
            && FormatOk(j.s, rule.format, isEmail, isUri))
  }

  /** `Number.MAX_SAFE_INTEGER`, 2^53 - 1. */
  const MaxSafe: real := 9007199254740991.0

  /** Without `.unsafe()` a Joi number outside ±`Number.MAX_SAFE_INTEGER` fails with `number.unsafe`. */
  predicate Safe(n: real) {
    -MaxSafe <= n <= MaxSafe
  }

  predicate NumOk(v: Field<Json>, rule: NumRule) {
    match v
    case Absent => !rule.required
    case Null => rule.allowNull
    case Present(j) =>
      && j.JNum?
      && Safe(j.n)
      && (!rule.integer || IsIntegral(j.n))
      && (rule.min.None? || j.n >= rule.min.value)
      && (rule.max.None? || j.n <= rule.max.value)
      && (!rule.positive || j.n > 0.0)
  }

  // ------------------------------------------------------------ the schemas

  /** `validateUser`. */
  predicate UserOk(body: Body, isEmail: string -> bool) {
    && StrOk(Get(body, "nome"), StrRule(2, Some(100), Plain, false, false, true), isEmail, _ => true)
    && StrOk(Get(body, "email"), StrRule(0, None, Email, false, false, true), isEmail, _ => true)
    && StrOk(Get(body, "senha"), StrRule(6, None, Plain, false, false, true), isEmail, _ => true)
  }

  /** `validateLogin`. */
  predicate LoginOk(body: Body, isEmail: string -> bool) {
    && StrOk(Get(body, "email"), StrRule(0, None, Email, false, false, true), isEmail, _ => true)
    && StrOk(Get(body, "senha"), StrRule(0, None, Plain, false, false, true), isEmail, _ => true)
  }

  /** `validateAvaliacao`: the rating is any number in [1, 5]. */
  predicate ReviewOk(body: Body) {
    && NumOk(Get(body, "nota"), NumRule(false, Some(1.0), Some(5.0), false, false, true))
    && StrOk(Get(body, "comentario"), StrRule(0, Some(1000), Plain, true, false, false), _ => true, _ => true)
    && NumOk(Get(body, "animacao_id"), NumRule(true, None, None, true, false, true))
  }

  const TitleStatuses: seq<string> := ["Em exibição", "Finalizado", "Cancelado", "Anunciado"]

  predicate GenreIdsOk(v: Field<Json>) {
    v.Present? && v.value.JArr? && |v.value.items| >= 1
    && forall i :: 0 <= i < |v.value.items| ==>
         v.value.items[i].JNum? && Safe(v.value.items[i].n) && IsIntegral(v.value.items[i].n)
  }

  /** `validateAnimacao`, with the current year as a parameter. */
  predicate TitleOk(body: Body, currentYear: int, isUri: string -> bool) {
    && StrOk(Get(body, "titulo"), StrRule(1, Some(255), Plain, false, false, true), _ => true, isUri)
    && StrOk(Get(body, "titulo_original"), StrRule(0, Some(255), Plain, true, true, false), _ => true, isUri)
    && StrOk(Get(body, "sinopse"), StrRule(0, None, Plain, true, true, false), _ => true, isUri)
    && StrOk(Get(body, "poster_url"), StrRule(0, None, Uri, true, true, false), _ => true, isUri)
    && StrOk(Get(body, "banner_url"), StrRule(0, None, Uri, true, true, false), _ => true, isUri)
    && NumOk(Get(body, "ano_lancamento"), NumRule(true, Some(1900.0), Some((currentYear + 5) as real), false, true, false))
    && NumOk(Get(body, "episodios"), NumRule(true, Some(1.0), None, false, true, false))
    && StrOk(Get(body, "status"), StrRule(0, None, OneOf(TitleStatuses), true, true, false), _ => true, isUri)
    && StrOk(Get(body, "estudio"), StrRule(0, Some(100), Plain, true, true, false), _ => true, isUri)
    && StrOk(Get(body, "diretor"), StrRule(0, Some(100), Plain, true, true, false), _ => true, isUri)
    && GenreIdsOk(Get(body, "generos"))
  }

  /** What a validator middleware does: answer 400 or hand over to the next handler. */
  datatype Gate = Reject(status: int) | Next

  function Check(ok: bool): (g: Gate)
    ensures g.Next? <==> ok
    ensures g.Reject? ==> g.status == 400
  {
    if ok then Next else Reject(400)
  }

  // --------------------------------------------------------------- decoding

  /** A string property as the handler reads it. */
  function StrField(v: Field<Json>): (r: Field<string>)
    requires v.Present? ==> v.value.JStr?
    ensures r.Absent? <==> v.Absent?
    ensures r.Null? <==> v.Null?
    ensures r.Present? ==> r.value == v.value.s
  {
    match v
    case Absent => Absent
    case Null => Null
    case Present(j) => Present(j.s)
  }

  function IntField(v: Field<Json>): (r: Field<int>)
    requires v.Present? ==> v.value.JNum? && IsIntegral(v.value.n)
    ensures r.Absent? <==> v.Absent?
    ensures r.Null? <==> v.Null?
    ensures r.Present? ==> r.value as real == v.value.n
  {
    match v
    case Absent => Absent
    case Null => Null
    case Present(j) => Present(j.n.Floor)
  }

  datatype ReviewInput = ReviewInput(animacaoId: int, nota: real, comentario: Field<string>)

  /** The fields `createAvaliacao` and `updateAvaliacao` read from an accepted body. */
  function DecodeReview(body: Body): (r: ReviewInput)
    requires ReviewOk(body)
    ensures r.animacaoId > 0 && r.animacaoId as real == body["animacao_id"].n && r.animacaoId as real <= MaxSafe
    ensures 1.0 <= r.nota <= 5.0
    ensures r.comentario.Present? ==> |r.comentario.value| <= 1000
    ensures !r.comentario.Null?
  {
    ReviewInput(body["animacao_id"].n.Floor, body["nota"].n, StrField(Get(body, "comentario")))
  }

  /** The body of an accepted title request as `createAnimacao`/`updateAnimacao` read it. */
  function DecodeTitle(body: Body, currentYear: int, isUri: string -> bool): (r: TitleInput)
    requires TitleOk(body, currentYear, isUri)
    ensures 1 <= |r.titulo| <= 255
    ensures r.generos.Present? && |r.generos.value| >= 1
    ensures r.anoLancamento.Present? ==> 1900 <= r.anoLancamento.value <= currentYear + 5
    ensures r.episodios.Present? ==> 1 <= r.episodios.value && r.episodios.value as real <= MaxSafe
    ensures forall i :: 0 <= i < |r.generos.value| ==> Safe(r.generos.value[i] as real)
    ensures r.status.Present? && r.status.value != "" ==> r.status.value in TitleStatuses
  {
    var items := body["generos"].items;
    TitleInput(
      body["titulo"].s,
      StrField(Get(body, "titulo_original")),
      StrField(Get(body, "sinopse")),
      StrField(Get(body, "poster_url")),
      StrField(Get(body, "banner_url")),
      IntField(Get(body, "ano_lancamento")),
      IntField(Get(body, "episodios")),
      StrField(Get(body, "status")),
      StrField(Get(body, "estudio")),
      StrField(Get(body, "diretor")),
      Present(seq(|items|, i requires 0 <= i < |items| && items[i].JNum? => items[i].n.Floor)))
  }

  // ------------------------------------------------------------- properties

  /** A review body is accepted exactly under the three rules the schema lists. */
  lemma ReviewOkMeans(body: Body)
    ensures ReviewOk(body) <==>
      && "nota" in body && body["nota"].JNum? && 1.0 <= body["nota"].n <= 5.0
      && "animacao_id" in body && body["animacao_id"].JNum? && IsIntegral(body["animacao_id"].n)
      && 0.0 < body["animacao_id"].n <= MaxSafe
      && ("comentario" in body ==> body["comentario"].JStr? && |body["comentario"].s| <= 1000)
  {
  }

  /** The validator does not ask for whole stars: 3.5 passes. */
  lemma FractionalRatingAccepted()
    ensures ReviewOk(map["nota" := JNum(3.5), "animacao_id" := JNum(7.0)])
  {
    var body := map["nota" := JNum(3.5), "animacao_id" := JNum(7.0)];
    assert Get(body, "comentario") == Absent;
  }

  /** An id one past `Number.MAX_SAFE_INTEGER` is refused although it is a positive integer. */
  lemma UnsafeIdRejected(body: Body)
    requires "animacao_id" in body && body["animacao_id"] == JNum(MaxSafe + 1.0)
    ensures !ReviewOk(body)
  {
  }

  /** An explicit `null` comment is refused although an empty one is accepted. */
  lemma NullCommentRejected(body: Body)
    requires "comentario" in body && body["comentario"] == JNull
    ensures !ReviewOk(body)
  {
  }

  /** The year bound moves with the current year: both ends are inclusive. */
  lemma YearBounds(body: Body, currentYear: int, isUri: string -> bool, y: int)
    requires TitleOk(body, currentYear, isUri)
    ensures TitleOk(body["ano_lancamento" := JNum(y as real)], currentYear, isUri) <==>
              1900 <= y <= currentYear + 5 && Safe(y as real)
  {
    var b2 := body["ano_lancamento" := JNum(y as real)];
    assert forall k :: k != "ano_lancamento" ==> Get(b2, k) == Get(body, k);
    assert IsIntegral(y as real);
  }

  /** A title body with an empty genre list is refused. */
  lemma EmptyGenresRejected(body: Body, currentYear: int, isUri: string -> bool)
    requires "generos" in body && body["generos"] == JArr([])
    ensures !TitleOk(body, currentYear, isUri)
  {
  }

  /** The middleware hands over exactly the accepted bodies. */
  lemma GateFollowsSchema(body: Body, isEmail: string -> bool)
    ensures Check(UserOk(body, isEmail)).Next? <==>
      && "nome" in body && body["nome"].JStr? && 2 <= |body["nome"].s| <= 100
      && "email" in body && body["email"].JStr? && body["email"].s != "" && isEmail(body["email"].s)
      && "senha" in body && body["senha"].JStr? && |body["senha"].s| >= 6
  {
  }
}

=== FILE: watchlist.dfy ===
/**
 * The personal-list handlers of backend/controllers/listaController.js:
 * a validated upsert, a keyed delete and the caller's filtered, paginated
 * list. The caller's id comes from the authenticated request.
 */
module Watchlist {
  import opened Common
  import opened Schema
  import opened Paging
  import opened Ranking

  /** The entry is the caller's entry for the title: the table's unique key. */
  predicate KeyIs(e: ListEntry, user: int, title: int) {
    e.userId == user && e.titleId == title
  }

  predicate HasEntry(es: seq<ListEntry>, user: int, title: int) {
    exists i :: 0 <= i < |es| && KeyIs(es[i], user, title)
  }

  function CountKey(es: seq<ListEntry>, user: int, title: int): nat {
    CountWhere(es, e => KeyIs(e, user, title))
  }

  /** JavaScript truthiness of a numeric body property: 0 is falsy. */
  predicate TruthyId(f: Field<int>) {
    f.Present? && f.value != 0
  }

  predicate TruthyString(f: Field<string>) {
    f.Present? && f.value != ""
  }

  /**
   * `INSERT … ON DUPLICATE KEY UPDATE status = ?, updated_at = now`: rewrite
   * the entry with that key, or append a new one.
   */
  function Upsert(es: seq<ListEntry>, user: int, title: int, s: ListStatus, now: int): (r: seq<ListEntry>)
    ensures |r| == if HasEntry(es, user, title) then |es| else |es| + 1
    ensures HasEntry(r, user, title)
    ensures forall x :: x in r && KeyIs(x, user, title) ==> x.status == s && x.updatedAt == now
    ensures forall x :: !KeyIs(x, user, title) ==> (x in r <==> x in es)
  {
    if HasEntry(es, user, title) then
      var r := seq(|es|, i requires 0 <= i < |es| =>
        if KeyIs(es[i], user, title) then es[i].(status := s, updatedAt := now) else es[i]);
      UpdatedInPlace(es, user, title, s, now, r);
      r
    else
      var x := ListEntry(user, title, s, now, now);
      assert KeyIs((es + [x])[|es|], user, title);
      es + [x]
  }

  /** The `ON DUPLICATE KEY UPDATE` branch: the matching rows take the new status and time. */
  lemma UpdatedInPlace(es: seq<ListEntry>, user: int, title: int, s: ListStatus, now: int, r: seq<ListEntry>)
    requires HasEntry(es, user, title)
    requires |r| == |es|
    requires forall i :: 0 <= i < |es| ==>
               r[i] == if KeyIs(es[i], user, title) then es[i].(status := s, updatedAt := now) else es[i]
    ensures HasEntry(r, user, title)
    ensures forall x :: x in r && KeyIs(x, user, title) ==> x.status == s && x.updatedAt == now
    ensures forall x :: !KeyIs(x, user, title) ==> (x in r <==> x in es)
  {
    var k :| 0 <= k < |es| && KeyIs(es[k], user, title);
    assert KeyIs(r[k], user, title);
    forall x | !KeyIs(x, user, title) ensures x in r <==> x in es {
      if x in es {
        var i :| 0 <= i < |es| && es[i] == x;
        assert r[i] == x;
      }
    }
  }

  /**
   * `addToLista`. A missing id or status is 400, an unknown status is 400,
   * a missing title is 404; otherwise the entry is upserted and the answer
   * is 200.
   */
  function AddToList(db: Db, caller: int, animacaoId: Field<int>, status: Field<string>, now: int): (r: Outcome)
    ensures r.status in {200, 400, 404}
    ensures r.status == 400 <==> !TruthyId(animacaoId) || !TruthyString(status) || ParseListStatus(status.value).None?
    ensures r.status == 404 <==>
              (TruthyId(animacaoId) && TruthyString(status) && ParseListStatus(status.value).Some?
               && !TitleExists(db.titles, animacaoId.value))
    ensures r.status != 200 ==> r.db == db
    ensures r.status == 200 ==> r.db == db.(lista := r.db.lista)
    ensures r.status == 200 ==>
              r.db.lista == Upsert(db.lista, caller, animacaoId.value, ParseListStatus(status.value).value, now)
  {
    if !TruthyId(animacaoId) || !TruthyString(status) then Outcome(400, db)
    else match ParseListStatus(status.value)
      case None => Outcome(400, db)
      case Some(s) =>
        if !TitleExists(db.titles, animacaoId.value) then Outcome(404, db)
        else Outcome(200, db.(lista := Upsert(db.lista, caller, animacaoId.value, s, now)))
  }

  /** `DELETE FROM lista_pessoal WHERE usuario_id = ? AND animacao_id = ?`. */
  function RemoveKey(es: seq<ListEntry>, user: int, title: int): (r: seq<ListEntry>)
    ensures forall x :: x in r <==> x in es && !KeyIs(x, user, title)
  {
    Filter(es, e => !KeyIs(e, user, title))
  }

  /** `removeFromLista`: 404 when nothing matched the key. */
  function RemoveFromList(db: Db, caller: int, animacaoId: int): (r: Outcome)
    ensures r.status in {200, 404}
    ensures r.status == 404 <==> !HasEntry(db.lista, caller, animacaoId)
    ensures r.status == 404 ==> r.db == db
    ensures r.status == 200 ==> r.db == db.(lista := r.db.lista)
    ensures r.status == 200 ==> forall x :: x in r.db.lista <==> x in db.lista && !KeyIs(x, caller, animacaoId)
  {
    if !HasEntry(db.lista, caller, animacaoId) then Outcome(404, db)
    else Outcome(200, db.(lista := RemoveKey(db.lista, caller, animacaoId)))
  }

  // ------------------------------------------------------------- listing

  /** `WHERE usuario_id = ? [AND status = ?]`, the status only when non-empty. */
  predicate Selected(e: ListEntry, caller: int, status: string) {
    e.userId == caller && (status == "" || ListStatusName(e.status) == status)
  }

  function RecentlyUpdated(e: ListEntry): Key {
    ByOne(e.updatedAt as real)
  }

  /**
   * `getMinhaLista`, with `page` 1 and `limit` 20 when absent. The rows come
   * from the join with `animacoes`; the total from a count over
   * `lista_pessoal` alone with the same predicate.
   */
  function MyList(db: Db, caller: int, status: string, pageParam: Option<int>, limitParam: Option<int>): (r: Option<Page<ListEntry>>)
    ensures var page := ParamOr(pageParam, 1); var limit := ParamOr(limitParam, 20);
      && (r.Some? <==> limit >= 0 && (page - 1) * limit >= 0)
      && (r.Some? ==> r.value.info.page == page && r.value.info.limit == limit)
      && (r.Some? ==> r.value.info.pages == Pages(r.value.info.total, limit))
      && (r.Some? ==> |r.value.items| == PageSize(|Shown(db, caller, status)|, page, limit))
    ensures r.Some? ==> r.value.info.total == CountWhere(db.lista, e => Selected(e, caller, status))
    ensures r.Some? ==> forall i :: 0 <= i < |r.value.items| ==>
              && r.value.items[i] in db.lista
              && r.value.items[i].userId == caller
              && (status == "" || ListStatusName(r.value.items[i].status) == status)
              && TitleExists(db.titles, r.value.items[i].titleId)
    ensures r.Some? ==> forall i, j :: 0 <= i < j < |r.value.items| ==>
              r.value.items[i].updatedAt >= r.value.items[j].updatedAt
  {
    var page := ParamOr(pageParam, 1);
    var limit := ParamOr(limitParam, 20);
    var total := CountWhere(db.lista, e => Selected(e, caller, status));
    match PageOf(Shown(db, caller, status), RecentlyUpdated, page, limit)
    case None => None
    case Some(p) =>
      ShownPageFacts(db, caller, status, p.items);
      Some(p.(info := p.info.(total := total, pages := Pages(total, limit))))
  }

  /** Without parameters the answer is the first page of twenty: the twenty most recently updated entries, or all of them. */
  lemma MyListDefaultPage(db: Db, caller: int, status: string)
    ensures var r := MyList(db, caller, status, None, None);
      && r.Some? && r.value.info.page == 1 && r.value.info.limit == 20
      && |r.value.items| == Min(20, |Shown(db, caller, status)|)
    ensures var items := MyList(db, caller, status, None, None).value.items;
      forall e, i :: e in Shown(db, caller, status) && e !in items && 0 <= i < |items| ==> items[i].updatedAt >= e.updatedAt
  {
    assert MyList(db, caller, status, None, None) == MyList(db, caller, status, Some(1), Some(20));
    var items := MyList(db, caller, status, Some(1), Some(20)).value.items;
    forall e, i | e in Shown(db, caller, status) && e !in items && 0 <= i < |items|
      ensures items[i].updatedAt >= e.updatedAt
    {
      FirstPageLatest(db, caller, status, 20, e, i);
    }
  }

  /** A shown entry missing from the first page was updated no later than any entry on it. */
  lemma FirstPageLatest(db: Db, caller: int, status: string, limit: int, e: ListEntry, i: int)
    requires limit > 0 && MyList(db, caller, status, Some(1), Some(limit)).Some?
    requires e in Shown(db, caller, status) && e !in MyList(db, caller, status, Some(1), Some(limit)).value.items
    requires 0 <= i < |MyList(db, caller, status, Some(1), Some(limit)).value.items|
    ensures MyList(db, caller, status, Some(1), Some(limit)).value.items[i].updatedAt >= e.updatedAt
  {
    var items := MyList(db, caller, status, Some(1), Some(limit)).value.items;
    assert items == PageOf(Shown(db, caller, status), RecentlyUpdated, 1, limit).value.items;
    FirstPageIsTop(Shown(db, caller, status), RecentlyUpdated, limit, e, i);
    assert AtLeast(RecentlyUpdated(items[i]), RecentlyUpdated(e));
  }

  /** The caller's selected entries whose title still exists, in table order. */
  function Shown(db: Db, caller: int, status: string): (r: seq<ListEntry>)
    ensures forall e :: e in r <==> e in db.lista && Selected(e, caller, status) && TitleExists(db.titles, e.titleId)
  {
    Filter(db.lista, e => Selected(e, caller, status) && TitleExists(db.titles, e.titleId))
  }

  /**
   * Paging through the list shows every selected entry whose title exists,
   * on some page from 1 on.
   */
  lemma EveryEntryListed(db: Db, caller: int, status: string, limit: int, e: ListEntry)
    requires limit > 0 && e in db.lista && Selected(e, caller, status) && TitleExists(db.titles, e.titleId)
    ensures exists p :: 1 <= p && MyList(db, caller, status, Some(p), Some(limit)).Some?
                        && e in MyList(db, caller, status, Some(p), Some(limit)).value.items
  {
    var shown := Shown(db, caller, status);
    EveryRowOnAPage(shown, RecentlyUpdated, limit, e);
    var p :| 1 <= p <= PageCount(|shown|, limit) && PageOf(shown, RecentlyUpdated, p, limit).Some?
             && e in PageOf(shown, RecentlyUpdated, p, limit).value.items;
    assert MyList(db, caller, status, Some(p), Some(limit)).value.items == PageOf(shown, RecentlyUpdated, p, limit).value.items;
  }

  /** A page cut from the shown entries, most recently updated first. */
  lemma ShownPageFacts(db: Db, caller: int, status: string, items: seq<ListEntry>)
    requires forall i :: 0 <= i < |items| ==> items[i] in Shown(db, caller, status)
    requires SortedDesc(items, RecentlyUpdated)
    ensures forall i :: 0 <= i < |items| ==>
              && items[i] in db.lista && items[i].userId == caller
              && (status == "" || ListStatusName(items[i].status) == status)
              && TitleExists(db.titles, items[i].titleId)
    ensures forall i, j :: 0 <= i < j < |items| ==> items[i].updatedAt >= items[j].updatedAt
  {
    forall i, j | 0 <= i < j < |items| ensures items[i].updatedAt >= items[j].updatedAt {
      assert AtLeast(RecentlyUpdated(items[i]), RecentlyUpdated(items[j]));
    }
  }

  /** A page lists no entry more often than the join returns it. */
  lemma MyListRepeatsNothing(db: Db, caller: int, status: string, pageParam: Option<int>, limitParam: Option<int>)
    requires MyList(db, caller, status, pageParam, limitParam).Some?
    ensures multiset(MyList(db, caller, status, pageParam, limitParam).value.items) <= multiset(Shown(db, caller, status))
  {
    var page := ParamOr(pageParam, 1);
    var limit := ParamOr(limitParam, 20);
    assert MyList(db, caller, status, pageParam, limitParam).value.items
        == PageOf(Shown(db, caller, status), RecentlyUpdated, page, limit).value.items;
  }

  /** An entry on an earlier page was updated no earlier than any entry on a later page. */
  lemma MyListPagesInOrder(db: Db, caller: int, status: string, limit: int, p1: int, p2: int, i: int, j: int)
    requires limit > 0 && 1 <= p1 < p2
    requires MyList(db, caller, status, Some(p1), Some(limit)).Some?
    requires MyList(db, caller, status, Some(p2), Some(limit)).Some?
    requires 0 <= i < |MyList(db, caller, status, Some(p1), Some(limit)).value.items|
    requires 0 <= j < |MyList(db, caller, status, Some(p2), Some(limit)).value.items|
    ensures MyList(db, caller, status, Some(p1), Some(limit)).value.items[i].updatedAt
         >= MyList(db, caller, status, Some(p2), Some(limit)).value.items[j].updatedAt
  {
    var shown := Shown(db, caller, status);
    assert MyList(db, caller, status, Some(p1), Some(limit)).value.items == PageOf(shown, RecentlyUpdated, p1, limit).value.items;
    assert MyList(db, caller, status, Some(p2), Some(limit)).value.items == PageOf(shown, RecentlyUpdated, p2, limit).value.items;
    EarlierPageRanksHigher(shown, RecentlyUpdated, limit, p1, p2, i, j);
  }

  // ------------------------------------------------------------ properties

  lemma {:induction false} CountZeroIffAbsent(es: seq<ListEntry>, user: int, title: int)
    ensures CountKey(es, user, title) == 0 <==> !HasEntry(es, user, title)
  {
    if |es| > 0 {
      CountZeroIffAbsent(es[1..], user, title);
      if HasEntry(es[1..], user, title) {
        var i :| 0 <= i < |es[1..]| && KeyIs(es[1..][i], user, title);
        assert es[i + 1] == es[1..][i];
      }
      if HasEntry(es, user, title) && !KeyIs(es[0], user, title) {
        var i :| 0 <= i < |es| && KeyIs(es[i], user, title);
        assert es[1..][i - 1] == es[i];
      }
    }
  }

  /** With unique keys, a key occurs at most once. */
  lemma {:induction false} UniqueCountAtMostOne(es: seq<ListEntry>, user: int, title: int)
    requires ListKeysUnique(es)
    ensures CountKey(es, user, title) <= 1
  {
    if |es| > 0 {
      assert ListKeysUnique(es[1..]) by {
        forall i, j | 0 <= i < j < |es[1..]|
          ensures es[1..][i].userId != es[1..][j].userId || es[1..][i].titleId != es[1..][j].titleId
        {
          assert es[1..][i] == es[i + 1] && es[1..][j] == es[j + 1];
        }
      }
      UniqueCountAtMostOne(es[1..], user, title);
      if KeyIs(es[0], user, title) {
        assert !HasEntry(es[1..], user, title) by {
          forall i | 0 <= i < |es[1..]| ensures !KeyIs(es[1..][i], user, title) {
            assert es[1..][i] == es[i + 1];
          }
        }
        CountZeroIffAbsent(es[1..], user, title);
      }
    }
  }

  lemma UpsertKeepsUnique(es: seq<ListEntry>, user: int, title: int, s: ListStatus, now: int)
    requires ListKeysUnique(es)
    ensures ListKeysUnique(Upsert(es, user, title, s, now))
  {
    var r := Upsert(es, user, title, s, now);
    if !HasEntry(es, user, title) {
      forall i, j | 0 <= i < j < |r|
        ensures r[i].userId != r[j].userId || r[i].titleId != r[j].titleId
      {
        if j == |es| {
          assert r[i] == es[i];
        }
      }
    }
  }

  /**
   * Add is an upsert: afterwards exactly one entry holds the caller's key,
   * with the requested status, and every other entry is untouched.
   */
  lemma UpsertExactlyOne(es: seq<ListEntry>, user: int, title: int, s: ListStatus, now: int)
    requires ListKeysUnique(es)
    ensures var r := Upsert(es, user, title, s, now);
      && CountKey(r, user, title) == 1
      && (forall x :: x in r && KeyIs(x, user, title) ==> x.status == s && x.updatedAt == now)
      && (forall x :: !KeyIs(x, user, title) ==> (x in r <==> x in es))
  {
    var r := Upsert(es, user, title, s, now);
    UpsertKeepsUnique(es, user, title, s, now);
    UniqueCountAtMostOne(r, user, title);
    assert HasEntry(r, user, title) by {
      if HasEntry(es, user, title) {
        var i :| 0 <= i < |es| && KeyIs(es[i], user, title);
        assert KeyIs(r[i], user, title);
      } else {
        assert KeyIs(r[|es|], user, title);
      }
    }
    CountZeroIffAbsent(r, user, title);
    forall x | !KeyIs(x, user, title) ensures x in r <==> x in es {
      if x in es {
        var i :| 0 <= i < |es| && es[i] == x;
        assert r[i] == x;
      }
    }
  }

  lemma AddToListKeepsValid(db: Db, caller: int, animacaoId: Field<int>, status: Field<string>, now: int)
    requires Valid(db)
    ensures Valid(AddToList(db, caller, animacaoId, status, now).db)
  {
    var r := AddToList(db, caller, animacaoId, status, now);
    if r.status == 200 {
      var s := ParseListStatus(status.value).value;
      UpsertKeepsUnique(db.lista, caller, animacaoId.value, s, now);
      var es := Upsert(db.lista, caller, animacaoId.value, s, now);
      assert forall i :: 0 <= i < |es| ==> TitleExists(db.titles, es[i].titleId) by {
        forall i | 0 <= i < |es| ensures TitleExists(db.titles, es[i].titleId) {
          if i < |db.lista| {
            assert es[i].titleId == db.lista[i].titleId;
          }
        }
      }
    }
  }

  /** Adding the same title twice, whatever the statuses, leaves one entry for it. */
  lemma ReAddOverwrites(db: Db, caller: int, title: int, s1: string, s2: string, t1: int, t2: int)
    requires Valid(db)
    requires AddToList(db, caller, Present(title), Present(s1), t1).status == 200
    ensures var db1 := AddToList(db, caller, Present(title), Present(s1), t1).db;
      var r2 := AddToList(db1, caller, Present(title), Present(s2), t2);
      r2.status == 200 || r2.status == 400
    ensures var db1 := AddToList(db, caller, Present(title), Present(s1), t1).db;
      var r2 := AddToList(db1, caller, Present(title), Present(s2), t2);
      r2.status == 200 <==> ParseListStatus(s2).Some?
    ensures var db1 := AddToList(db, caller, Present(title), Present(s1), t1).db;
      var r2 := AddToList(db1, caller, Present(title), Present(s2), t2);
      r2.status == 200 ==>
        && CountKey(r2.db.lista, caller, title) == 1
        && forall x :: x in r2.db.lista && KeyIs(x, caller, title) ==> x.status == ParseListStatus(s2).value && x.updatedAt == t2
  {
    var db1 := AddToList(db, caller, Present(title), Present(s1), t1).db;
    AddToListKeepsValid(db, caller, Present(title), Present(s1), t1);
    var r2 := AddToList(db1, caller, Present(title), Present(s2), t2);
    if r2.status == 200 {
      UpsertExactlyOne(db1.lista, caller, title, ParseListStatus(s2).value, t2);
    }
  }

  lemma RemoveKeepsValid(db: Db, caller: int, animacaoId: int)
    requires Valid(db)
    ensures Valid(RemoveFromList(db, caller, animacaoId).db)
  {
    var r := RemoveFromList(db, caller, animacaoId);
    if r.status == 200 {
      FilterPairwise(db.lista, e => !KeyIs(e, caller, animacaoId),
                     (a: ListEntry, b: ListEntry) => a.userId != b.userId || a.titleId != b.titleId);
      var es := r.db.lista;
      assert forall i :: 0 <= i < |es| ==> es[i] in db.lista;
    }
  }

  /**
   * Under the foreign keys every counted entry is also a listed one, so the
   * total is the number of rows the join returns over all pages.
   */
  lemma TotalMatchesRows(db: Db, caller: int, status: string)
    requires ReferencesTitles(db)
    ensures CountWhere(db.lista, e => Selected(e, caller, status))
         == |Shown(db, caller, status)|
  {
    FilterExt(db.lista, e => Selected(e, caller, status),
              e => Selected(e, caller, status) && TitleExists(db.titles, e.titleId));
  }
}
